=== FILE: README.md ===
# Hospital occupancy message parser, in Dafny

A model of the text-processing core of a Telegram bot that turns hospital
bed-occupancy messages into PDF reports. The model covers three parts of
the bot.

1. **The message extractors** (`utils.py`):
   - the field extractors `parse_percentage`, `parse_beds` and `clean_text`;
   - the capacity tables `CLINICAL_UNITS` and `ICU_UNITS`;
   - the simple format (`parse_simple_format` and `_generate_summary`). Each line is
     `<label> (<N> leitos) - <d>,<d>%`, and a summary counts occupied
     clinical and intensive-care beds;
   - the structured format (`extract_hospital_data`, `_parse_hospital_units`,
     `_create_new_unit` and `_update_unit_stats`). 🏥 opens a hospital, 🟢 opens a
     unit, and keyword lines set a unit's counts.
2. **Dispatch and validation** (`hospital_parser.py`):
   - `parse_message` chooses the format by the line-suffix rule. It reads the
     `🔴Taxa de ocupação` rates section and wraps every failure in a ValueError.
   - `validate_data` checks the shape of a result dict.
3. **The template registry** (`templates/template_manager.py`). It maps
   names to opaque templates and keeps a current name.

Everything is pure functions over immutable values:
- Strings are `seq<char>`.
- Python dicts are entry sequences in insertion order (`Dicts`).
- Numbers are `nat`, `int` and exact `real`.
- Python's `float` results are `Floats.Float`: a finite real, a signed infinity or NaN.

Each fixed regular expression has two halves:
- a declarative predicate over the positions of its groups;
- a greedy recogniser, with lemmas showing that it finds exactly the match
  `re.match`/`re.search` defines.

Two of the source's loops are modelled once, as generic folds:
- `Blocks`: records opened by header lines, which later lines update;
- `Readers`: lines parsed into a dict, stopping at the first error.

Both folds are related to a block-wise or reference reading by lemmas.

Modules, in dependency order:
- `Results`: Option and Result;
- `Dicts`: dict entries;
- `Text`: strip, split, `clean_text`, replace and lower;
- `Floats`: Python `float()`;
- `Extractors`: `parse_percentage` and `parse_beds`;
- `UnitTables`: the capacity and alias tables;
- `Lists`;
- `Blocks`;
- `Readers`;
- `SimpleFormat`;
- `StructuredFormat`;
- `HospitalParser`;
- `TemplateManager`.

## Model

| member | source | states |
|---|---|---|
| Text.Strip | utils.py:66 | `str.strip()`: the result is a slice of the input with only whitespace cut from both ends; it neither starts nor ends with whitespace; it is empty exactly when the input is all whitespace |
| Text.StripKeeps | utils.py:143 | stripping keeps exactly the non-whitespace characters that were there |
| Text.Split | utils.py:66 | `s.split(c)`: at least one piece, no piece holds the separator, and joining the pieces with it gives the input back |
| Text.SplitJoin | hospital_parser.py:38 | splitting pieces that were joined gives the pieces back (the inverse of the join) |
| Text.SplitCount | hospital_parser.py:38 | a split has exactly one piece more than the text has separators |
| Text.StrippedNonBlankKept | utils.py:143 | `[l.strip() for l in lines if l.strip()]`: as many results as non-blank pieces, and the k-th result is the k-th non-blank piece stripped, so none is lost or reordered |
| Text.CleanText | utils.py:18-20 | `clean_text`: the result has the same whitespace-separated tokens as the input, no leading, trailing or doubled whitespace, and only plain spaces |
| Text.CleanTextIdempotent | utils.py:18-20 | cleaning twice is cleaning once |
| Text.CleanTextFixedPoints | utils.py:18-20 | a text is left unchanged by `clean_text` exactly when it is already normalized |
| Text.WordsOfJoin | utils.py:20 | `' '.join(ws).split()` gives back the tokens `ws` |
| Text.ReplaceCharSplitJoin | utils.py:9 | `text.replace(',', '.')` equals `'.'.join(text.split(','))`: the pieces between the commas, in order, with a point between them |
| Text.RemoveChar | utils.py:159 | `line.replace('🟢', '')`: the character is gone and every other character is still present |
| Text.RemoveCharLength | utils.py:159 | `line.replace('🟢', '')` is shorter than the line by exactly the number of 🟢 in it |
| Text.RemoveCharSplitJoin | utils.py:159 | `line.replace('🟢', '')` equals `''.join(line.split('🟢'))`, so the other characters keep their order and multiplicity |
| Text.AsciiLower | utils.py:179 | `line.lower()` for the ASCII letters: each capital becomes its small letter, every other character is kept, and no capital is left |
| Text.AsciiLowerFixedPoints | utils.py:179 | lowering leaves a text unchanged exactly when it holds no capital |
| Text.AsciiLowerIdempotent | utils.py:179 | lowering twice is lowering once |
| Text.LastPiece | hospital_parser.py:31 | `split(marker)[-1]`: a suffix of the message that holds no marker and either directly follows an occurrence of the marker or is the whole message |
| Text.LastPieceOfAbsent | hospital_parser.py:31 | when the marker does not occur, `split(marker)[-1]` is the whole message |
| Floats.ParseFloat | hospital_parser.py:39 | `float(text)` on a stripped text: the empty text raises |
| Floats.ParseFloatDigits | hospital_parser.py:39 | a run of digits is read as the whole number it writes |
| Floats.ParseFloatPoint | utils.py:78 | `digits.digits` is read as the whole part plus the fraction |
| Floats.ParseFloatRejectsForeign | hospital_parser.py:39 | a stripped text holding a character no float literal has, such as a decimal comma or `%`, makes `float` raise |
| Floats.ParseFloatGroupedExample | hospital_parser.py:39 | `float("1_0.5")` is 10.5: underscores group digits |
| Floats.ParseFloatExponentExample | hospital_parser.py:39 | `float("2.5e1")` is 25 |
| Floats.ParseFloatInfinityExample | hospital_parser.py:39 | `float("-Inf")` is negative infinity |
| Floats.ParseFloatPercentExample | hospital_parser.py:39 | `float("80%")` raises |
| Extractors.PercentMatchUnique | utils.py:10 | a match of `(\d+(?:\.\d+)?)\s*%` at a position is determined by that position (greedy group, then the `%`) |
| Extractors.FindPercent | utils.py:10 | `re.search`: the match found is the leftmost one after the start, and there is none when it finds nothing |
| Extractors.ParsePercentage | utils.py:7-11 | `parse_percentage`: the value of the number of the leftmost `<number>%` match after commas become points, 0 when there is no match, never negative |
| Extractors.BedsMatchUnique | utils.py:15 | a match of `\((\d+)\s*(?:leitos?)?\)` at a position is determined by that position |
| Extractors.FindBeds | utils.py:15 | `re.search`: the leftmost match, and none when nothing matches |
| Extractors.ParseBeds | utils.py:13-16 | `parse_beds`: the number of the leftmost `(N)`, `(N leito)` or `(N leitos)` group paired with 0, and (0, 0) when there is none |
| UnitTables.TotalClinicalBeds | utils.py:39 | the clinical capacities sum to 123 |
| UnitTables.TotalIcuBeds | utils.py:40 | the intensive-care capacities sum to 84 |
| UnitTables.TablesWellFormed | utils.py:23-37 | the table literals have distinct keys and no unit is in both capacity tables |
| UnitTables.ResolveAlias | utils.py:75 | `unit_mappings.get(label, label)`: a listed label becomes its canonical name and any other label is kept |
| UnitTables.AliasTargetsAreKnownUnits | utils.py:53-64 | every canonical name of the alias table is a unit of one of the capacity tables |
| Lists.FilterMapKept | utils.py:68-72 | the k-th result of a filtering loop is what the k-th kept element gives |
| Blocks.ScanIsBlocks | utils.py:143-154 | the header/detail loop equals the block-wise reading: lines before the first header are dropped and each header opens one record |
| Blocks.BlocksFollowHeaders | utils.py:143-154 | one record per header, the k-th being the k-th header's record with the lines up to the next header folded in |
| Blocks.BodiesHaveNoHeader | utils.py:143-149 | no line folded into a record is a header |
| Readers.ReadAllFailure | hospital_parser.py:34-40 | the rates loop raises exactly when some read line does not parse, and with the error of the first such line |
| Readers.ReadAllLookup | hospital_parser.py:34-40 | when the rates loop succeeds the keys are distinct and each maps to the value of the last line read with it |
| Dicts.AssignLookup | hospital_parser.py:40 | `d[key] = value`: the key maps to the value, every other key keeps its value, keys stay distinct |
| SimpleFormat.TailMatchUnique | utils.py:70 | after a given label, the rest of the pattern can match in one way only, the greedy one |
| SimpleFormat.FindLabelEnd | utils.py:70 | the lazy `.+?` label: the first label end after which the rest matches, and none when no label end works |
| SimpleFormat.MatchLine | utils.py:70 | what the recogniser finds is a `re.match` match with the shortest label |
| SimpleFormat.MatchLineComplete | utils.py:70-72 | the recogniser finds a match exactly when the line has the pattern's shape |
| SimpleFormat.LineMatchUnique | utils.py:70 | every match of a line is the one the recogniser reports |
| SimpleFormat.RoundHalfEven | utils.py:81 | `round`: within one half of the argument, ties to the even integer |
| SimpleFormat.UnitOf | utils.py:77-82 | occupied plus available is the bed count, and occupied is the rate's share of the beds rounded |
| SimpleFormat.UnitFromLineGroups | utils.py:70-93 | a matching line's unit: alias-resolved stripped label, bed count and rate read from the groups, occupied beds rounded from the exact share, available the rest |
| SimpleFormat.UnitLineShape | utils.py:70-72 | a line yields a unit only if it holds `(`, `)`, `-`, `%` and a `.` or `,` |
| SimpleFormat.OneUnitPerMatchingLine | utils.py:66-101 | exactly one unit per matching non-blank line, in input order |
| SimpleFormat.WithoutParenNoUnits | utils.py:66-72 | a text without `(`, such as `Clínica Médica - 80%`, yields no unit: the simple path has no table fallback |
| SimpleFormat.ExampleLine | utils.py:53-93 | `UTI 1 (17 leitos) - 94,11%` gives `UTI HUERB 1` with 17 beds, rate 94.11, 16 occupied and 1 available |
| SimpleFormat.OccupiedPartition | utils.py:85-99 | the clinical and the intensive-care sums partition the occupied beds of all units |
| SimpleFormat.GenerateSummary | utils.py:109-122 | the summary carries capacities and occupied counts over, and available plus occupied equals the capacity per class and in total |
| SimpleFormat.Accumulate | utils.py:68-101 | the loop appends the units of the matching lines and adds their occupied beds to the clinical or intensive-care count by `CLINICAL_UNITS` membership |
| SimpleFormat.ParseSimpleFormat | utils.py:42-107 | the report's units are those of the matching lines; capacities are the table totals 123, 84 and 207 whatever the input; the occupied and available counts are the class sums |
| StructuredFormat.TableCapacity | utils.py:162-166 | the clinical table is consulted first, then the intensive-care table, 0 when neither knows the name |
| StructuredFormat.CreateNewUnit | utils.py:156-175 | the cleaned name without 🟢; the `(N)` capacity, and the table capacity only when that is 0; zero counts and no details |
| StructuredFormat.FirstInt | utils.py:180-185 | the value of the first digit run of the line, None exactly when it has no digit |
| StructuredFormat.CountOf | utils.py:187-192 | which count a line sets, by keyword priority on the lowered line, none exactly when no keyword occurs |
| StructuredFormat.UpdateUnitStats | utils.py:177-194 | a digitless line changes nothing; otherwise the count its keyword names becomes the first number and the line is appended to the details |
| StructuredFormat.ApplyAllEffect | utils.py:177-194 | after a series of lines the details are exactly the lines with a digit and each count is set by the last line naming it |
| StructuredFormat.UnitsFollowHeaders | utils.py:138-154 | `_parse_hospital_units` gives one unit per 🟢 line, built from that line and the lines up to the next one |
| StructuredFormat.OneUnitPerHeader | utils.py:138-154 | the k-th unit is named after the k-th 🟢 line, keeps its capacity, and its counts and details come from its own lines only |
| StructuredFormat.Sections | utils.py:128 | the k-th section is the k-th non-blank piece of `text.split('🏥')`, stripped, and none is lost; no section holds 🏥 |
| StructuredFormat.SectionHospital | utils.py:129-133 | a section's hospital is named by its cleaned first line, which is non-empty and normalized, and its units are parsed from the lines after it |
| StructuredFormat.ExtractHospitalData | utils.py:124-136 | one hospital per section, in order, each with a non-empty name free of 🏥 |
| StructuredFormat.HospitalsFromPieces | utils.py:124-136 | the k-th hospital comes from the k-th non-blank 🏥-piece: its stripped first line, cleaned, is the name, and its later lines give the units |
| StructuredFormat.HospitalUnitsFollowHeaders | utils.py:128-154 | a hospital has one unit per 🟢 line after its name line, in order, named after that line and with that line's capacity |
| HospitalParser.ParseMessage | hospital_parser.py:22-43 | a message whose non-blank lines all end with `%` gives the simple report; any other message that parses gives `extract_hospital_data`'s hospitals |
| HospitalParser.ParseMessageOrRaise | hospital_parser.py:45-46 | every failure is raised with the text `Failed to parse hospital data: ` followed by the text of the cause |
| HospitalParser.ParseMessageRates | hospital_parser.py:31-42 | a detailed message fails exactly when a rate line fails, with its cause (apart from the `int()` digit limit under "## Left out"); otherwise the rates have distinct names and each maps to the rate of its last line |
| HospitalParser.RatesWithoutMarker | hospital_parser.py:31 | without the `🔴Taxa de ocupação` heading every line of the message is read for rates |
| HospitalParser.EmptyMessageIsSimple | hospital_parser.py:24-25 | the empty message is simple (vacuous `all`) and gives no unit |
| HospitalParser.ParenlessSimpleMessage | hospital_parser.py:24-25 | a simple message without `(` parses, with no unit |
| HospitalParser.RateLineUnpack | hospital_parser.py:38 | the two-name unpacking raises exactly when the stripped line has a number of hyphens other than one, reporting one piece more than hyphens |
| HospitalParser.RateLineKey | hospital_parser.py:38-40 | a stored rate name has no hyphen and is stripped |
| HospitalParser.RateLineRoundTrip | hospital_parser.py:38-40 | `<name> - <digits>%` reads back as that name and that number |
| HospitalParser.HyphenatedNameFails | hospital_parser.py:38 | a hyphen in the unit name before ` - ` makes the unpacking raise with three or more pieces |
| HospitalParser.HyphenatedExample | hospital_parser.py:38 | `UTI-Adulto - 80%` splits into three pieces, so the unpacking raises |
| HospitalParser.ForeignRateFails | hospital_parser.py:39 | a rate such as `80,5` makes `float` raise, and the cause names the rate text |
| HospitalParser.Iterate | hospital_parser.py:72 | `for x in v`: list items, dict keys or characters; a number raises |
| HospitalParser.HasAllKeys | hospital_parser.py:73 | `issubset(keys())` is True exactly when the value is a dict with every key, and raises exactly when it is not a dict |
| HospitalParser.CheckItemsSpec | hospital_parser.py:76-79 | the unit loop answers True exactly when every unit conforms, and raises exactly when a non-dict unit comes before any unit lacking a key |
| HospitalParser.CheckHospitalsSpec | hospital_parser.py:72-80 | the hospital loop answers True exactly when every hospital has both keys and all its units conform |
| HospitalParser.ValidateData | hospital_parser.py:59-67 | an empty dict, or one with neither `hospitals` nor `units`, is invalid |
| HospitalParser.ValidateDataPasses | hospital_parser.py:59-89 | for every dict: with `hospitals` it passes exactly when every hospital has both keys and conforming units, whatever `units` holds; with only `units` it passes exactly when every unit has the three simple keys; otherwise it fails |
| HospitalParser.ReportsValidate | hospital_parser.py:59-89 | every report the parser can build passes validation |
| HospitalParser.ParsedMessagesValidate | hospital_parser.py:24-43 | whatever `parse_message` returns without raising passes `validate_data` |
| HospitalParser.EmptyListsValidate | hospital_parser.py:70-89 | an empty hospital list and an empty unit list both validate as True |
| HospitalParser.HospitalsTakePrecedence | hospital_parser.py:62-65 | `hospitals` is checked before `units` |
| HospitalParser.NonDictUnitRaises | hospital_parser.py:85-88 | a unit that is not a dict makes the validator raise |
| TemplateManager.Init | templates/template_manager.py:8-12 | a new registry holds only `default`, with the given template, and `default` is current |
| TemplateManager.Register | templates/template_manager.py:14-16 | the name maps to the template, the current name is unchanged, and the invariant is kept |
| TemplateManager.RegisterKeepsOthers | templates/template_manager.py:14-16 | registering leaves every other entry as it was |
| TemplateManager.GetTemplate | templates/template_manager.py:18-21 | the entry of the resolved name, else the `default` entry; raises exactly when `default` is missing |
| TemplateManager.GetAfterRegister | templates/template_manager.py:14-21 | a template registered under a non-empty name is returned for that name |
| TemplateManager.EmptyNameMeansCurrent | templates/template_manager.py:20 | the empty name is falsy: `get_template('')` returns the current template even after registering one under `''` |
| TemplateManager.GetCurrent | templates/template_manager.py:20-21 | without a name the current template is returned |
| TemplateManager.GetUnknown | templates/template_manager.py:21 | an unregistered name falls back to `default` |
| TemplateManager.SetDefault | templates/template_manager.py:23-28 | answers True and switches exactly when the name is registered, and changes nothing otherwise |
| TemplateManager.GetAfterSetDefault | templates/template_manager.py:18-28 | after a switch, `get_template()` returns the new current template |
| TemplateManager.ListTemplates | templates/template_manager.py:30-33 | the listing has exactly the registry's names, in order, each with its docstring or `No description available` |
| TemplateManager.ListingMatchesRegistry | templates/template_manager.py:30-33 | a name is listed exactly when it is registered, once, with a non-empty description |
| TemplateManager.RunKeepsValid | templates/template_manager.py:8-28 | any sequence of registrations and switches keeps `default` and the current name registered |
| TemplateManager.GetNeverFails | templates/template_manager.py:18-21 | after construction and any operations, `get_template` never raises |

## Behaviour of the code where its description differs

The model follows the code where the system's own design description
promises something else:
- The format choice never rejects a message. A message that is not all
  `...%` lines is parsed as structured. Prose without 🏥 becomes one
  hospital named after its first line; the text before the first 🏥 forms
  a hospital of its own when it is not blank.
- The simple path never falls back to the capacity tables. A line without
  `(N leitos)`, such as `Clínica Médica - 80%`, yields no unit
  (`WithoutParenNoUnits`). A rate without a decimal separator, such as `80%`,
  does not match either.
- A unit counts as clinical exactly when its name is a `CLINICAL_UNITS`
  key. There is no `UTI`/`UCI` substring rule, so every unknown name counts
  as intensive care.
- Empty hospital and unit lists validate as True (`EmptyListsValidate`).
- A message with no non-blank line is simple and yields an empty report
  (`EmptyMessageIsSimple`).
- Without the `🔴Taxa de ocupação` heading the whole message is scanned for
  rate lines. A line there that holds `- ` and `%` but not exactly one
  hyphen, or a rate that `float` rejects, makes the whole message fail.
  Examples are a hyphenated unit name (`HyphenatedNameFails`) and a decimal
  comma (`ForeignRateFails`).

## Left out

- Floating point: rates are exact reals. `float()` gives the exact decimal value, and `round` is exact round-half-even on that value. Binary rounding of the product `total * rate / 100` can differ from the exact value at or near a tie.
- Unicode: `\d`, `int()` and `float()` accept ASCII digits only, where Python also accepts other decimal digits (`float('٥')` is 5.0; the model rejects it as a foreign character). `lower()` lowers ASCII letters only; the keywords it is compared with are ASCII.
- Overflow on the simple path: `int(round(total_beds * occupancy_rate / 100))` (utils.py:81) raises when a bed count of 309 to 4300 digits is too large to convert to a float (OverflowError; a longer one already fails at utils.py:77, see the next line), and when the float value of the product divided by 100 is infinite (OverflowError) or NaN (ValueError). Examples are a rate whose value exceeds the float range, a product beyond that range, and 0 beds at an infinite rate. `parse_message` turns each into a ValueError (hospital_parser.py:45-46). With exact reals the model never overflows, so it returns Success for these messages.
- The `int()` digit limit: from Python 3.11 on, `int()` raises ValueError on a string of more than 4300 digits (`sys.int_info.default_max_str_digits`). This affects `parse_beds` (utils.py:16), `int(total_beds)` (utils.py:77) and `_update_unit_stats` (utils.py:185), and `parse_message` wraps the error (hospital_parser.py:45-46). The model reads digit runs of any length, so it returns Success for such messages. The limit depends on the interpreter version and configuration.
- Extractors.ParseBeds: does not fail on a digit group of more than 4300 digits, for the reason above.
- StructuredFormat.FirstInt: does not fail on a first digit run of more than 4300 digits, for the reason above.
- SimpleFormat.UnitFromLineGroups: does not fail on a bed group of more than 4300 digits, for the reason above.
- Negative zero and the NaN payload of `float` are not distinguished.
- The date: `datetime.now()` in the simple report is a parameter, `date`.
- The text of Python exceptions: `ParseMessageOrRaise` takes the text of each cause as a parameter (`describe`). It is not derived from the interpreter's messages.
- `.` in `(.+?)` matches any character of a line. This is exact, because lines are split at newlines before matching.
- Exceptions raised inside `validate_data` (a TypeError from iterating a number, an AttributeError from calling `keys()` on an item that is not a dict) are `None` results.
- Templates are opaque values. Their docstrings are a function given to `ListTemplates`. The PDF layout they produce is not part of this model.
- The Telegram bot, PDF generation, e-mail sending and configuration are I/O and layout code, not part of this model.
- Floats.ParseFloat: `float()` also strips surrounding whitespace, so `float(" 80")` is 80.0; the model reads stripped text only, which is all hospital_parser.py:39 passes, and treats a space as a foreign character. Its contract only states that the empty text raises. What it reads is stated by the lemmas about it (digits, points, foreign characters and the examples).
- HospitalParser.ValidateData: its contract states only the invalid cases. `ValidateDataPasses` states what passes, for every dict.

=== FILE: blocks.dfy ===
/** A loop that groups lines into blocks: a header line opens a new record,
    every following line updates the open record, and the record is closed
    when the next header comes or the lines end. Lines before the first
    header have no record to update and are skipped. The loop is described
    twice, as the left-to-right scan with an open record and as a reading
    block by block, and the two are proved to agree. */
module Blocks {
  import opened Results

  /** What the loop does with a line: whether it opens a record, the record
      a header opens, and how a later line updates the open record. */
  datatype Grouping<!L, !U> = Grouping(isHeader: L -> bool, open: L -> U, step: (U, L) -> U)

  /** The lines applied in order to a record. */
  function Fold<L, U>(g: Grouping<L, U>, u: U, xs: seq<L>): U
    decreases |xs|
  {
    if |xs| == 0 then u else Fold(g, g.step(u, xs[0]), xs[1..])
  }

  /** The list with `current` appended when there is one. */
  function Close<U>(done: seq<U>, current: Option<U>): seq<U> {
    done + (if current.Some? then [current.value] else [])
  }

  /** The scan: `current` is the open record, `done` the records closed so far. */
  function Scan<L, U>(g: Grouping<L, U>, xs: seq<L>, current: Option<U>, done: seq<U>): seq<U>
    decreases |xs|
  {
    if |xs| == 0 then Close(done, current)
    else if g.isHeader(xs[0]) then Scan(g, xs[1..], Some(g.open(xs[0])), Close(done, current))
    else if current.Some? then Scan(g, xs[1..], Some(g.step(current.value, xs[0])), done)
    else Scan(g, xs[1..], None, done)
  }

  // A reference reading of the same loop, block by block.

  /** The lines from the first header on. */
  function FromFirstHeader<L, U>(g: Grouping<L, U>, xs: seq<L>): (r: seq<L>)
    ensures r == [] || g.isHeader(r[0])
    ensures |r| <= |xs| && r == xs[|xs| - |r|..]
    ensures forall k | 0 <= k < |xs| - |r| :: !g.isHeader(xs[k])
  {
    if |xs| == 0 then []
    else if g.isHeader(xs[0]) then xs
    else
      var r := FromFirstHeader(g, xs[1..]);
      assert forall k | 1 <= k < |xs| - |r| :: xs[k] == xs[1..][k - 1];
      r
  }

  /** How many lines come before the next header. */
  function BodyLength<L, U>(g: Grouping<L, U>, xs: seq<L>): (n: nat)
    ensures n <= |xs|
    ensures forall k | 0 <= k < n :: !g.isHeader(xs[k])
    ensures n == |xs| || g.isHeader(xs[n])
  {
    if |xs| == 0 || g.isHeader(xs[0]) then 0 else 1 + BodyLength(g, xs[1..])
  }

  /** The header lines, in order. */
  function Headers<L, U>(g: Grouping<L, U>, xs: seq<L>): (r: seq<L>)
    ensures |r| <= |xs|
    ensures forall k | 0 <= k < |r| :: g.isHeader(r[k])
  {
    if |xs| == 0 then []
    else (if g.isHeader(xs[0]) then [xs[0]] else []) + Headers(g, xs[1..])
  }

  /** For lines that start with a header: the lines after each header up to
      the next one. */
  function Bodies<L, U>(g: Grouping<L, U>, xs: seq<L>): seq<seq<L>>
    requires xs == [] || g.isHeader(xs[0])
    decreases |xs|
  {
    if |xs| == 0 then []
    else
      var n := 1 + BodyLength(g, xs[1..]);
      [xs[1..n]] + Bodies(g, xs[n..])
  }

  /** For lines that start with a header: one record per header, the
      header's record with its body folded into it. */
  function Blocks<L, U>(g: Grouping<L, U>, xs: seq<L>): seq<U>
    requires xs == [] || g.isHeader(xs[0])
    decreases |xs|
  {
    if |xs| == 0 then []
    else
      var n := 1 + BodyLength(g, xs[1..]);
      [Fold(g, g.open(xs[0]), xs[1..n])] + Blocks(g, xs[n..])
  }

  lemma ConcatAssoc<T>(a: seq<T>, b: seq<T>, c: seq<T>)
    ensures a + b + c == a + (b + c)
  {
  }

  /** With a record u open: the lines up to the next header fold into u,
      and every later header starts a block of its own. */
  lemma {:induction false} ScanOpen<L, U>(g: Grouping<L, U>, xs: seq<L>, u: U, done: seq<U>)
    ensures var n := BodyLength(g, xs);
      Scan(g, xs, Some(u), done) == done + ([Fold(g, u, xs[..n])] + Blocks(g, xs[n..]))
    decreases |xs|, 1
  {
    var n := BodyLength(g, xs);
    if |xs| == 0 {
      assert Scan(g, xs, Some(u), done) == done + [u];
      assert Fold(g, u, xs[..n]) == u;
    } else if g.isHeader(xs[0]) {
      ScanAtHeader(g, xs, Some(u), done);
      ConcatAssoc(done, [u], Blocks(g, xs));
      assert Fold(g, u, xs[..n]) == u;
      assert xs[n..] == xs;
    } else {
      ScanAtDetail(g, xs, u, done);
    }
  }

  /** At a header the records closed so far are followed by the blocks. */
  lemma {:induction false} ScanAtHeader<L, U>(g: Grouping<L, U>, xs: seq<L>, current: Option<U>, done: seq<U>)
    requires |xs| > 0 && g.isHeader(xs[0])
    ensures Scan(g, xs, current, done) == Close(done, current) + Blocks(g, xs)
    decreases |xs|, 0
  {
    var done' := Close(done, current);
    var c := g.open(xs[0]);
    var m := BodyLength(g, xs[1..]);
    assert Scan(g, xs, current, done) == Scan(g, xs[1..], Some(c), done');
    ScanOpen(g, xs[1..], c, done');
    assert xs[1..][..m] == xs[1..1 + m];
    assert xs[1..][m..] == xs[1 + m..];
  }

  /** A body line folds into the open record. */
  lemma {:induction false} ScanAtDetail<L, U>(g: Grouping<L, U>, xs: seq<L>, u: U, done: seq<U>)
    requires |xs| > 0 && !g.isHeader(xs[0])
    ensures var n := BodyLength(g, xs);
      Scan(g, xs, Some(u), done) == done + ([Fold(g, u, xs[..n])] + Blocks(g, xs[n..]))
    decreases |xs|, 0
  {
    var n := BodyLength(g, xs);
    var m := BodyLength(g, xs[1..]);
    var v := g.step(u, xs[0]);
    assert n == 1 + m;
    var body := xs[..n];
    assert body[0] == xs[0] && body[1..] == xs[1..][..m];
    assert Fold(g, u, body) == Fold(g, v, xs[1..][..m]);
    assert xs[1..][m..] == xs[n..];
    assert Scan(g, xs, Some(u), done) == Scan(g, xs[1..], Some(v), done);
    ScanOpen(g, xs[1..], v, done);
  }

  /** Before any header the lines are skipped. */
  lemma {:induction false} ScanClosed<L, U>(g: Grouping<L, U>, xs: seq<L>, done: seq<U>)
    ensures Scan(g, xs, None, done) == done + Blocks(g, FromFirstHeader(g, xs))
    decreases |xs|
  {
    if |xs| == 0 {
      assert Scan(g, xs, None, done) == done;
    } else if g.isHeader(xs[0]) {
      ScanAtHeader(g, xs, None, done);
    } else {
      assert Scan(g, xs, None, done) == Scan(g, xs[1..], None, done);
      ScanClosed(g, xs[1..], done);
    }
  }

  /** The scan computes the block-wise reading: lines before the first
      header are dropped and every header starts one record. */
  lemma ScanIsBlocks<L, U>(g: Grouping<L, U>, xs: seq<L>)
    ensures Scan(g, xs, None, []) == Blocks(g, FromFirstHeader(g, xs))
  {
    ScanClosed(g, xs, []);
    assert [] + Blocks(g, FromFirstHeader(g, xs)) == Blocks(g, FromFirstHeader(g, xs));
  }

  lemma {:induction false} HeadersFromFirst<L, U>(g: Grouping<L, U>, xs: seq<L>)
    ensures Headers(g, FromFirstHeader(g, xs)) == Headers(g, xs)
  {
    if |xs| > 0 && !g.isHeader(xs[0]) {
      HeadersFromFirst(g, xs[1..]);
    }
  }

  lemma {:induction false} HeadersSkipBody<L, U>(g: Grouping<L, U>, xs: seq<L>, n: nat)
    requires n <= |xs|
    requires forall k | 0 <= k < n :: !g.isHeader(xs[k])
    ensures Headers(g, xs) == Headers(g, xs[n..])
    decreases n
  {
    if n > 0 {
      HeadersSkipBody(g, xs[1..], n - 1);
      assert xs[1..][n - 1..] == xs[n..];
    }
  }

  /** The first header and its body, then the blocks after them. */
  lemma BlocksHead<L, U>(g: Grouping<L, U>, xs: seq<L>)
    requires |xs| > 0 && g.isHeader(xs[0])
    ensures var n := 1 + BodyLength(g, xs[1..]);
      && Blocks(g, xs) == [Fold(g, g.open(xs[0]), xs[1..n])] + Blocks(g, xs[n..])
      && Bodies(g, xs) == [xs[1..n]] + Bodies(g, xs[n..])
      && Headers(g, xs) == [xs[0]] + Headers(g, xs[n..])
  {
    HeadersHead(g, xs);
  }

  lemma HeadersHead<L, U>(g: Grouping<L, U>, xs: seq<L>)
    requires |xs| > 0 && g.isHeader(xs[0])
    ensures Headers(g, xs) == [xs[0]] + Headers(g, xs[1 + BodyLength(g, xs[1..])..])
  {
    var n := BodyLength(g, xs[1..]);
    HeadersSkipBody(g, xs[1..], n);
    assert xs[1..][n..] == xs[1 + n..];
  }

  /** One record and one body per header. */
  lemma {:induction false} BlocksCount<L, U>(g: Grouping<L, U>, xs: seq<L>)
    requires xs == [] || g.isHeader(xs[0])
    ensures |Blocks(g, xs)| == |Headers(g, xs)| == |Bodies(g, xs)|
    decreases |xs|
  {
    if |xs| > 0 {
      BlocksHead(g, xs);
      BlocksCount(g, xs[1 + BodyLength(g, xs[1..])..]);
    }
  }

  /** The k-th record is the k-th header's record with the k-th body folded
      into it. */
  lemma {:induction false} BlocksFollowHeaders<L, U>(g: Grouping<L, U>, xs: seq<L>)
    requires xs == [] || g.isHeader(xs[0])
    ensures |Blocks(g, xs)| == |Headers(g, xs)| == |Bodies(g, xs)|
    ensures forall k | 0 <= k < |Headers(g, xs)| ::
      Blocks(g, xs)[k] == Fold(g, g.open(Headers(g, xs)[k]), Bodies(g, xs)[k])
    decreases |xs|
  {
    BlocksCount(g, xs);
    if |xs| > 0 {
      var n := 1 + BodyLength(g, xs[1..]);
      var rest := xs[n..];
      BlocksHead(g, xs);
      BlocksFollowHeaders(g, rest);
      var blocks := Blocks(g, xs);
      var headers := Headers(g, xs);
      var bodies := Bodies(g, xs);
      forall k | 0 <= k < |headers|
        ensures blocks[k] == Fold(g, g.open(headers[k]), bodies[k])
      {
        if k == 0 {
          assert headers[0] == xs[0] && bodies[0] == xs[1..n];
        } else {
          assert headers[k] == Headers(g, rest)[k - 1];
          assert blocks[k] == Blocks(g, rest)[k - 1];
          assert bodies[k] == Bodies(g, rest)[k - 1];
        }
      }
    }
  }

  /** No body holds a header. */
  lemma {:induction false} BodiesHaveNoHeader<L, U>(g: Grouping<L, U>, xs: seq<L>)
    requires xs == [] || g.isHeader(xs[0])
    ensures forall k, j | 0 <= k < |Bodies(g, xs)| && 0 <= j < |Bodies(g, xs)[k]| :: !g.isHeader(Bodies(g, xs)[k][j])
    decreases |xs|
  {
    if |xs| > 0 {
      var rest := xs[1 + BodyLength(g, xs[1..])..];
      BlocksHead(g, xs);
      BodiesHaveNoHeader(g, rest);
      var bodies := Bodies(g, xs);
      forall k, j | 0 <= k < |bodies| && 0 <= j < |bodies[k]|
        ensures !g.isHeader(bodies[k][j])
      {
        if k > 0 {
          assert bodies[k] == Bodies(g, rest)[k - 1];
        } else {
          assert bodies[0][j] == xs[1..][j];
        }
      }
    }
  }
}

=== FILE: dicts.dfy ===
/** Python dicts with string keys, as their entries in insertion order:
    membership, `d.get(key)`, and `d[key] = value`, which replaces the value
    of a present key in place and appends a new key at the end. */
module Dicts {
  import opened Results

  /** key occurs among the entries. */
  predicate HasKey<V>(table: seq<(string, V)>, key: string) {
    exists k | 0 <= k < |table| :: table[k].0 == key
  }

  /** The keys are pairwise distinct, as in any dict. */
  predicate DistinctKeys<V>(table: seq<(string, V)>) {
    forall k, l | 0 <= k < l < |table| :: table[k].0 != table[l].0
  }

  /** `table.get(key)`. */
  function Lookup<V>(table: seq<(string, V)>, key: string): (r: Option<V>)
    ensures r.Some? <==> HasKey(table, key)
    ensures r.Some? ==> exists k | 0 <= k < |table| :: table[k] == (key, r.value)
  {
    if |table| == 0 then None
    else if table[0].0 == key then Some(table[0].1)
    else
      var r := Lookup(table[1..], key);
      assert forall k | 0 <= k < |table| - 1 :: table[1..][k] == table[k + 1];
      assert HasKey(table, key) ==> HasKey(table[1..], key) by {
        if HasKey(table, key) {
          var k :| 0 <= k < |table| && table[k].0 == key;
          assert table[1..][k - 1].0 == key;
        }
      }
      r
  }

  /** In a table with distinct keys, Lookup returns the entry stored under the key. */
  lemma LookupEntry<V>(table: seq<(string, V)>, k: nat)
    requires DistinctKeys(table)
    requires k < |table|
    ensures Lookup(table, table[k].0) == Some(table[k].1)
  {
    var r := Lookup(table, table[k].0);
    var l :| 0 <= l < |table| && table[l] == (table[k].0, r.value);
    assert l == k;
  }

  /** The keys, in order. */
  function Keys<V>(table: seq<(string, V)>): (ks: seq<string>)
    ensures |ks| == |table|
    ensures forall k | 0 <= k < |table| :: ks[k] == table[k].0
  {
    seq(|table|, k requires 0 <= k < |table| => table[k].0)
  }

  /** `d[key] = value`. */
  function Assign<V>(table: seq<(string, V)>, key: string, value: V): (r: seq<(string, V)>)
    ensures |r| == if HasKey(table, key) then |table| else |table| + 1
    ensures forall k | 0 <= k < |table| :: r[k].0 == table[k].0
    ensures forall k | 0 <= k < |table| && table[k].0 != key :: r[k] == table[k]
    ensures !HasKey(table, key) ==> r == table + [(key, value)]
    ensures Lookup(r, key) == Some(value)
    decreases |table|
  {
    if |table| == 0 then [(key, value)]
    else if table[0].0 == key then [(key, value)] + table[1..]
    else
      assert HasKey(table, key) <==> HasKey(table[1..], key) by {
        if HasKey(table, key) {
          var k :| 0 <= k < |table| && table[k].0 == key;
          assert table[1..][k - 1].0 == key;
        }
        if HasKey(table[1..], key) {
          var k :| 0 <= k < |table| - 1 && table[1..][k].0 == key;
          assert table[k + 1].0 == key;
        }
      }
      var rest := Assign(table[1..], key, value);
      var r := [table[0]] + rest;
      assert r[1..] == rest;
      r
  }

  /** After `d[key] = value` the key maps to value, every other key keeps
      its value, and the keys stay distinct. */
  lemma AssignLookup<V>(table: seq<(string, V)>, key: string, value: V, other: string)
    requires DistinctKeys(table)
    ensures DistinctKeys(Assign(table, key, value))
    ensures Lookup(Assign(table, key, value), key) == Some(value)
    ensures other != key ==> Lookup(Assign(table, key, value), other) == Lookup(table, other)
  {
    AssignDistinct(table, key, value);
    if other != key {
      AssignOther(table, key, value, other);
    }
  }

  /** `d[key] = value` keeps the keys distinct. */
  lemma AssignDistinct<V>(table: seq<(string, V)>, key: string, value: V)
    requires DistinctKeys(table)
    ensures DistinctKeys(Assign(table, key, value))
  {
    var r := Assign(table, key, value);
    forall k, l | 0 <= k < l < |r| ensures r[k].0 != r[l].0 {
      if l < |table| {
        assert r[k].0 == table[k].0 && r[l].0 == table[l].0;
      } else {
        assert r == table + [(key, value)];
        assert r[l] == (key, value) && r[k] == table[k];
      }
    }
  }

  /** `d[key] = value` leaves the value of every other key as it was. */
  lemma AssignOther<V>(table: seq<(string, V)>, key: string, value: V, other: string)
    requires DistinctKeys(table) && other != key
    ensures Lookup(Assign(table, key, value), other) == Lookup(table, other)
  {
    var r := Assign(table, key, value);
    if HasKey(table, other) {
      var j :| 0 <= j < |table| && table[j].0 == other;
      assert r[j] == table[j];
      AssignDistinct(table, key, value);
      LookupEntry(r, j);
      LookupEntry(table, j);
    } else {
      forall k | 0 <= k < |r| ensures r[k].0 != other {
        if k < |table| {
          assert r[k].0 == table[k].0;
        } else {
          assert r == table + [(key, value)];
          assert r[k] == (key, value);
        }
      }
    }
  }
}

=== FILE: extractors.dfy ===
/** The field extractors of `utils.py`: `parse_percentage` and `parse_beds`.
    Each fixed regular expression is described twice: a predicate that says
    when the pattern matches at a position (with the positions of its groups),
    and a recogniser that computes the match. A lemma per pattern shows the
    recogniser finds exactly the matches the predicate describes, and the
    extractor's contract is stated against the predicate: the value of the
    leftmost match, or zero when there is none. */
module Extractors {
  import opened Text
  import opened Results

  // ---------------------------------------------------------------------
  // Decimal numerals

  /** t[i..p] and t[p+1..k] are digit runs around the non-digit separator t[p]. */
  predicate SeparatedAt(t: string, i: nat, p: nat, k: nat) {
    DigitsIn(t, i, p) && DigitsIn(t, p + 1, k) && !IsDigit(t[p])
  }

  /** t[i..k] is a whole number, or a number with a fractional part. */
  ghost predicate NumeralIn(t: string, i: nat, k: nat) {
    DigitsIn(t, i, k) || exists p: nat :: SeparatedAt(t, i, p, k)
  }

  /** In a numeral, the leading digit run ends at the end or at the separator. */
  lemma NumeralShape(t: string, i: nat, k: nat)
    requires NumeralIn(t, i, k)
    ensures SpanDigits(t, i) >= k || SeparatedAt(t, i, SpanDigits(t, i), k)
  {
    if !DigitsIn(t, i, k) {
      var p: nat :| SeparatedAt(t, i, p, k);
      SpanDigitsUnique(t, i, p);
    }
  }

  /** The value Python's `float()` gives the numeral t[i..k] once its separator
      is a `.`: integer part plus fraction, computed exactly. */
  function NumeralValue(t: string, i: nat, k: nat): (v: real)
    requires NumeralIn(t, i, k)
    ensures v >= 0.0
    ensures DigitsIn(t, i, k) ==> v == DigitsValue(t, i, k) as real
  {
    NumeralShape(t, i, k);
    var j := SpanDigits(t, i);
    if j >= k then DigitsValue(t, i, k) as real
    else PointValue(DigitsValue(t, i, j), DigitsValue(t, j + 1, k), k - j - 1)
  }

  // ---------------------------------------------------------------------
  // parse_percentage: re.search(r'(\d+(?:\.\d+)?)\s*%', text)

  /** `\d+(?:\.\d+)?` matches t[i..k]. */
  ghost predicate PercentNumeralIn(t: string, i: nat, k: nat) {
    DigitsIn(t, i, k) || exists p: nat :: SeparatedAt(t, i, p, k) && t[p] == '.'
  }

  /** `(\d+(?:\.\d+)?)\s*%` matches at i: the group is t[i..k], the `%` is t[m]. */
  ghost predicate PercentMatch(t: string, i: nat, k: nat, m: nat) {
    PercentNumeralIn(t, i, k) && SpacesIn(t, k, m) && m < |t| && t[m] == '%'
  }

  /** The match `re.search` returns: no match starts further left. */
  ghost predicate FirstPercentMatch(t: string, i: nat, k: nat, m: nat) {
    PercentMatch(t, i, k, m) && forall i': nat, k': nat, m': nat | i' < i :: !PercentMatch(t, i', k', m')
  }

  /** Where the greedy `\d+(?:\.\d+)?` ends when it starts at i (i when t[i] is no digit). */
  function PercentNumeralEnd(t: string, i: nat): (k: nat)
    requires i <= |t|
    ensures i <= k <= |t|
  {
    var j := SpanDigits(t, i);
    if j > i && j + 1 < |t| && t[j] == '.' && IsDigit(t[j + 1]) then SpanDigits(t, j + 1) else j
  }

  /** A match at i is the greedy one: its group and its `%` are determined by i. */
  lemma PercentMatchUnique(t: string, i: nat, k: nat, m: nat)
    requires PercentMatch(t, i, k, m)
    ensures k == PercentNumeralEnd(t, i) && m == SpanSpaces(t, k)
  {
    assert !IsDigit(t[k]) && t[k] != '.' by {
      assert k == m || IsSpace(t[k]);
    }
    if DigitsIn(t, i, k) {
      SpanDigitsUnique(t, i, k);
    } else {
      var p: nat :| SeparatedAt(t, i, p, k) && t[p] == '.';
      SpanDigitsUnique(t, i, p);
      SpanDigitsUnique(t, p + 1, k);
    }
    SpanSpacesUnique(t, k, m);
  }

  /** The pattern tried at position i alone. */
  function PercentAt(t: string, i: nat): (r: Option<(nat, nat)>)
    requires i <= |t|
    ensures r.Some? ==> PercentMatch(t, i, r.value.0, r.value.1)
    ensures r.None? ==> forall k: nat, m: nat :: !PercentMatch(t, i, k, m)
  {
    var k := PercentNumeralEnd(t, i);
    var m := SpanSpaces(t, k);
    if k > i && m < |t| && t[m] == '%' then
      assert PercentNumeralIn(t, i, k) by {
        var j := SpanDigits(t, i);
        if k != j {
          assert SeparatedAt(t, i, j, k) && t[j] == '.';
        }
      }
      Some((k, m))
    else
      assert forall k': nat, m': nat :: !PercentMatch(t, i, k', m') by {
        forall k': nat, m': nat | PercentMatch(t, i, k', m') ensures false {
          PercentMatchUnique(t, i, k', m');
        }
      }
      None
  }

  /** `re.search`: the leftmost match starting at or after `from`. */
  function FindPercent(t: string, from: nat): (r: Option<(nat, nat, nat)>)
    requires from <= |t|
    ensures r.Some? ==> from <= r.value.0 && PercentMatch(t, r.value.0, r.value.1, r.value.2)
    ensures r.Some? ==> forall i: nat, k: nat, m: nat | from <= i < r.value.0 :: !PercentMatch(t, i, k, m)
    ensures r.None? ==> forall i: nat, k: nat, m: nat | from <= i :: !PercentMatch(t, i, k, m)
    decreases |t| - from
  {
    if from == |t| then None
    else match PercentAt(t, from)
      case Some((k, m)) => Some((from, k, m))
      case None => FindPercent(t, from + 1)
  }

  /** `parse_percentage`: commas become points, then the first number followed
      (after optional whitespace) by `%` is returned; 0 when there is none. */
  function ParsePercentage(text: string): (r: real)
    ensures r >= 0.0
    ensures var t := ReplaceChar(text, ',', '.');
      (forall i: nat, k: nat, m: nat :: !PercentMatch(t, i, k, m)) ==> r == 0.0
    ensures var t := ReplaceChar(text, ',', '.');
      forall i: nat, k: nat, m: nat | FirstPercentMatch(t, i, k, m) :: r == NumeralValue(t, i, k)
  {
    var t := ReplaceChar(text, ',', '.');
    match FindPercent(t, 0)
    case None => 0.0
    case Some((i, k, m)) =>
      assert forall i': nat, k': nat, m': nat | FirstPercentMatch(t, i', k', m') :: i' == i && k' == k by {
        forall i': nat, k': nat, m': nat | FirstPercentMatch(t, i', k', m') ensures i' == i && k' == k {
          PercentMatchUnique(t, i, k, m);
          PercentMatchUnique(t, i', k', m');
        }
      }
      NumeralValue(t, i, k)
  }

  // ---------------------------------------------------------------------
  // parse_beds: re.search(r'\((\d+)\s*(?:leitos?)?\)', text)

  /** `leitos?` matches t[m..w]. */
  predicate LeitoWord(t: string, m: nat, w: nat) {
    || (w == m + 5 && w <= |t| && t[m..w] == "leito")
    || (w == m + 6 && w <= |t| && t[m..w] == "leitos")
  }

  /** The closing `)` after an optional `leitos?` word starting at m, if any
      (`optional`), or after a mandatory one (not `optional`). */
  function LeitoClose(t: string, m: nat, optional: bool): (r: Option<nat>)
    requires m <= |t|
    ensures r.Some? ==> r.value < |t| && t[r.value] == ')' && ((optional && r.value == m) || LeitoWord(t, m, r.value))
    ensures r.None? ==> forall w: nat | w < |t| && t[w] == ')' :: !((optional && w == m) || LeitoWord(t, m, w))
  {
    if optional && m < |t| && t[m] == ')' then Some(m)
    else if m + 6 < |t| && t[m..m + 6] == "leitos" && t[m + 6] == ')' then Some(m + 6)
    else if m + 5 < |t| && t[m..m + 5] == "leito" && t[m + 5] == ')' then Some(m + 5)
    else None
  }

  /** Only one `)` can close the word that starts at m. */
  lemma LeitoCloseUnique(t: string, m: nat, optional: bool, w: nat)
    requires m <= |t|
    requires w < |t| && t[w] == ')'
    requires (optional && w == m) || LeitoWord(t, m, w)
    ensures LeitoClose(t, m, optional) == Some(w)
  {
    if w != m || !optional {
      assert t[m] == t[m..w][0] == 'l';
      if w == m + 5 {
        assert t[m + 5] == ')';
      } else {
        assert t[m..m + 6] == "leitos";
      }
    }
  }

  /** `\((\d+)\s*(?:leitos?)?\)` matches at i: the group is t[i+1..j], the
      whitespace is t[j..m] and the closing `)` is t[w]. */
  predicate BedsMatch(t: string, i: nat, j: nat, m: nat, w: nat) {
    && i < |t| && t[i] == '('
    && DigitsIn(t, i + 1, j)
    && SpacesIn(t, j, m)
    && (w == m || LeitoWord(t, m, w))
    && w < |t| && t[w] == ')'
  }

  /** The match `re.search` returns: no match starts further left. */
  ghost predicate FirstBedsMatch(t: string, i: nat, j: nat, m: nat, w: nat) {
    BedsMatch(t, i, j, m, w) && forall i': nat, j': nat, m': nat, w': nat | i' < i :: !BedsMatch(t, i', j', m', w')
  }

  /** A match at i is the greedy one: all its positions are determined by i. */
  lemma BedsMatchUnique(t: string, i: nat, j: nat, m: nat, w: nat)
    requires BedsMatch(t, i, j, m, w)
    ensures j == SpanDigits(t, i + 1) && m == SpanSpaces(t, j) && LeitoClose(t, m, true) == Some(w)
  {
    assert t[m] == ')' || t[m] == 'l' by {
      if w != m { assert t[m] == t[m..w][0]; }
    }
    assert t[j] == ')' || t[j] == 'l' || IsSpace(t[j]) by {
      assert j == m || IsSpace(t[j]);
    }
    SpanDigitsUnique(t, i + 1, j);
    SpanSpacesUnique(t, j, m);
    LeitoCloseUnique(t, m, true, w);
  }

  /** The pattern tried at position i alone; the result is the end of the group. */
  function BedsAt(t: string, i: nat): (r: Option<nat>)
    requires i <= |t|
    ensures r.Some? ==> exists m: nat, w: nat :: BedsMatch(t, i, r.value, m, w)
    ensures r.None? ==> forall j: nat, m: nat, w: nat :: !BedsMatch(t, i, j, m, w)
  {
    if i < |t| && t[i] == '(' && i + 1 < |t| && IsDigit(t[i + 1]) then
      var j := SpanDigits(t, i + 1);
      var m := SpanSpaces(t, j);
      match LeitoClose(t, m, true)
      case Some(w) =>
        assert BedsMatch(t, i, j, m, w);
        Some(j)
      case None =>
        assert forall j': nat, m': nat, w': nat :: !BedsMatch(t, i, j', m', w') by {
          forall j': nat, m': nat, w': nat | BedsMatch(t, i, j', m', w') ensures false {
            BedsMatchUnique(t, i, j', m', w');
          }
        }
        None
    else
      None
  }

  /** `re.search`: the leftmost match starting at or after `from`. */
  function FindBeds(t: string, from: nat): (r: Option<(nat, nat)>)
    requires from <= |t|
    ensures r.Some? ==> from <= r.value.0 && exists m: nat, w: nat :: BedsMatch(t, r.value.0, r.value.1, m, w)
    ensures r.Some? ==> forall i: nat, j: nat, m: nat, w: nat | from <= i < r.value.0 :: !BedsMatch(t, i, j, m, w)
    ensures r.None? ==> forall i: nat, j: nat, m: nat, w: nat | from <= i :: !BedsMatch(t, i, j, m, w)
    decreases |t| - from
  {
    if from == |t| then None
    else match BedsAt(t, from)
      case Some(j) => Some((from, j))
      case None => FindBeds(t, from + 1)
  }

  /** `parse_beds`: the number in the first `(N)`, `(N leito)` or `(N leitos)`
      (whitespace allowed before the word), paired with 0; (0, 0) when there
      is none. */
  function ParseBeds(text: string): (r: (nat, nat))
    ensures r.1 == 0
    ensures (forall i: nat, j: nat, m: nat, w: nat :: !BedsMatch(text, i, j, m, w)) ==> r.0 == 0
    ensures forall i: nat, j: nat, m: nat, w: nat | FirstBedsMatch(text, i, j, m, w) ::
      r.0 == DigitsValue(text, i + 1, j)
  {
    match FindBeds(text, 0)
    case None => (0, 0)
    case Some((i, j)) =>
      assert forall i': nat, j': nat, m': nat, w': nat | FirstBedsMatch(text, i', j', m', w') :: i' == i && j' == j by {
        forall i': nat, j': nat, m': nat, w': nat | FirstBedsMatch(text, i', j', m', w') ensures i' == i && j' == j {
          var m: nat, w: nat :| BedsMatch(text, i, j, m, w);
          BedsMatchUnique(text, i, j, m, w);
          BedsMatchUnique(text, i', j', m', w');
        }
      }
      (DigitsValue(text, i + 1, j), 0)
  }
}

=== FILE: floats.dfy ===
/** Python's `float(text)` on a string, as `parse_message` applies it to
    the rate of an occupancy line: an optional sign, then `inf`,
    `infinity` or `nan` in any letter case, or a decimal literal
    `digitpart [. [digitpart]] [(e|E) [sign] digitpart]` (or one starting
    with the point), where a digitpart may hold single underscores between
    digits. The value of a finite literal is computed exactly. */
module Floats {
  import opened Text
  import opened Results
  import opened Extractors

  /** The values a Python float can take; finite ones exactly. */
  datatype Float = Finite(value: real) | Infinity(negative: bool) | NaN

  /** A `digitpart`: digits, with single underscores between two digits
      (it starts and ends with a digit, and no two underscores touch). */
  predicate IsDigitPart(t: string) {
    && |t| > 0
    && IsDigit(t[0])
    && IsDigit(t[|t| - 1])
    && (forall k | 0 <= k < |t| :: IsDigit(t[k]) || t[k] == '_')
    && (forall j, k | 0 <= j < |t| && 0 <= k < |t| && k == j + 1 :: IsDigit(t[j]) || IsDigit(t[k]))
  }

  /** The number a digitpart writes, underscores skipped. */
  function DigitPartValue(t: string): (v: nat)
    requires forall k | 0 <= k < |t| :: IsDigit(t[k]) || t[k] == '_'
    decreases |t|
  {
    if |t| == 0 then 0
    else if t[|t| - 1] == '_' then DigitPartValue(t[..|t| - 1])
    else 10 * DigitPartValue(t[..|t| - 1]) + DigitValue(t[|t| - 1])
  }

  /** How many digits a digitpart holds. */
  function DigitCount(t: string): (n: nat)
    ensures n <= |t|
  {
    if |t| == 0 then 0 else DigitCount(t[..|t| - 1]) + (if IsDigit(t[|t| - 1]) then 1 else 0)
  }

  /** Without underscores a digitpart is read as `int()` reads digits. */
  lemma {:induction false} DigitPartPlain(s: string, i: nat, j: nat)
    requires i <= j <= |s|
    requires forall k | i <= k < j :: IsDigit(s[k])
    ensures DigitPartValue(s[i..j]) == DigitsValue(s, i, j)
    ensures DigitCount(s[i..j]) == j - i
    decreases j - i
  {
    if i < j {
      assert s[i..j][..j - i - 1] == s[i..j - 1];
      DigitPartPlain(s, i, j - 1);
    }
  }

  /** 10 to the power e, for any integer e. */
  function Scale(e: int): (r: real)
    ensures r > 0.0
  {
    if e >= 0 then Pow10(e) as real else 1.0 / Pow10(-e) as real
  }

  /** The first position of `e` or `E`, or |s|. */
  function ExponentMark(s: string): (i: nat)
    ensures i <= |s|
    ensures forall k | 0 <= k < i :: s[k] != 'e' && s[k] != 'E'
    ensures i < |s| ==> s[i] == 'e' || s[i] == 'E'
  {
    var a := IndexOf(s, 'e');
    var b := IndexOf(s, 'E');
    assert forall k | 0 <= k < a :: s[k] != 'e' by {
      forall k | 0 <= k < a ensures s[k] != 'e' {
        assert s[..a][k] == s[k];
      }
    }
    assert forall k | 0 <= k < b :: s[k] != 'E' by {
      forall k | 0 <= k < b ensures s[k] != 'E' {
        assert s[..b][k] == s[k];
      }
    }
    if a <= b then a else b
  }

  /** The exponent `[sign] digitpart`. */
  function ParseExponent(t: string): (r: Option<int>)
  {
    var neg := |t| > 0 && t[0] == '-';
    var digits := if |t| > 0 && (t[0] == '+' || t[0] == '-') then t[1..] else t;
    if !IsDigitPart(digits) then None
    else
      var n: int := DigitPartValue(digits);
      Some(if neg then -n else n)
  }

  /** The mantissa `digitpart [. [digitpart]]` or `. digitpart`. */
  function ParseMantissa(m: string): (r: Option<real>)
    ensures r.Some? ==> r.value >= 0.0
  {
    var dot := IndexOf(m, '.');
    var whole := m[..dot];
    var frac := if dot < |m| then m[dot + 1..] else "";
    if whole == "" && frac == "" then None
    else if whole != "" && !IsDigitPart(whole) then None
    else if frac != "" && !IsDigitPart(frac) then None
    else
      var w := if whole == "" then 0 else DigitPartValue(whole);
      if frac == "" then Some(w as real)
      else Some(PointValue(w, DigitPartValue(frac), DigitCount(frac)))
  }

  /** An unsigned decimal literal: mantissa, then the optional exponent. */
  function ParseDecimal(s: string): (r: Option<real>)
    ensures r.Some? ==> r.value >= 0.0
  {
    var e := ExponentMark(s);
    match ParseMantissa(s[..e])
    case None => None
    case Some(m) =>
      if e == |s| then Some(m)
      else
        match ParseExponent(s[e + 1..])
        case None => None
        case Some(x) => Some(Scaled(m, x))
  }

  /** m times 10 to the power e. */
  function Scaled(m: real, e: int): (v: real)
    requires m >= 0.0
    ensures v >= 0.0
  {
    m * Scale(e)
  }

  /** `text.lower() == word`, for the ASCII words `float` accepts. */
  predicate SpelledAs(text: string, word: string) {
    |text| == |word| && forall k | 0 <= k < |word| :: LowerChar(text[k]) == word[k]
  }

  /** `float(text)` for a text without surrounding whitespace; None where
      Python raises ValueError. */
  function ParseFloat(s: string): (r: Option<Float>)
    ensures s == [] ==> r.None?
  {
    var signed := |s| > 0 && (s[0] == '+' || s[0] == '-');
    var neg := signed && s[0] == '-';
    var body := if signed then s[1..] else s;
    if SpelledAs(body, "inf") || SpelledAs(body, "infinity") then Some(Infinity(neg))
    else if SpelledAs(body, "nan") then Some(NaN)
    else
      match ParseDecimal(body)
      case None => None
      case Some(v) => Some(Finite(if neg then -v else v))
  }

  /** A text that starts with a digit is read as an unsigned decimal literal. */
  lemma ParseFloatUnsigned(s: string)
    requires |s| > 0 && IsDigit(s[0])
    ensures ParseFloat(s) == match ParseDecimal(s) case None => None case Some(v) => Some(Finite(v))
  {
    assert LowerChar(s[0]) == s[0];
    assert !SpelledAs(s, "inf") by { assert "inf"[0] == 'i'; }
    assert !SpelledAs(s, "infinity") by { assert "infinity"[0] == 'i'; }
    assert !SpelledAs(s, "nan") by { assert "nan"[0] == 'n'; }
  }

  /** A text without `e`, `E` or `.` is the mantissa's whole part alone. */
  lemma ParseDecimalWhole(s: string)
    requires IsDigitPart(s)
    requires forall k | 0 <= k < |s| :: s[k] != 'e' && s[k] != 'E' && s[k] != '.'
    ensures ParseDecimal(s) == Some(DigitPartValue(s) as real)
  {
    assert ExponentMark(s) == |s|;
    assert s[..|s|] == s;
    assert IndexOf(s, '.') == |s|;
    assert ParseMantissa(s) == Some(DigitPartValue(s) as real);
  }

  /** A run of digits is read as the whole number it writes. */
  lemma ParseFloatDigits(s: string)
    requires DigitsIn(s, 0, |s|)
    ensures ParseFloat(s) == Some(Finite(DigitsValue(s, 0, |s|) as real))
  {
    ParseFloatUnsigned(s);
    ParseDecimalWhole(s);
    assert s[0..|s|] == s;
    DigitPartPlain(s, 0, |s|);
  }

  /** A mantissa with a point at p is read as its two digitparts. */
  lemma ParseMantissaParts(m: string, p: nat, whole: nat, frac: nat, places: nat)
    requires p < |m| && m[p] == '.'
    requires forall j | 0 <= j < p :: m[j] != '.'
    requires IsDigitPart(m[..p]) && IsDigitPart(m[p + 1..])
    requires DigitPartValue(m[..p]) == whole
    requires DigitPartValue(m[p + 1..]) == frac && DigitCount(m[p + 1..]) == places
    ensures ParseMantissa(m) == Some(PointValue(whole, frac, places))
  {
    IndexOfFirst(m, '.', p);
  }

  /** Digit runs around the point are digitparts worth what `int()` reads. */
  lemma MantissaValue(m: string, p: nat)
    requires p < |m|
    requires DigitsIn(m, 0, p) && DigitsIn(m, p + 1, |m|)
    ensures IsDigitPart(m[..p]) && IsDigitPart(m[p + 1..])
    ensures DigitPartValue(m[..p]) == DigitsValue(m, 0, p)
    ensures DigitPartValue(m[p + 1..]) == DigitsValue(m, p + 1, |m|)
    ensures DigitCount(m[p + 1..]) == |m| - p - 1
  {
    assert m[..p] == m[0..p] && m[p + 1..] == m[p + 1..|m|];
    DigitRunIsDigitPart(m, 0, p);
    DigitRunIsDigitPart(m, p + 1, |m|);
  }

  /** A run of digits is a digitpart worth what `int()` reads. */
  lemma DigitRunIsDigitPart(m: string, i: nat, j: nat)
    requires i <= j <= |m| && DigitsIn(m, i, j)
    ensures IsDigitPart(m[i..j])
    ensures DigitPartValue(m[i..j]) == DigitsValue(m, i, j)
    ensures DigitCount(m[i..j]) == j - i
  {
    var t := m[i..j];
    assert forall k | 0 <= k < |t| :: t[k] == m[i + k];
    DigitPartPlain(m, i, j);
  }

  /** Without `e` or `E` a decimal literal is its mantissa alone. */
  lemma ParseDecimalNoExponent(s: string)
    requires forall j | 0 <= j < |s| :: s[j] != 'e' && s[j] != 'E'
    ensures ParseDecimal(s) == ParseMantissa(s)
  {
    assert ExponentMark(s) == |s|;
    assert s[..|s|] == s;
  }

  /** The digits of a slice are worth what they are worth in place. */
  lemma {:induction false} DigitsValueSlice(t: string, i: nat, k: nat, a: nat, b: nat)
    requires i <= k <= |t| && a <= b <= k - i
    requires forall j | i + a <= j < i + b :: IsDigit(t[j])
    ensures forall j | a <= j < b :: IsDigit(t[i..k][j])
    ensures DigitsValue(t[i..k], a, b) == DigitsValue(t, i + a, i + b)
    decreases b - a
  {
    if a < b {
      DigitsValueSlice(t, i, k, a, b - 1);
      assert t[i..k][b - 1] == t[i + b - 1];
    }
  }

  /** A numeral `digits.digits` is read as its whole part plus its fraction:
      the value the regular-expression extractors give it. */
  lemma ParseFloatNumeral(t: string, i: nat, q: nat, k: nat)
    requires SeparatedAt(t, i, q, k) && t[q] == '.'
    ensures NumeralIn(t, i, k)
    ensures ParseFloat(t[i..k]) == Some(Finite(NumeralValue(t, i, k)))
  {
    var whole := DigitsValue(t, i, q);
    var frac := DigitsValue(t, q + 1, k);
    assert NumeralValue(t, i, k) == PointValue(whole, frac, k - q - 1) by {
      SpanDigitsUnique(t, i, q);
    }
    ParseFloatInPlace(t, i, q, k, whole, frac);
  }

  /** `ParseFloatPoint` for a literal that sits inside a longer text. */
  lemma ParseFloatInPlace(t: string, i: nat, q: nat, k: nat, whole: nat, frac: nat)
    requires DigitsIn(t, i, q) && DigitsIn(t, q + 1, k) && t[q] == '.'
    requires DigitsValue(t, i, q) == whole && DigitsValue(t, q + 1, k) == frac
    ensures ParseFloat(t[i..k]) == Some(Finite(PointValue(whole, frac, k - q - 1)))
  {
    var s := t[i..k];
    var p := q - i;
    PointInPlace(t, i, q, k);
    assert |s| - p - 1 == k - q - 1;
    ParseFloatPoint(s, p, whole, frac);
  }

  /** The two digit runs of t[i..k] around the point at q, seen in the slice. */
  lemma PointInPlace(t: string, i: nat, q: nat, k: nat)
    requires DigitsIn(t, i, q) && DigitsIn(t, q + 1, k) && t[q] == '.'
    ensures var s := t[i..k];
      && |s| - (q - i) - 1 == k - q - 1 && s[q - i] == '.'
      && DigitsIn(s, 0, q - i) && DigitsValue(s, 0, q - i) == DigitsValue(t, i, q)
      && DigitsIn(s, q - i + 1, |s|) && DigitsValue(s, q - i + 1, |s|) == DigitsValue(t, q + 1, k)
  {
    DigitsValueSlice(t, i, k, 0, q - i);
    DigitsValueSlice(t, i, k, q - i + 1, k - i);
  }

  /** A literal `digits.digits` is read as its whole part plus its fraction. */
  lemma ParseFloatPoint(s: string, p: nat, whole: nat, frac: nat)
    requires DigitsIn(s, 0, p) && DigitsIn(s, p + 1, |s|) && s[p] == '.'
    requires DigitsValue(s, 0, p) == whole && DigitsValue(s, p + 1, |s|) == frac
    ensures ParseFloat(s) == Some(Finite(PointValue(whole, frac, |s| - p - 1)))
  {
    PointMantissaDigits(s, p, whole, frac);
    PointNoExponent(s, p);
    ParseDecimalNoExponent(s);
    ParseFloatUnsigned(s);
  }

  /** The mantissa `digits.digits` is worth its whole part plus its fraction. */
  lemma PointMantissaDigits(s: string, p: nat, whole: nat, frac: nat)
    requires DigitsIn(s, 0, p) && DigitsIn(s, p + 1, |s|) && s[p] == '.'
    requires DigitsValue(s, 0, p) == whole && DigitsValue(s, p + 1, |s|) == frac
    ensures ParseMantissa(s) == Some(PointValue(whole, frac, |s| - p - 1))
  {
    PointNoExponent(s, p);
    IndexOfFirst(s, '.', p);
    MantissaValue(s, p);
  }

  /** Digits around one point hold no exponent mark and no earlier point. */
  lemma PointNoExponent(s: string, p: nat)
    requires DigitsIn(s, 0, p) && DigitsIn(s, p + 1, |s|) && s[p] == '.'
    ensures forall j | 0 <= j < |s| :: s[j] != 'e' && s[j] != 'E'
    ensures forall j | 0 <= j < p :: s[j] != '.'
  {
    forall j | 0 <= j < |s| ensures s[j] != 'e' && s[j] != 'E' && (j < p ==> s[j] != '.') {
      if j != p {
        assert IsDigit(s[j]);
      }
    }
  }

  /** One digit after the point counts tenths. */
  lemma TenthsValue(whole: nat, frac: nat)
    ensures PointValue(whole, frac, 1) == whole as real + frac as real / 10.0
  {
    assert Pow10(1) == 10;
  }

  /** A plain number: `float("80")` is 80. */
  lemma ParseFloatWholeExample()
    ensures ParseFloat("80") == Some(Finite(80.0))
  {
    assert DigitsIn("80", 0, 2);
    ParseFloatDigits("80");
    assert DigitsValue("80", 0, 2) == 80;
  }

  /** The digitparts the examples below use. */
  lemma DigitPartExamples()
    ensures DigitPartValue("1_0") == 10
    ensures DigitPartValue("2") == 2
    ensures DigitPartValue("5") == 5 && DigitCount("5") == 1
  {
    assert "1"[..0] == "" && "2"[..0] == "" && "5"[..0] == "";
    assert "1_"[..1] == "1";
    assert DigitPartValue("1_") == 1;
    assert "1_0"[..2] == "1_";
  }

  lemma GroupedMantissa()
    ensures ParseMantissa("1_0.5") == Some(10.5)
  {
    var s := "1_0.5";
    assert s[..3] == "1_0" && s[4..] == "5";
    DigitPartExamples();
    ParseMantissaParts(s, 3, 10, 5, 1);
    TenthsValue(10, 5);
  }

  lemma PointMantissa()
    ensures ParseMantissa("2.5") == Some(2.5)
  {
    assert "2.5"[..1] == "2" && "2.5"[2..] == "5";
    DigitPartExamples();
    ParseMantissaParts("2.5", 1, 2, 5, 1);
    TenthsValue(2, 5);
  }

  /** Underscores group digits: `float("1_0.5")` is 10.5. */
  lemma ParseFloatGroupedExample()
    ensures ParseFloat("1_0.5") == Some(Finite(10.5))
  {
    var s := "1_0.5";
    GroupedMantissa();
    assert s[0] == '1' && s[1] == '_' && s[2] == '0' && s[3] == '.' && s[4] == '5';
    ParseDecimalNoExponent(s);
    ParseFloatUnsigned(s);
  }

  /** An exponent scales the mantissa: `float("2.5e1")` is 25. */
  lemma ParseFloatExponentExample()
    ensures ParseFloat("2.5e1") == Some(Finite(25.0))
  {
    var s := "2.5e1";
    ExponentDecimal(s);
    assert s[0] == '2';
    ParseFloatUnsigned(s);
  }

  /** `2.5e1` as a decimal. The literal is passed as a parameter so that the
      proof works on a variable, which is cheaper. */
  lemma ExponentDecimal(s: string)
    requires s == "2.5e1"
    ensures ParseDecimal(s) == Some(25.0)
  {
    assert s[0] == '2' && s[1] == '.' && s[2] == '5' && s[3] == 'e';
    assert ExponentMark(s) == 3;
    assert s[..3] == "2.5" && s[4..] == "1";
    PointMantissa();
    assert ParseExponent("1") == Some(1) by {
      assert "1"[..0] == "";
    }
    assert Scale(1) == 10.0;
  }

  /** Infinity is spelled in any letter case, after a sign: `float("-Inf")`. */
  lemma ParseFloatInfinityExample()
    ensures ParseFloat("-Inf") == Some(Infinity(true))
  {
    assert "-Inf"[1..] == "Inf";
    assert SpelledAs("Inf", "inf");
  }

  /** A text that still holds its `%` sign is rejected: `float("80%")` raises. */
  lemma ParseFloatPercentExample()
    ensures ParseFloat("80%") == None
  {
    ParseFloatRejectsForeign("80%", 2);
  }

  /** A character no part of a float literal can be: not a digit, an
      underscore, a point, a sign, an exponent mark or a letter. */
  predicate Foreign(c: char) {
    && !IsDigit(c) && c != '_' && c != '.' && c != '+' && c != '-'
    && !('a' <= c <= 'z') && !('A' <= c <= 'Z')
  }

  /** A text with a foreign character in it, such as the `,` of `80,5` or
      a `%`, is not a float: `float` raises. Python strips the text first,
      so for `float` itself this holds of stripped texts. */
  lemma ParseFloatRejectsForeign(s: string, i: nat)
    requires i < |s| && Foreign(s[i])
    ensures ParseFloat(s) == None
  {
    var signed := |s| > 0 && (s[0] == '+' || s[0] == '-');
    var body := if signed then s[1..] else s;
    var j: nat := if signed then i - 1 else i;
    assert body[j] == s[i];
    NotSpelled(body, j, "inf");
    NotSpelled(body, j, "infinity");
    NotSpelled(body, j, "nan");
    DecimalRejectsForeign(body, j);
  }

  /** A foreign character keeps a text from spelling a word of letters. */
  lemma NotSpelled(text: string, j: nat, word: string)
    requires j < |text| && Foreign(text[j])
    requires word == "inf" || word == "infinity" || word == "nan"
    ensures !SpelledAs(text, word)
  {
    assert LowerChar(text[j]) == text[j];
    assert forall k | 0 <= k < |word| :: 'a' <= word[k] <= 'z';
  }

  /** A foreign character keeps a text from being a mantissa. */
  lemma MantissaRejectsForeign(m: string, j: nat)
    requires j < |m| && Foreign(m[j])
    ensures ParseMantissa(m) == None
  {
    var dot := IndexOf(m, '.');
    if j < dot {
      assert m[..dot][j] == m[j];
      assert !IsDigitPart(m[..dot]);
    } else {
      assert m[dot + 1..][j - dot - 1] == m[j];
      assert !IsDigitPart(m[dot + 1..]);
    }
  }

  /** A foreign character keeps a text from being a decimal literal. */
  lemma DecimalRejectsForeign(body: string, j: nat)
    requires j < |body| && Foreign(body[j])
    ensures ParseDecimal(body) == None
  {
    var e := ExponentMark(body);
    if j < e {
      assert body[..e][j] == body[j];
      MantissaRejectsForeign(body[..e], j);
    } else {
      var t := body[e + 1..];
      assert t[j - e - 1] == body[j];
      var digits := if |t| > 0 && (t[0] == '+' || t[0] == '-') then t[1..] else t;
      var k: nat := if |t| > 0 && (t[0] == '+' || t[0] == '-') then j - e - 2 else j - e - 1;
      assert digits[k] == body[j];
      assert !IsDigitPart(digits);
    }
  }
}

=== FILE: hospital_parser.dfy ===
/** `HospitalDataParser` of `hospital_parser.py`: `parse_message` chooses
    between the simple and the detailed report and reads the occupancy
    rates of a detailed message; `validate_data` checks the shape of a
    parsed dict. The dicts are modelled as Python values, so that the
    validator can be applied to any dict and not only to parsed ones. */
module HospitalParser {
  import opened Text
  import opened Results
  import opened Dicts
  import opened Floats
  import opened Readers
  import opened SimpleFormat
  import opened StructuredFormat

  // ---------------------------------------------------------------------
  // Values

  /** A Python value as the parsed dicts hold them. */
  datatype Value =
    | Str(text: string)
    | Int(number: int)
    | Num(float: Float)
    | List(items: seq<Value>)
    | Dict(entries: seq<(string, Value)>)

  /** One `units` entry of the simple report. */
  function SimpleUnitValue(u: SimpleUnit): Value {
    Dict([
      ("name", Str(u.name)),
      ("total_beds", Int(u.totalBeds)),
      ("occupancy_rate", Num(Finite(u.occupancyRate))),
      ("occupied_beds", Int(u.occupiedBeds)),
      ("available_beds", Int(u.availableBeds))])
  }

  /** The `summary` dict. */
  function SummaryValue(s: Summary): Value {
    Dict([
      ("clinical_beds", Int(s.clinicalBeds)),
      ("occupied_clinical", Int(s.occupiedClinical)),
      ("available_clinical", Int(s.availableClinical)),
      ("icu_beds", Int(s.icuBeds)),
      ("occupied_icu", Int(s.occupiedIcu)),
      ("available_icu", Int(s.availableIcu)),
      ("total_beds", Int(s.totalBeds)),
      ("total_occupied", Int(s.totalOccupied)),
      ("total_available", Int(s.totalAvailable))])
  }

  /** One unit of a hospital in the detailed report. */
  function UnitValue(u: Unit): Value {
    Dict([
      ("name", Str(u.name)),
      ("total_beds", Int(u.totalBeds)),
      ("occupied_beds", Int(u.occupiedBeds)),
      ("available_beds", Int(u.availableBeds)),
      ("blocked_beds", Int(u.blockedBeds)),
      ("details", List(seq(|u.details|, k requires 0 <= k < |u.details| => Str(u.details[k]))))])
  }

  /** One hospital of the detailed report. */
  function HospitalValue(h: Hospital): Value {
    Dict([
      ("name", Str(h.name)),
      ("units", List(seq(|h.units|, k requires 0 <= k < |h.units| => UnitValue(h.units[k]))))])
  }

  /** What `parse_message` returns. */
  datatype Report =
    | Simple(simple: SimpleReport)
    | Detailed(hospitals: seq<Hospital>, rates: seq<(string, Float)>)

  /** The report as the dict `parse_message` returns: `units`, `date` and
      `summary` for the simple format; `hospitals`, then `occupancy_rates`
      added to the dict of `extract_hospital_data`, for the detailed one. */
  function ReportDict(r: Report): seq<(string, Value)> {
    match r
    case Simple(s) =>
      [("units", List(seq(|s.units|, k requires 0 <= k < |s.units| => SimpleUnitValue(s.units[k])))),
       ("date", Str(s.date)),
       ("summary", SummaryValue(s.summary))]
    case Detailed(hs, rates) =>
      [("hospitals", List(seq(|hs|, k requires 0 <= k < |hs| => HospitalValue(hs[k])))),
       ("occupancy_rates", Dict(seq(|rates|, k requires 0 <= k < |rates| => (rates[k].0, Num(rates[k].1)))))]
  }

  // ---------------------------------------------------------------------
  // parse_message

  /** Every non-blank line, stripped, ends with `%`; vacuously so for a
      message without any non-blank line. */
  predicate IsSimpleMessage(message: string) {
    forall k | 0 <= k < |NonBlankLines(message)| :: EndsWith(NonBlankLines(message)[k], '%')
  }

  /** The heading of the rates section: U+1F534 and `Taxa de ocupação`. */
  const RatesMarker: string := "\U{1F534}Taxa de ocupação"

  /** The lines after the last rates heading, or all lines of a message
      without one. */
  function RateLines(message: string): seq<string> {
    Split(LastPiece(message, RatesMarker), '\n')
  }

  /** A line the rates loop reads: it holds `- ` and `%`. */
  predicate IsRateLine(line: string) {
    Contains(line, "- ") && '%' in line
  }

  /** Why `parse_message` raises: unpacking `split('-')` into two names
      found another number of pieces, or `float` rejected the rate text. */
  datatype Cause = UnpackMismatch(pieces: nat) | NotAFloat(text: string)

  /** The text every error message of `parse_message` starts with. */
  const ErrorPrefix: string := "Failed to parse hospital data: "

  /** One rate line: the stripped line split at `-` must give exactly a
      name and a rate; the rate, without `%` and stripped, goes through
      `float`; the key is the stripped name. */
  function ParseRateLine(line: string): Result<(string, Float), Cause> {
    var parts := Split(Strip(line), '-');
    if |parts| != 2 then Failure(UnpackMismatch(|parts|))
    else
      var text := Strip(RemoveChar(parts[1], '%'));
      match ParseFloat(text)
      case None => Failure(NotAFloat(text))
      case Some(f) => Success((Strip(parts[0]), f))
  }

  /** The unpacking raises exactly when the stripped line holds a number
      of hyphens other than one, and then reports one piece more than
      there are hyphens. */
  lemma RateLineUnpack(line: string)
    ensures var r := ParseRateLine(line);
      && (r.Failure? && r.error.UnpackMismatch? <==> Occurrences(Strip(line), '-') != 1)
      && (r.Failure? && r.error.UnpackMismatch? ==> r.error.pieces == Occurrences(Strip(line), '-') + 1)
  {
    SplitCount(Strip(line), '-');
  }

  /** A stored name holds no hyphen and is already stripped. */
  lemma RateLineKey(line: string)
    requires ParseRateLine(line).Success?
    ensures var name := ParseRateLine(line).value.0;
      '-' !in name && Strip(name) == name
  {
    var parts := Split(Strip(line), '-');
    var name := Strip(parts[0]);
    assert ParseRateLine(line).value.0 == name;
    assert '-' !in name by {
      StripKeeps(parts[0], '-');
    }
    if name != [] {
      StripTrimmed(name);
    }
  }

  /** A stripped line that splits into a name part and a rate part that
      `float` reads is stored under the stripped name. */
  lemma ReadsParts(line: string, left: string, right: string, f: Float)
    requires Split(Strip(line), '-') == [left, right]
    requires ParseFloat(Strip(RemoveChar(right, '%'))) == Some(f)
    ensures ParseRateLine(line) == Success((Strip(left), f))
  {
  }

  /** A rate that holds a character no float literal has, such as the
      decimal comma of `80,5%`, makes `float` raise. */
  lemma ForeignRateFails(line: string, left: string, right: string, i: nat)
    requires Split(Strip(line), '-') == [left, right]
    requires var text := Strip(RemoveChar(right, '%')); i < |text| && Foreign(text[i])
    ensures ParseRateLine(line) == Failure(NotAFloat(Strip(RemoveChar(right, '%'))))
  {
    ParseFloatRejectsForeign(Strip(RemoveChar(right, '%')), i);
  }

  /** The rates loop: rate lines in order, each stored with `d[key] = value`. */
  function RateReader(): Reader<string, Float, Cause> {
    Reader(IsRateLine, ParseRateLine)
  }

  /** `parse_message(message)`; `date` is the current date the simple
      report carries, supplied by the caller. */
  function ParseMessage(message: string, date: string): (r: Result<Report, Cause>)
    ensures IsSimpleMessage(message) ==> r == Success(Simple(ParseSimpleFormat(message, date)))
    ensures !IsSimpleMessage(message) && r.Success? ==> r.value.Detailed? && r.value.hospitals == ExtractHospitalData(message)
  {
    if IsSimpleMessage(message) then Success(Simple(ParseSimpleFormat(message, date)))
    else
      match ReadAll(RateReader(), RateLines(message), [])
      case Failure(e) => Failure(e)
      case Success(rates) => Success(Detailed(ExtractHospitalData(message), rates))
  }

  /** What callers of `parse_message` see: the report, or the ValueError
      it raises, whose text is the prefix followed by the text of the
      exception that stopped the parse (`describe`, Python's `str(e)`). */
  function ParseMessageOrRaise(message: string, date: string, describe: Cause -> string): (r: Result<Report, string>)
    ensures r.Success? <==> ParseMessage(message, date).Success?
    ensures r.Success? ==> r.value == ParseMessage(message, date).value
    ensures r.Failure? ==> |ErrorPrefix| <= |r.error| && r.error[..|ErrorPrefix|] == ErrorPrefix
    ensures r.Failure? ==> r.error[|ErrorPrefix|..] == describe(ParseMessage(message, date).error)
  {
    match ParseMessage(message, date)
    case Success(report) => Success(report)
    case Failure(e) => Failure(ErrorPrefix + describe(e))
  }

  /** A detailed message fails exactly when one of its rate lines does not
      parse, with that line's cause; otherwise its rates have distinct
      names and each name maps to the rate of its last line. */
  lemma ParseMessageRates(message: string, date: string, name: string)
    requires !IsSimpleMessage(message)
    ensures var r := ParseMessage(message, date);
      && (r.Failure? <==> exists k | 0 <= k < |RateLines(message)| :: Fails(RateReader(), RateLines(message)[k]))
      && (r.Failure? ==> exists k | 0 <= k < |RateLines(message)| ::
            Fails(RateReader(), RateLines(message)[k]) && r.error == ParseRateLine(RateLines(message)[k]).error)
      && (r.Success? ==>
            && DistinctKeys(r.value.rates)
            && Lookup(r.value.rates, name) == LastValue(RateReader(), RateLines(message), name, None))
  {
    var lines := RateLines(message);
    ReadAllFailure(RateReader(), lines, []);
    if ReadAll(RateReader(), lines, []).Success? {
      ReadAllLookup(RateReader(), lines, [], name);
    }
  }

  /** A message without a rates heading has all its lines read for rates. */
  lemma RatesWithoutMarker(message: string)
    requires !Contains(message, RatesMarker)
    ensures RateLines(message) == Split(message, '\n')
  {
    LastPieceOfAbsent(message, RatesMarker);
  }

  /** A message with no non-blank line counts as simple and yields the
      empty simple report. */
  lemma EmptyMessageIsSimple(date: string)
    ensures ParseMessage("", date) == Success(Simple(ParseSimpleFormat("", date)))
    ensures ParseSimpleFormat("", date).units == []
  {
    assert Split("", '\n') == [""];
    assert Strip("") == "";
    assert NonBlankLines("") == [];
  }

  /** A simple message whose lines have no `(N leitos)` part, like the
      sample in the repository's parser test, parses without error into a
      report with no unit. */
  lemma ParenlessSimpleMessage(message: string, date: string)
    requires IsSimpleMessage(message) && '(' !in message
    ensures ParseMessage(message, date).Success?
    ensures ParseMessage(message, date).value.simple.units == []
  {
    WithoutParenNoUnits(message);
  }

  // Rate lines

  /** A rate line written `<name> - <digits>%`, with a name that has no
      hyphen and no surrounding whitespace, reads back as that name and
      that whole number. */
  lemma RateLineRoundTrip(name: string, digits: string)
    requires name != [] && !IsSpace(name[0]) && !IsSpace(name[|name| - 1]) && '-' !in name
    requires DigitsIn(digits, 0, |digits|)
    ensures ParseRateLine(name + " - " + digits + "%") == Success((name, Finite(DigitsValue(digits, 0, |digits|) as real)))
  {
    RateLinePieces(name, digits);
    ParseFloatDigits(digits);
    ReadsParts(name + " - " + digits + "%", name + " ", " " + digits + "%", Finite(DigitsValue(digits, 0, |digits|) as real));
  }

  /** How `<name> - <digits>%` splits, and what stripping leaves of its pieces. */
  lemma RateLinePieces(name: string, digits: string)
    requires name != [] && !IsSpace(name[0]) && !IsSpace(name[|name| - 1]) && '-' !in name
    requires DigitsIn(digits, 0, |digits|)
    ensures var line := name + " - " + digits + "%";
      && Split(Strip(line), '-') == [name + " ", " " + digits + "%"]
      && Strip(RemoveChar(" " + digits + "%", '%')) == digits
      && Strip(name + " ") == name
  {
    RateLineSplits(name, digits);
    RatePieceStrips(digits);
    assert Strip(name + " ") == name by {
      StripPadded([], name, " ");
      assert [] + name + " " == name + " ";
    }
  }

  /** `<name> - <digits>%` is already stripped and splits at its one hyphen. */
  lemma RateLineSplits(name: string, digits: string)
    requires name != [] && !IsSpace(name[0]) && '-' !in name
    requires DigitsIn(digits, 0, |digits|)
    ensures Split(Strip(name + " - " + digits + "%"), '-') == [name + " ", " " + digits + "%"]
  {
    var line := name + " - " + digits + "%";
    var left := name + " ";
    var right := " " + digits + "%";
    RateLineStripped(name, digits);
    assert '-' !in right by {
      assert forall k | 0 <= k < |digits| :: right[k + 1] == digits[k];
    }
    assert line == left + ['-'] + right;
    SplitTwo(left, right, '-');
  }

  /** The rate piece ` <digits>%` without its percent sign, stripped, is the digits. */
  lemma RatePieceStrips(digits: string)
    requires DigitsIn(digits, 0, |digits|)
    ensures Strip(RemoveChar(" " + digits + "%", '%')) == digits
  {
    var spaced := " " + digits;
    assert '%' !in spaced by {
      assert forall k | 0 <= k < |digits| :: spaced[k + 1] == digits[k];
    }
    RemoveLast(spaced, '%');
    assert spaced + ['%'] == " " + digits + "%";
    assert Strip(spaced) == digits by {
      StripPadded(" ", digits, []);
      assert " " + digits + [] == spaced;
    }
  }

  /** A hyphen in the unit name, before the ` - ` that separates it from
      the rate, gives the line three or more pieces, and the unpacking
      raises: the whole message fails. */
  lemma HyphenatedNameFails(line: string, p: nat)
    requires Strip(line) == line
    requires p + 3 <= |line| && line[p] == ' ' && line[p + 1] == '-' && line[p + 2] == ' '
    requires '-' in line[..p]
    ensures ParseRateLine(line).Failure?
    ensures ParseRateLine(line).error.UnpackMismatch? && ParseRateLine(line).error.pieces >= 3
  {
    assert Occurrences(line, '-') >= 2 by {
      assert line == line[..p] + line[p..];
      OccurrencesConcat(line[..p], line[p..], '-');
      assert '-' in line[p..] by {
        assert line[p..][1] == '-';
      }
    }
    RateLineUnpack(line);
  }

  /** `<name> - <rate>%` neither starts nor ends with whitespace. */
  lemma RateLineStripped(name: string, rate: string)
    requires name != [] && !IsSpace(name[0])
    ensures Strip(name + " - " + rate + "%") == name + " - " + rate + "%"
  {
    var line := name + " - " + rate + "%";
    assert line[0] == name[0] && line[|line| - 1] == '%';
    StripPadded([], line, []);
    assert [] + line + [] == line;
  }

  /** `UTI-Adulto - 80%` cannot be read: it splits into three pieces. */
  lemma HyphenatedExample()
    ensures ParseRateLine("UTI-Adulto - 80%") == Failure(UnpackMismatch(3))
  {
    var line := "UTI-Adulto - 80%";
    assert line[0] == 'U' && line[|line| - 1] == '%';
    assert Strip(line) == line by {
      StripPadded([], line, []);
      assert [] + line + [] == line;
    }
    HyphenatedPieces(line);
  }

  /** The pieces of `UTI-Adulto - 80%` at its hyphens. The literal is passed
      as a parameter so that the proof works on a variable, which is cheaper. */
  lemma HyphenatedPieces(line: string)
    requires line == "UTI-Adulto - 80%"
    ensures Split(line, '-') == ["UTI", "Adulto ", " 80%"]
  {
    var parts := ["UTI", "Adulto ", " 80%"];
    assert Join(parts, "-") == line by {
      assert parts[1..] == ["Adulto ", " 80%"];
      assert parts[2..] == [" 80%"];
    }
    SplitJoin(parts, '-');
  }

  // ---------------------------------------------------------------------
  // validate_data

  /** Python's `for x in v`: a list gives its items, a dict its keys, a str
      its characters; iterating a number raises TypeError (None). */
  function Iterate(v: Value): (r: Option<seq<Value>>)
    ensures v.List? ==> r == Some(v.items)
    ensures r.None? <==> v.Int? || v.Num?
  {
    match v
    case List(items) => Some(items)
    case Dict(entries) => Some(seq(|entries|, k requires 0 <= k < |entries| => Str(entries[k].0)))
    case Str(s) => Some(seq(|s|, k requires 0 <= k < |s| => Str([s[k]])))
    case _ => None
  }

  /** v is a dict holding every key of `required`. */
  predicate Conforms(v: Value, required: seq<string>) {
    v.Dict? && forall k | 0 <= k < |required| :: HasKey(v.entries, required[k])
  }

  /** `required.issubset(v.keys())`; calling `keys` on anything but a dict
      raises AttributeError (None). */
  function HasAllKeys(v: Value, required: seq<string>): (r: Option<bool>)
    ensures r == Some(true) <==> Conforms(v, required)
    ensures r.None? <==> !v.Dict?
  {
    match v
    case Dict(d) => Some(forall k | 0 <= k < |required| :: HasKey(d, required[k]))
    case _ => None
  }

  const HospitalKeys: seq<string> := ["name", "units"]
  const DetailedUnitKeys: seq<string> := ["name", "total_beds", "occupied_beds", "available_beds"]
  const SimpleUnitKeys: seq<string> := ["name", "total_beds", "occupancy_rate"]

  /** The loop over the units: False at the first item that lacks a key,
      an exception at the first item that is not a dict, True when every
      item passes. */
  function CheckItems(items: seq<Value>, required: seq<string>): Option<bool>
    decreases |items|
  {
    if |items| == 0 then Some(true)
    else
      match HasAllKeys(items[0], required)
      case None => None
      case Some(false) => Some(false)
      case Some(true) => CheckItems(items[1..], required)
  }

  /** CheckItems gives True exactly when every item conforms, and raises
      exactly when an item that is not a dict comes before any item that
      lacks a key. */
  lemma {:induction false} CheckItemsSpec(items: seq<Value>, required: seq<string>)
    ensures CheckItems(items, required) == Some(true) <==> forall k | 0 <= k < |items| :: Conforms(items[k], required)
    ensures CheckItems(items, required).None? <==>
      exists k | 0 <= k < |items| :: !items[k].Dict? && forall j | 0 <= j < k :: Conforms(items[j], required)
    decreases |items|
  {
    if |items| > 0 {
      var rest := items[1..];
      assert forall k | 1 <= k < |items| :: items[k] == rest[k - 1];
      CheckItemsSpec(rest, required);
      if Conforms(items[0], required) {
        assert CheckItems(items, required) == CheckItems(rest, required);
        if exists k | 0 <= k < |rest| :: !rest[k].Dict? && forall j | 0 <= j < k :: Conforms(rest[j], required) {
          var k :| 0 <= k < |rest| && !rest[k].Dict? && forall j | 0 <= j < k :: Conforms(rest[j], required);
          assert !items[k + 1].Dict?;
          assert forall j | 0 <= j < k + 1 :: Conforms(items[j], required) by {
            forall j | 0 <= j < k + 1 ensures Conforms(items[j], required) {
              if j > 0 {
                assert items[j] == rest[j - 1];
              }
            }
          }
        }
        if exists k | 0 <= k < |items| :: !items[k].Dict? && forall j | 0 <= j < k :: Conforms(items[j], required) {
          var k :| 0 <= k < |items| && !items[k].Dict? && forall j | 0 <= j < k :: Conforms(items[j], required);
          assert k > 0;
          assert !rest[k - 1].Dict?;
          assert forall j | 0 <= j < k - 1 :: Conforms(rest[j], required) by {
            forall j | 0 <= j < k - 1 ensures Conforms(rest[j], required) {
              assert rest[j] == items[j + 1];
            }
          }
        }
      } else if items[0].Dict? {
        assert CheckItems(items, required) == Some(false);
        assert !Conforms(items[0], required);
      } else {
        assert CheckItems(items, required).None?;
        assert !items[0].Dict?;
      }
    }
  }

  /** The loop of `_validate_detailed_format` over the hospitals: each must
      hold `name` and `units`, and its `units` must pass the unit check. */
  function CheckHospitals(hs: seq<Value>): Option<bool>
    decreases |hs|
  {
    if |hs| == 0 then Some(true)
    else
      match HasAllKeys(hs[0], HospitalKeys)
      case None => None
      case Some(false) => Some(false)
      case Some(true) =>
        assert HasKey(hs[0].entries, HospitalKeys[1]);
        match Iterate(Lookup(hs[0].entries, "units").value)
        case None => None
        case Some(units) =>
          match CheckItems(units, DetailedUnitKeys)
          case Some(true) => CheckHospitals(hs[1..])
          case other => other
  }

  /** A hospital passes: it has both keys and its units all conform. */
  predicate GoodHospital(h: Value) {
    && Conforms(h, HospitalKeys)
    && Lookup(h.entries, "units").Some?
    && Iterate(Lookup(h.entries, "units").value).Some?
    && forall k | 0 <= k < |Iterate(Lookup(h.entries, "units").value).value| ::
      Conforms(Iterate(Lookup(h.entries, "units").value).value[k], DetailedUnitKeys)
  }

  /** CheckHospitals gives True exactly when every hospital passes. */
  lemma {:induction false} CheckHospitalsSpec(hs: seq<Value>)
    ensures CheckHospitals(hs) == Some(true) <==> forall k | 0 <= k < |hs| :: GoodHospital(hs[k])
    decreases |hs|
  {
    if |hs| > 0 {
      var rest := hs[1..];
      assert forall k | 1 <= k < |hs| :: hs[k] == rest[k - 1];
      CheckHospitalsSpec(rest);
      if Conforms(hs[0], HospitalKeys) {
        assert HasKey(hs[0].entries, HospitalKeys[1]);
        var units := Iterate(Lookup(hs[0].entries, "units").value);
        if units.Some? {
          CheckItemsSpec(units.value, DetailedUnitKeys);
        }
      }
    }
  }

  /** `_validate_detailed_format`. */
  function ValidateDetailed(data: seq<(string, Value)>): Option<bool>
    requires HasKey(data, "hospitals")
  {
    match Iterate(Lookup(data, "hospitals").value)
    case None => None
    case Some(hs) => CheckHospitals(hs)
  }

  /** `_validate_simple_format`. */
  function ValidateSimple(data: seq<(string, Value)>): Option<bool>
    requires HasKey(data, "units")
  {
    match Iterate(Lookup(data, "units").value)
    case None => None
    case Some(units) => CheckItems(units, SimpleUnitKeys)
  }

  /** `validate_data(data)`: an empty dict is invalid; a dict with
      `hospitals` is checked as detailed, whatever else it holds; one with
      `units` as simple; any other dict is invalid. None is an exception
      the validator raises. */
  function ValidateData(data: seq<(string, Value)>): (r: Option<bool>)
    ensures data == [] ==> r == Some(false)
    ensures !HasKey(data, "hospitals") && !HasKey(data, "units") ==> r == Some(false)
  {
    if |data| == 0 then Some(false)
    else if HasKey(data, "hospitals") then ValidateDetailed(data)
    else if HasKey(data, "units") then ValidateSimple(data)
    else Some(false)
  }

  /** The hospitals of a dict with `hospitals` can be iterated, and each
      has both keys and units that all conform. */
  predicate PassesDetailed(data: seq<(string, Value)>)
    requires HasKey(data, "hospitals")
  {
    var hs := Iterate(Lookup(data, "hospitals").value);
    hs.Some? && forall k | 0 <= k < |hs.value| :: GoodHospital(hs.value[k])
  }

  /** The units of a dict with `units` can be iterated and all conform. */
  predicate PassesSimple(data: seq<(string, Value)>)
    requires HasKey(data, "units")
  {
    var us := Iterate(Lookup(data, "units").value);
    us.Some? && forall k | 0 <= k < |us.value| :: Conforms(us.value[k], SimpleUnitKeys)
  }

  /** What passes, for every dict: one with `hospitals` passes exactly when
      its hospitals do, whatever its `units` hold; one with `units` but no
      `hospitals` passes exactly when its units do; no other dict passes. */
  lemma ValidateDataPasses(data: seq<(string, Value)>)
    ensures HasKey(data, "hospitals") ==>
      (ValidateData(data) == Some(true) <==> PassesDetailed(data))
    ensures !HasKey(data, "hospitals") && HasKey(data, "units") ==>
      (ValidateData(data) == Some(true) <==> PassesSimple(data))
    ensures !HasKey(data, "hospitals") && !HasKey(data, "units") ==> ValidateData(data) == Some(false)
  {
    if HasKey(data, "hospitals") {
      assert data != [];
      var hs := Iterate(Lookup(data, "hospitals").value);
      if hs.Some? {
        CheckHospitalsSpec(hs.value);
      }
    } else if HasKey(data, "units") {
      assert data != [];
      var us := Iterate(Lookup(data, "units").value);
      if us.Some? {
        CheckItemsSpec(us.value, SimpleUnitKeys);
      }
    }
  }

  // ---------------------------------------------------------------------
  // What the validator says about parsed reports

  /** Every report `parse_message` can return passes `validate_data`. */
  lemma ReportsValidate(r: Report)
    ensures ValidateData(ReportDict(r)) == Some(true)
  {
    var d := ReportDict(r);
    match r
    case Simple(s) =>
      assert d[0].0 == "units";
      assert !HasKey(d, "hospitals") by {
        assert d[1].0 == "date" && d[2].0 == "summary";
      }
      var units := seq(|s.units|, k requires 0 <= k < |s.units| => SimpleUnitValue(s.units[k]));
      assert Lookup(d, "units") == Some(List(units));
      forall k | 0 <= k < |units| ensures Conforms(units[k], SimpleUnitKeys) {
        SimpleUnitConforms(s.units[k]);
      }
      CheckItemsSpec(units, SimpleUnitKeys);
    case Detailed(hs, rates) =>
      assert d[0].0 == "hospitals";
      var hvs := seq(|hs|, k requires 0 <= k < |hs| => HospitalValue(hs[k]));
      assert Lookup(d, "hospitals") == Some(List(hvs));
      forall k | 0 <= k < |hvs| ensures GoodHospital(hvs[k]) {
        HospitalPasses(hs[k]);
      }
      CheckHospitalsSpec(hvs);
  }

  lemma SimpleUnitConforms(u: SimpleUnit)
    ensures Conforms(SimpleUnitValue(u), SimpleUnitKeys)
  {
    var e := SimpleUnitValue(u).entries;
    assert e[0].0 == SimpleUnitKeys[0] && e[1].0 == SimpleUnitKeys[1] && e[2].0 == SimpleUnitKeys[2];
  }

  lemma UnitConforms(u: Unit)
    ensures Conforms(UnitValue(u), DetailedUnitKeys)
  {
    var e := UnitValue(u).entries;
    assert e[0].0 == DetailedUnitKeys[0] && e[1].0 == DetailedUnitKeys[1];
    assert e[2].0 == DetailedUnitKeys[2] && e[3].0 == DetailedUnitKeys[3];
  }

  lemma HospitalPasses(h: Hospital)
    ensures GoodHospital(HospitalValue(h))
  {
    var e := HospitalValue(h).entries;
    var units := seq(|h.units|, k requires 0 <= k < |h.units| => UnitValue(h.units[k]));
    assert e[0].0 == HospitalKeys[0] && e[1].0 == HospitalKeys[1];
    assert Lookup(e, "units") == Some(List(units));
    forall k | 0 <= k < |units| ensures Conforms(units[k], DetailedUnitKeys) {
      UnitConforms(h.units[k]);
    }
  }

  /** What `parse_message` returns without raising passes `validate_data`. */
  lemma ParsedMessagesValidate(message: string, date: string)
    requires ParseMessage(message, date).Success?
    ensures ValidateData(ReportDict(ParseMessage(message, date).value)) == Some(true)
  {
    ReportsValidate(ParseMessage(message, date).value);
  }

  // Edge cases of the validator

  /** Empty lists pass: a report without hospitals, or without units. */
  lemma EmptyListsValidate()
    ensures ValidateData([("hospitals", List([]))]) == Some(true)
    ensures ValidateData([("units", List([]))]) == Some(true)
  {
    var d: seq<(string, Value)> := [("hospitals", List([]))];
    assert d[0].0 == "hospitals";
    var e: seq<(string, Value)> := [("units", List([]))];
    assert e[0].0 == "units";
  }

  /** `hospitals` is looked at first: a valid `units` list does not save
      a dict whose hospitals lack their keys. */
  lemma HospitalsTakePrecedence()
    ensures ValidateData([("units", List([])), ("hospitals", List([Dict([])]))]) == Some(false)
  {
    var d := [("units", List([])), ("hospitals", List([Dict([])]))];
    assert HasKey(d, "hospitals") by {
      assert d[1].0 == "hospitals";
    }
    assert !HasKey<Value>([], HospitalKeys[0]);
  }

  /** A unit that is not a dict makes the validator raise instead of
      answering False. */
  lemma NonDictUnitRaises()
    ensures ValidateData([("units", List([Int(3)]))]) == None
  {
    var d: seq<(string, Value)> := [("units", List([Int(3)]))];
    assert d[0].0 == "units";
  }
}

=== FILE: lists.dfy ===
/** Python's filtering comprehension `[g(x) for x in xs if test(x)]`, with
    the test and the transformation fused into one function that returns
    None for the elements it drops. */
module Lists {
  import opened Results

  /** The results f gives the elements it keeps, in order. */
  function FilterMap<A, B>(xs: seq<A>, f: A -> Option<B>): (ys: seq<B>)
    ensures |ys| <= |xs|
  {
    if |xs| == 0 then []
    else
      match f(xs[0])
      case None => FilterMap(xs[1..], f)
      case Some(y) => [y] + FilterMap(xs[1..], f)
  }

  /** The elements f keeps, in order. */
  function Kept<A, B>(xs: seq<A>, f: A -> Option<B>): (kept: seq<A>)
    ensures |kept| <= |xs|
  {
    if |xs| == 0 then []
    else (if f(xs[0]).Some? then [xs[0]] else []) + Kept(xs[1..], f)
  }

  /** The k-th result is what f gives the k-th kept element. */
  lemma {:induction false} FilterMapKept<A, B>(xs: seq<A>, f: A -> Option<B>)
    ensures |FilterMap(xs, f)| == |Kept(xs, f)|
    ensures forall k | 0 <= k < |Kept(xs, f)| :: f(Kept(xs, f)[k]) == Some(FilterMap(xs, f)[k])
  {
    if |xs| > 0 {
      var rest := xs[1..];
      FilterMapKept(rest, f);
      if f(xs[0]).Some? {
        var ys := FilterMap(xs, f);
        var kept := Kept(xs, f);
        assert ys == [f(xs[0]).value] + FilterMap(rest, f);
        assert kept == [xs[0]] + Kept(rest, f);
        forall k | 0 <= k < |kept|
          ensures f(kept[k]) == Some(ys[k])
        {
          if k > 0 {
            assert kept[k] == Kept(rest, f)[k - 1];
            assert ys[k] == FilterMap(rest, f)[k - 1];
          }
        }
      } else {
        assert Kept(xs, f) == [] + Kept(rest, f) == Kept(rest, f);
      }
    }
  }

  /** When f drops every element nothing is kept. */
  lemma {:induction false} NoneKept<A, B>(xs: seq<A>, f: A -> Option<B>)
    requires forall k | 0 <= k < |xs| :: f(xs[k]).None?
    ensures FilterMap(xs, f) == []
  {
    if |xs| > 0 {
      assert forall k | 0 <= k < |xs| - 1 :: xs[1..][k] == xs[k + 1];
      NoneKept(xs[1..], f);
    }
  }
}

=== FILE: readers.dfy ===
/** A loop that reads some of the items into a dict: each selected item is
    parsed into a key and a value and stored with `d[key] = value`, and the
    first selected item that fails to parse ends the loop with its error.
    The loop is related to two reference readings: which items make it
    fail, and, when it succeeds, which value each key ends up with. */
module Readers {
  import opened Results
  import opened Dicts

  /** Which items the loop reads, and how it parses one. */
  datatype Reader<!A, V, E> = Reader(selects: A -> bool, parse: A -> Result<(string, V), E>)

  /** The loop, storing into `table`. */
  function ReadAll<A, V, E>(rd: Reader<A, V, E>, xs: seq<A>, table: seq<(string, V)>): Result<seq<(string, V)>, E>
    decreases |xs|
  {
    if |xs| == 0 then Success(table)
    else if !rd.selects(xs[0]) then ReadAll(rd, xs[1..], table)
    else
      match rd.parse(xs[0])
      case Failure(e) => Failure(e)
      case Success(entry) => ReadAll(rd, xs[1..], Assign(table, entry.0, entry.1))
  }

  /** x is read and does not parse. */
  predicate Fails<A, V, E>(rd: Reader<A, V, E>, x: A) {
    rd.selects(x) && rd.parse(x).Failure?
  }

  /** The loop fails exactly when some item fails, and then with the error
      of the first item that does. */
  lemma {:induction false} ReadAllFailure<A, V, E>(rd: Reader<A, V, E>, xs: seq<A>, table: seq<(string, V)>)
    ensures ReadAll(rd, xs, table).Failure? <==> exists k | 0 <= k < |xs| :: Fails(rd, xs[k])
    ensures ReadAll(rd, xs, table).Failure? ==>
      exists k | 0 <= k < |xs| ::
        && Fails(rd, xs[k])
        && (forall j | 0 <= j < k :: !Fails(rd, xs[j]))
        && ReadAll(rd, xs, table).error == rd.parse(xs[k]).error
    decreases |xs|
  {
    if |xs| > 0 {
      var rest := xs[1..];
      assert forall k | 1 <= k < |xs| :: xs[k] == rest[k - 1];
      if Fails(rd, xs[0]) {
        assert ReadAll(rd, xs, table) == Failure(rd.parse(xs[0]).error);
      } else {
        var table' := if rd.selects(xs[0]) then Assign(table, rd.parse(xs[0]).value.0, rd.parse(xs[0]).value.1) else table;
        assert ReadAll(rd, xs, table) == ReadAll(rd, rest, table');
        ReadAllFailure(rd, rest, table');
        if ReadAll(rd, rest, table').Failure? {
          var k :| 0 <= k < |rest| && Fails(rd, rest[k]) && (forall j | 0 <= j < k :: !Fails(rd, rest[j]))
            && ReadAll(rd, rest, table').error == rd.parse(rest[k]).error;
          assert forall j | 0 <= j < k + 1 :: !Fails(rd, xs[j]) by {
            forall j | 0 <= j < k + 1 ensures !Fails(rd, xs[j]) {
              if j > 0 {
                assert xs[j] == rest[j - 1];
              }
            }
          }
          assert Fails(rd, xs[k + 1]);
        }
      }
    }
  }

  /** The value the last item read with key k gives it, or `prior` when no
      read item has that key. */
  function LastValue<A, V, E>(rd: Reader<A, V, E>, xs: seq<A>, key: string, prior: Option<V>): Option<V>
    decreases |xs|
  {
    if |xs| == 0 then prior
    else
      var r := rd.parse(xs[0]);
      var here := if rd.selects(xs[0]) && r.Success? && r.value.0 == key then Some(r.value.1) else prior;
      LastValue(rd, xs[1..], key, here)
  }

  /** When the loop succeeds, the keys stay distinct and every key maps to
      the value of the last item read with it; keys no item has keep the
      value they had. */
  lemma {:induction false} ReadAllLookup<A, V, E>(rd: Reader<A, V, E>, xs: seq<A>, table: seq<(string, V)>, key: string)
    requires DistinctKeys(table)
    requires ReadAll(rd, xs, table).Success?
    ensures DistinctKeys(ReadAll(rd, xs, table).value)
    ensures Lookup(ReadAll(rd, xs, table).value, key) == LastValue(rd, xs, key, Lookup(table, key))
    decreases |xs|
  {
    if |xs| > 0 {
      var rest := xs[1..];
      if rd.selects(xs[0]) {
        var entry := rd.parse(xs[0]).value;
        var table' := Assign(table, entry.0, entry.1);
        AssignLookup(table, entry.0, entry.1, key);
        assert ReadAll(rd, xs, table) == ReadAll(rd, rest, table');
        ReadAllLookup(rd, rest, table', key);
      } else {
        ReadAllLookup(rd, rest, table, key);
      }
    }
  }
}

=== FILE: results.dfy ===
/** Optional values and success/failure results, used wherever the Python
    code returns `None` or raises. */
module Results {

  datatype Option<+T> = None | Some(value: T) {

    function GetOr(default: T): T {
      match this
      case Some(v) => v
      case None => default
    }
  }

  datatype Result<+T, +E> = Success(value: T) | Failure(error: E) {

    predicate IsFailure() {
      Failure?
    }

    function PropagateFailure<U>(): Result<U, E>
      requires Failure?
    {
      Failure(error)
    }

    function Extract(): T
      requires Success?
    {
      value
    }
  }
}

=== FILE: simple_format.dfy ===
/** `parse_simple_format` and `_generate_summary` of `utils.py`: one unit per
    line of the form `<label> (<N> leitos) - <d>[.,]<d>%`, the label resolved
    through the alias table, occupied beds derived from the rate, and the
    occupied counts summed into a clinical / intensive-care summary. */
module SimpleFormat {
  import opened Text
  import opened Results
  import opened Extractors
  import opened Dicts
  import opened UnitTables
  import opened Lists

  // ---------------------------------------------------------------------
  // The line pattern
  //   re.match(r'(.+?)\s*\((\d+)\s*leitos?\)\s*-\s*(\d+[.,]\d+)%', line)

  /** `\s*\(` from p: whitespace, then `(` at a - 1, where the bed count starts at a. */
  predicate OpenParenAt(l: string, p: nat, a: nat) {
    1 <= a && SpacesIn(l, p, a - 1) && a - 1 < |l| && l[a - 1] == '('
  }

  /** `\s*leitos?\)` from b: whitespace, the word, and `)` at x. */
  ghost predicate WordCloseAt(l: string, b: nat, x: nat) {
    exists w: nat :: SpacesIn(l, b, w) && LeitoWord(l, w, x) && x < |l| && l[x] == ')'
  }

  /** `\s*-\s*` between the `)` at x and the rate starting at c. */
  ghost predicate DashBetween(l: string, x: nat, c: nat) {
    exists y: nat :: SpacesIn(l, x + 1, y) && y < |l| && l[y] == '-' && SpacesIn(l, y + 1, c)
  }

  /** `(\d+[.,]\d+)%`: the rate is l[c..d] and `%` is l[d]. */
  ghost predicate RateAt(l: string, c: nat, d: nat) {
    d < |l| && l[d] == '%' && exists q: nat :: SeparatedAt(l, c, q, d) && (l[q] == '.' || l[q] == ',')
  }

  /** Everything after the label matches from p, with the bed count at
      l[a..b] and the rate at l[c..d]. */
  ghost predicate TailMatch(l: string, p: nat, a: nat, b: nat, c: nat, d: nat) {
    && OpenParenAt(l, p, a)
    && DigitsIn(l, a, b)
    && (exists x: nat :: WordCloseAt(l, b, x) && DashBetween(l, x, c))
    && RateAt(l, c, d)
  }

  /** No tail starts at q, whatever the group positions. */
  ghost predicate NoTailAt(l: string, q: nat) {
    forall a: nat, b: nat, c: nat, d: nat :: !TailMatch(l, q, a, b, c, d)
  }

  /** `re.match` succeeds with label l[..p]: the lazy `.+?` takes the
      shortest non-empty label after which the rest matches. (The lines
      this is applied to never hold a newline, so `.` matches any of
      their characters.) */
  ghost predicate LineMatch(l: string, p: nat, a: nat, b: nat, c: nat, d: nat) {
    && 1 <= p
    && TailMatch(l, p, a, b, c, d)
    && forall q: nat | 1 <= q < p :: NoTailAt(l, q)
  }

  /** The line has the simple-format shape. */
  ghost predicate Matches(l: string) {
    exists p: nat, a: nat, b: nat, c: nat, d: nat :: LineMatch(l, p, a, b, c, d)
  }

  /** Positions of the three groups: the label is l[..labelEnd], the bed
      count l[bedsStart..bedsEnd], the rate l[rateStart..rateEnd]. */
  datatype Groups = Groups(labelEnd: nat, bedsStart: nat, bedsEnd: nat, rateStart: nat, rateEnd: nat)

  /** `\s*\((\d+)` from p: the start and the greedy end of the bed count. */
  function BedsFrom(l: string, p: nat): (r: Option<(nat, nat)>)
    requires p <= |l|
    ensures r.Some? ==> OpenParenAt(l, p, r.value.0) && DigitsIn(l, r.value.0, r.value.1)
    ensures r.Some? ==> r.value.1 == |l| || !IsDigit(l[r.value.1])
  {
    var o := SpanSpaces(l, p);
    if o == |l| || l[o] != '(' then None
    else
      var b := SpanDigits(l, o + 1);
      if b == o + 1 then None else Some((o + 1, b))
  }

  lemma BedsFromUnique(l: string, p: nat, a: nat, b: nat)
    requires OpenParenAt(l, p, a) && DigitsIn(l, a, b)
    requires b == |l| || !IsDigit(l[b])
    ensures BedsFrom(l, p) == Some((a, b))
  {
    SpanSpacesUnique(l, p, a - 1);
    SpanDigitsUnique(l, a, b);
  }

  /** `\s*leitos?\)` from b: the position of the `)`. */
  function CloseFrom(l: string, b: nat): (r: Option<nat>)
    requires b <= |l|
    ensures r.Some? ==> WordCloseAt(l, b, r.value)
  {
    var w := SpanSpaces(l, b);
    LeitoClose(l, w, false)
  }

  lemma CloseFromUnique(l: string, b: nat, x: nat)
    requires WordCloseAt(l, b, x)
    ensures CloseFrom(l, b) == Some(x)
  {
    var w: nat :| SpacesIn(l, b, w) && LeitoWord(l, w, x) && x < |l| && l[x] == ')';
    assert l[w] == l[w..x][0] == 'l';
    SpanSpacesUnique(l, b, w);
    LeitoCloseUnique(l, w, false, x);
  }

  /** A `leitos?)` after the bed count starts with a letter, so the count ends before it. */
  lemma CloseEndsDigits(l: string, b: nat, x: nat)
    requires b <= |l| && WordCloseAt(l, b, x)
    ensures b < |l| && !IsDigit(l[b])
  {
    var w: nat :| SpacesIn(l, b, w) && LeitoWord(l, w, x) && x < |l| && l[x] == ')';
    assert l[w] == l[w..x][0] == 'l';
  }

  /** `\s*-\s*` after the `)` at x: where the next non-space character is. */
  function DashFrom(l: string, x: nat): (r: Option<nat>)
    requires x < |l|
    ensures r.Some? ==> DashBetween(l, x, r.value) && (r.value == |l| || !IsSpace(l[r.value]))
  {
    var y := SpanSpaces(l, x + 1);
    if y == |l| || l[y] != '-' then None
    else Some(SpanSpaces(l, y + 1))
  }

  lemma DashFromUnique(l: string, x: nat, c: nat)
    requires x < |l| && DashBetween(l, x, c)
    requires c < |l| && !IsSpace(l[c])
    ensures DashFrom(l, x) == Some(c)
  {
    var y: nat :| SpacesIn(l, x + 1, y) && y < |l| && l[y] == '-' && SpacesIn(l, y + 1, c);
    SpanSpacesUnique(l, x + 1, y);
    SpanSpacesUnique(l, y + 1, c);
  }

  /** `(\d+[.,]\d+)%` at c: the end of the rate, where the `%` is. */
  function RateFrom(l: string, c: nat): (r: Option<nat>)
    requires c <= |l|
    ensures r.Some? ==> RateAt(l, c, r.value)
  {
    var q := SpanDigits(l, c);
    if q == c || q + 1 >= |l| || !(l[q] == '.' || l[q] == ',') || !IsDigit(l[q + 1]) then None
    else
      var d := SpanDigits(l, q + 1);
      if d == |l| || l[d] != '%' then None
      else
        assert SeparatedAt(l, c, q, d);
        Some(d)
  }

  lemma RateFromUnique(l: string, c: nat, d: nat)
    requires RateAt(l, c, d)
    ensures RateFrom(l, c) == Some(d)
  {
    var q: nat :| SeparatedAt(l, c, q, d) && (l[q] == '.' || l[q] == ',');
    SpanDigitsUnique(l, c, q);
    SpanDigitsUnique(l, q + 1, d);
  }

  /** The pattern after the label, tried from p. */
  function MatchTail(l: string, p: nat): (r: Option<Groups>)
    requires p <= |l|
    ensures r.Some? ==> r.value.labelEnd == p
    ensures r.Some? ==> TailMatch(l, p, r.value.bedsStart, r.value.bedsEnd, r.value.rateStart, r.value.rateEnd)
  {
    match BedsFrom(l, p)
    case None => None
    case Some((a, b)) =>
      match CloseFrom(l, b)
      case None => None
      case Some(x) =>
        match DashFrom(l, x)
        case None => None
        case Some(c) =>
          match RateFrom(l, c)
          case None => None
          case Some(d) => Some(Groups(p, a, b, c, d))
  }

  /** A match from p is the greedy one: every group position is determined by p. */
  lemma TailMatchUnique(l: string, p: nat, a: nat, b: nat, c: nat, d: nat)
    requires TailMatch(l, p, a, b, c, d)
    ensures MatchTail(l, p) == Some(Groups(p, a, b, c, d))
  {
    var x: nat :| WordCloseAt(l, b, x) && DashBetween(l, x, c);
    CloseEndsDigits(l, b, x);
    BedsFromUnique(l, p, a, b);
    CloseFromUnique(l, b, x);
    var q: nat :| SeparatedAt(l, c, q, d) && (l[q] == '.' || l[q] == ',');
    DashFromUnique(l, x, c);
    RateFromUnique(l, c, d);
  }

  /** When the greedy match from p fails, no match starts at p. */
  lemma NoTailWhenNone(l: string, p: nat)
    requires p <= |l| && MatchTail(l, p).None?
    ensures NoTailAt(l, p)
  {
    forall a: nat, b: nat, c: nat, d: nat | TailMatch(l, p, a, b, c, d) ensures false {
      TailMatchUnique(l, p, a, b, c, d);
    }
  }

  /** No tail starts at q when a non-space character comes before any `(`. */
  lemma NoTailBefore(l: string, q: nat, k: nat)
    requires q <= k < |l| && !IsSpace(l[k])
    requires forall j | q <= j <= k :: l[j] != '('
    ensures NoTailAt(l, q)
  {
  }

  /** No tail starts at or past the end of the line. */
  lemma NoTailPast(l: string, from: nat)
    requires |l| <= from
    ensures forall q: nat | from <= q :: NoTailAt(l, q)
  {
    forall q: nat, a: nat | from <= q ensures !OpenParenAt(l, q, a) {
    }
  }

  /** A run of positions without a tail extends one to the left. */
  lemma NoTailGrows(l: string, from: nat, end: nat)
    requires NoTailAt(l, from)
    requires forall q: nat | from + 1 <= q < end :: NoTailAt(l, q)
    ensures forall q: nat | from <= q < end :: NoTailAt(l, q)
  {
  }

  /** The lazy label scan: the first p at or after `from` where the rest matches. */
  function FindLabelEnd(l: string, from: nat): (r: Option<Groups>)
    requires 1 <= from
    ensures r.Some? ==> from <= r.value.labelEnd
    ensures r.Some? ==> TailMatch(l, r.value.labelEnd, r.value.bedsStart, r.value.bedsEnd, r.value.rateStart, r.value.rateEnd)
    ensures r.Some? ==> forall q: nat | from <= q < r.value.labelEnd :: NoTailAt(l, q)
    ensures r.None? ==> forall q: nat | from <= q :: NoTailAt(l, q)
    decreases |l| - from
  {
    if from >= |l| then
      NoTailPast(l, from);
      None
    else
      var t := MatchTail(l, from);
      if t.Some? then t
      else
        NoTailWhenNone(l, from);
        var r := FindLabelEnd(l, from + 1);
        assert r.Some? ==> forall q: nat | from <= q < r.value.labelEnd :: NoTailAt(l, q) by {
          if r.Some? {
            NoTailGrows(l, from, r.value.labelEnd);
          }
        }
        assert r.None? ==> forall q: nat | from <= q :: NoTailAt(l, q) by {
          if r.None? {
            NoTailGrows(l, from, |l|);
            NoTailPast(l, |l|);
          }
        }
        r
  }

  /** The recogniser for one line: what it finds is the match `re.match`
      finds. */
  function MatchLine(l: string): (r: Option<Groups>)
    ensures r.Some? ==> LineMatch(l, r.value.labelEnd, r.value.bedsStart, r.value.bedsEnd, r.value.rateStart, r.value.rateEnd)
  {
    FindLabelEnd(l, 1)
  }

  /** The recogniser finds nothing exactly when the line does not have the shape. */
  lemma MatchLineComplete(l: string)
    ensures MatchLine(l).Some? <==> Matches(l)
  {
    var r := MatchLine(l);
    if r.Some? {
      var g := r.value;
      assert LineMatch(l, g.labelEnd, g.bedsStart, g.bedsEnd, g.rateStart, g.rateEnd);
    } else {
      forall p: nat, a: nat, b: nat, c: nat, d: nat ensures !LineMatch(l, p, a, b, c, d) {
        if 1 <= p {
          assert NoTailAt(l, p);
        }
      }
    }
  }

  /** A line matches in one way only, and MatchLine reports it. */
  lemma LineMatchUnique(l: string, p: nat, a: nat, b: nat, c: nat, d: nat)
    requires LineMatch(l, p, a, b, c, d)
    ensures MatchLine(l) == Some(Groups(p, a, b, c, d))
  {
    MatchLineComplete(l);
    var g := MatchLine(l).value;
    assert g.labelEnd == p by {
      assert 1 <= g.labelEnd < p ==> NoTailAt(l, g.labelEnd);
      assert 1 <= p < g.labelEnd ==> NoTailAt(l, p);
    }
    TailMatchUnique(l, p, a, b, c, d);
    TailMatchUnique(l, p, g.bedsStart, g.bedsEnd, g.rateStart, g.rateEnd);
  }

  // ---------------------------------------------------------------------
  // One unit per line

  /** Python's `round(x)` on the product, ties to even. */
  function RoundHalfEven(x: real): (r: int)
    ensures r as real - 0.5 <= x <= r as real + 0.5
    ensures (x == r as real - 0.5 || x == r as real + 0.5) ==> r % 2 == 0
  {
    var f := x.Floor;
    var frac := x - f as real;
    if frac < 0.5 then f
    else if frac > 0.5 then f + 1
    else if f % 2 == 0 then f
    else f + 1
  }

  /** The exact number of beds the rate makes occupied, before rounding. */
  function ExactShare(totalBeds: nat, rate: real): real {
    totalBeds as real * rate / 100.0
  }

  /** One `units` entry of the simple format. */
  datatype SimpleUnit = SimpleUnit(
    name: string,
    totalBeds: nat,
    occupancyRate: real,
    occupiedBeds: int,
    availableBeds: int)

  /** The unit of a line whose match has the groups g: the label stripped
      and resolved through the alias table, the bed count, the rate with
      its comma read as a point, and the beds the rate makes occupied. */
  function UnitOf(line: string, g: Groups): (u: SimpleUnit)
    requires g.labelEnd <= |line| && DigitsIn(line, g.bedsStart, g.bedsEnd) && RateAt(line, g.rateStart, g.rateEnd)
    ensures u.occupiedBeds + u.availableBeds == u.totalBeds
    ensures -0.5 <= u.occupiedBeds as real - ExactShare(u.totalBeds, u.occupancyRate) <= 0.5
  {
    assert NumeralIn(line, g.rateStart, g.rateEnd);
    var total := DigitsValue(line, g.bedsStart, g.bedsEnd);
    var rate := NumeralValue(line, g.rateStart, g.rateEnd);
    var occupied := RoundHalfEven(ExactShare(total, rate));
    SimpleUnit(ResolveAlias(Strip(line[..g.labelEnd])), total, rate, occupied, total - occupied)
  }

  /** The unit one line yields, if it has the simple-format shape. */
  function UnitFromLine(line: string): (r: Option<SimpleUnit>)
    ensures r.Some? ==> r.value.occupiedBeds + r.value.availableBeds == r.value.totalBeds
  {
    match MatchLine(line)
    case None => None
    case Some(g) => Some(UnitOf(line, g))
  }

  /** A matching line's unit is built from the groups of its match: name,
      bed count and rate come from the line, and the occupied count is the
      rounded share of the beds, the available count the rest. */
  lemma UnitFromLineGroups(line: string, p: nat, a: nat, b: nat, c: nat, d: nat)
    requires LineMatch(line, p, a, b, c, d)
    ensures UnitFromLine(line).Some?
    ensures var u := UnitFromLine(line).value;
      && u.name == ResolveAlias(Strip(line[..p]))
      && u.totalBeds == DigitsValue(line, a, b)
      && u.occupancyRate == NumeralValue(line, c, d)
      && -0.5 <= u.occupiedBeds as real - ExactShare(u.totalBeds, u.occupancyRate) <= 0.5
      && u.availableBeds == u.totalBeds - u.occupiedBeds
  {
    LineMatchUnique(line, p, a, b, c, d);
  }

  /** A line gives a unit only if it has the pattern's literal characters:
      `(`, `)`, `-`, `%` and a decimal separator. */
  lemma UnitLineShape(line: string)
    requires UnitFromLine(line).Some?
    ensures '(' in line && ')' in line && '-' in line && '%' in line
    ensures '.' in line || ',' in line
  {
    var g := MatchLine(line).value;
    TailShape(line, g.labelEnd, g.bedsStart, g.bedsEnd, g.rateStart, g.rateEnd);
  }

  /** The literal characters of the pattern after the label. */
  lemma TailShape(l: string, p: nat, a: nat, b: nat, c: nat, d: nat)
    requires TailMatch(l, p, a, b, c, d)
    ensures '(' in l && ')' in l && '-' in l && '%' in l
    ensures '.' in l || ',' in l
  {
    assert '(' in l by {
      assert l[a - 1] == '(';
    }
    var x: nat :| WordCloseAt(l, b, x) && DashBetween(l, x, c);
    assert ')' in l by {
      assert l[x] == ')';
    }
    assert '-' in l by {
      var y: nat :| SpacesIn(l, x + 1, y) && y < |l| && l[y] == '-' && SpacesIn(l, y + 1, c);
      assert l[y] == '-';
    }
    assert '%' in l by {
      assert l[d] == '%';
    }
    assert '.' in l || ',' in l by {
      var q: nat :| SeparatedAt(l, c, q, d) && (l[q] == '.' || l[q] == ',');
      assert l[q] in l;
    }
  }

  /** `lines = [line.strip() for line in text.split('\n') if line.strip()]`. */
  function NonBlankLines(text: string): seq<string> {
    StrippedNonBlank(Split(text, '\n'))
  }

  /** The units of the lines that match, in order. */
  function SimpleUnits(lines: seq<string>): (units: seq<SimpleUnit>)
    ensures |units| <= |lines|
    ensures forall k | 0 <= k < |units| :: units[k].occupiedBeds + units[k].availableBeds == units[k].totalBeds
  {
    FilterMapKept(lines, UnitFromLine);
    FilterMap(lines, UnitFromLine)
  }

  /** The lines that have the simple-format shape, in order. */
  ghost function MatchingLines(lines: seq<string>): seq<string> {
    if |lines| == 0 then []
    else (if Matches(lines[0]) then [lines[0]] else []) + MatchingLines(lines[1..])
  }

  /** The lines that yield a unit are the lines that have the shape. */
  lemma {:induction false} KeptAreMatching(lines: seq<string>)
    ensures Kept(lines, UnitFromLine) == MatchingLines(lines)
  {
    if |lines| > 0 {
      MatchLineComplete(lines[0]);
      KeptAreMatching(lines[1..]);
    }
  }

  /** Exactly one unit per matching line, in input order. */
  lemma OneUnitPerMatchingLine(lines: seq<string>)
    ensures |SimpleUnits(lines)| == |MatchingLines(lines)|
    ensures forall k | 0 <= k < |MatchingLines(lines)| :: UnitFromLine(MatchingLines(lines)[k]) == Some(SimpleUnits(lines)[k])
  {
    KeptAreMatching(lines);
    FilterMapKept(lines, UnitFromLine);
  }

  /** A line without an opening parenthesis yields no unit. */
  lemma WithoutParenNoUnit(line: string)
    requires '(' !in line
    ensures UnitFromLine(line) == None
  {
    var r := MatchLine(line);
    assert r.Some? ==> OpenParenAt(line, r.value.labelEnd, r.value.bedsStart);
  }

  /** A text without an opening parenthesis, such as a list of
      `<unit> - <rate>%` lines, yields no unit at all. */
  lemma WithoutParenNoUnits(text: string)
    requires '(' !in text
    ensures SimpleUnits(NonBlankLines(text)) == []
  {
    var parts := Split(text, '\n');
    SplitPartsIn(text, '\n', '(');
    StrippedNonBlankKeeps(parts, '(');
    var lines := NonBlankLines(text);
    forall k | 0 <= k < |lines| ensures UnitFromLine(lines[k]).None? {
      WithoutParenNoUnit(lines[k]);
    }
    NoneKept(lines, UnitFromLine);
  }

  /** A line as the ward reports write it. */
  const ExampleText: string := "UTI 1 (17 leitos) - 94,11%"

  lemma ExampleClose()
    ensures WordCloseAt(ExampleText, 9, 16)
  {
    var l := ExampleText;
    assert l[10] == 'l' && l[11] == 'e' && l[12] == 'i' && l[13] == 't' && l[14] == 'o' && l[15] == 's';
    assert l[10..16] == "leitos";
    assert SpacesIn(l, 9, 10) && LeitoWord(l, 10, 16) && l[16] == ')';
  }

  lemma ExampleDash()
    ensures DashBetween(ExampleText, 16, 20)
  {
    var l := ExampleText;
    assert SpacesIn(l, 17, 18) && l[18] == '-' && SpacesIn(l, 19, 20);
  }

  lemma ExampleRate()
    ensures RateAt(ExampleText, 20, 25)
  {
    assert SeparatedAt(ExampleText, 20, 22, 25);
  }

  /** After the label `UTI 1` the rest of the line matches, with bed count
      `17` and rate `94,11`. */
  lemma ExampleTail()
    ensures TailMatch(ExampleText, 5, 7, 9, 20, 25)
  {
    assert OpenParenAt(ExampleText, 5, 7);
    assert DigitsIn(ExampleText, 7, 9);
    ExampleClose();
    ExampleDash();
    ExampleRate();
  }

  /** No shorter label works: `1` comes before the `(`. */
  lemma ExampleNoShorterLabel()
    ensures forall q: nat | 1 <= q < 5 :: NoTailAt(ExampleText, q)
  {
    var l := ExampleText;
    assert !IsSpace(l[4]);
    NoTailBefore(l, 1, 4);
    NoTailBefore(l, 2, 4);
    NoTailBefore(l, 3, 4);
    NoTailBefore(l, 4, 4);
  }

  lemma ExampleName()
    ensures ResolveAlias(Strip(ExampleText[..5])) == "UTI HUERB 1"
  {
    var s := ExampleText[..5];
    assert s == "UTI 1";
    assert s[0] == 'U' && s[4] == '1';
    StripTrimmed(s);
    LookupEntry(UnitMappings, 0);
  }

  lemma ExampleNumbers()
    ensures DigitsIn(ExampleText, 7, 9) && DigitsValue(ExampleText, 7, 9) == 17
    ensures NumeralIn(ExampleText, 20, 25) && NumeralValue(ExampleText, 20, 25) == 94.11
  {
    ExampleBeds();
    ExampleRateValue();
  }

  lemma ExampleBeds()
    ensures DigitsIn(ExampleText, 7, 9) && DigitsValue(ExampleText, 7, 9) == 17
  {
    var l := ExampleText;
    assert l[7] == '1' && l[8] == '7';
  }

  lemma ExampleRateValue()
    ensures NumeralIn(ExampleText, 20, 25) && NumeralValue(ExampleText, 20, 25) == 94.11
  {
    var l := ExampleText;
    assert SeparatedAt(l, 20, 22, 25);
    assert SpanDigits(l, 20) == 22;
    assert DigitsValue(l, 20, 22) == 94;
    assert DigitsValue(l, 23, 25) == 11;
  }

  /** The label `UTI 1` is resolved to `UTI HUERB 1`, and 94.11% of 17 beds
      is 15.9987, which rounds to 16 occupied beds and leaves 1 available. */
  lemma ExampleLine()
    ensures UnitFromLine(ExampleText) == Some(SimpleUnit("UTI HUERB 1", 17, 94.11, 16, 1))
  {
    ExampleTail();
    ExampleNoShorterLabel();
    ExampleName();
    ExampleNumbers();
    assert ExactShare(17, 94.11) == 15.9987;
    UnitFromLineValues(ExampleText, 5, 7, 9, 20, 25, "UTI HUERB 1", 17, 94.11, 16);
  }

  /** The unit of a matching line, given the values of its groups and an
      occupied count within less than half a bed of the exact share. */
  lemma UnitFromLineValues(line: string, p: nat, a: nat, b: nat, c: nat, d: nat,
                           name: string, total: nat, rate: real, occupied: int)
    requires LineMatch(line, p, a, b, c, d)
    requires ResolveAlias(Strip(line[..p])) == name
    requires DigitsValue(line, a, b) == total && NumeralValue(line, c, d) == rate
    requires -0.5 < occupied as real - ExactShare(total, rate) < 0.5
    ensures UnitFromLine(line) == Some(SimpleUnit(name, total, rate, occupied, total - occupied))
  {
    UnitFromLineGroups(line, p, a, b, c, d);
    var u := UnitFromLine(line).value;
    assert -1.0 < (u.occupiedBeds - occupied) as real < 1.0;
    assert u.occupiedBeds == occupied;
    assert u.name == name && u.totalBeds == total && u.occupancyRate == rate;
    assert u == SimpleUnit(name, total, rate, occupied, total - occupied);
  }

  // ---------------------------------------------------------------------
  // Summary

  /** Sum of `occupied_beds` over the units whose name is a `CLINICAL_UNITS` key. */
  function ClinicalOccupied(units: seq<SimpleUnit>): int {
    if |units| == 0 then 0
    else (if IsClinical(units[0].name) then units[0].occupiedBeds else 0) + ClinicalOccupied(units[1..])
  }

  /** Sum of `occupied_beds` over all other units. */
  function IcuOccupied(units: seq<SimpleUnit>): int {
    if |units| == 0 then 0
    else (if IsClinical(units[0].name) then 0 else units[0].occupiedBeds) + IcuOccupied(units[1..])
  }

  function TotalOccupied(units: seq<SimpleUnit>): int {
    if |units| == 0 then 0 else units[0].occupiedBeds + TotalOccupied(units[1..])
  }

  /** The two sums partition the occupied beds of all units. */
  lemma {:induction false} OccupiedPartition(units: seq<SimpleUnit>)
    ensures ClinicalOccupied(units) + IcuOccupied(units) == TotalOccupied(units)
  {
    if |units| > 0 {
      OccupiedPartition(units[1..]);
    }
  }

  /** The `stats` dict of `parse_simple_format`. */
  datatype Stats = Stats(clinicalBeds: int, icuBeds: int, occupiedClinical: int, occupiedIcu: int)

  /** The dict `_generate_summary` returns. */
  datatype Summary = Summary(
    clinicalBeds: int,
    occupiedClinical: int,
    availableClinical: int,
    icuBeds: int,
    occupiedIcu: int,
    availableIcu: int,
    totalBeds: int,
    totalOccupied: int,
    totalAvailable: int)

  /** `_generate_summary`: capacities and occupied counts carried over, and
      the available and total counts derived from them. */
  function GenerateSummary(stats: Stats): (s: Summary)
    ensures s.clinicalBeds == stats.clinicalBeds && s.icuBeds == stats.icuBeds
    ensures s.occupiedClinical == stats.occupiedClinical && s.occupiedIcu == stats.occupiedIcu
    ensures s.availableClinical + s.occupiedClinical == s.clinicalBeds
    ensures s.availableIcu + s.occupiedIcu == s.icuBeds
    ensures s.totalBeds == s.clinicalBeds + s.icuBeds
    ensures s.totalOccupied == s.occupiedClinical + s.occupiedIcu
    ensures s.totalAvailable == s.availableClinical + s.availableIcu
    ensures s.totalAvailable + s.totalOccupied == s.totalBeds
  {
    Summary(
      stats.clinicalBeds,
      stats.occupiedClinical,
      stats.clinicalBeds - stats.occupiedClinical,
      stats.icuBeds,
      stats.occupiedIcu,
      stats.icuBeds - stats.occupiedIcu,
      stats.clinicalBeds + stats.icuBeds,
      stats.occupiedClinical + stats.occupiedIcu,
      (stats.clinicalBeds + stats.icuBeds) - (stats.occupiedClinical + stats.occupiedIcu))
  }

  /** The loop of `parse_simple_format`: each matching line appends its unit
      and adds its occupied beds to the clinical or the intensive-care count. */
  function Accumulate(lines: seq<string>, units: seq<SimpleUnit>, stats: Stats): (r: (seq<SimpleUnit>, Stats))
    ensures r.0 == units + SimpleUnits(lines)
    ensures r.1.clinicalBeds == stats.clinicalBeds && r.1.icuBeds == stats.icuBeds
    ensures r.1.occupiedClinical == stats.occupiedClinical + ClinicalOccupied(SimpleUnits(lines))
    ensures r.1.occupiedIcu == stats.occupiedIcu + IcuOccupied(SimpleUnits(lines))
    decreases |lines|
  {
    if |lines| == 0 then (units, stats)
    else
      match UnitFromLine(lines[0])
      case None => Accumulate(lines[1..], units, stats)
      case Some(u) =>
        var stats' :=
          if IsClinical(u.name) then stats.(occupiedClinical := stats.occupiedClinical + u.occupiedBeds)
          else stats.(occupiedIcu := stats.occupiedIcu + u.occupiedBeds);
        var rest := SimpleUnits(lines[1..]);
        assert ([u] + rest)[1..] == rest;
        assert units + [u] + rest == units + ([u] + rest);
        Accumulate(lines[1..], units + [u], stats')
  }

  /** The dict `parse_simple_format` returns; `date` is the formatted
      current date, supplied by the caller. */
  datatype SimpleReport = SimpleReport(units: seq<SimpleUnit>, date: string, summary: Summary)

  /** `parse_simple_format`: the units of the matching lines, and a summary
      whose capacities are the fixed table totals whatever the input. */
  function ParseSimpleFormat(text: string, date: string): (r: SimpleReport)
    ensures r.units == SimpleUnits(NonBlankLines(text))
    ensures r.date == date
    ensures r.summary.clinicalBeds == 123 && r.summary.icuBeds == 84 && r.summary.totalBeds == 207
    ensures r.summary.occupiedClinical == ClinicalOccupied(r.units)
    ensures r.summary.occupiedIcu == IcuOccupied(r.units)
    ensures r.summary.totalOccupied == TotalOccupied(r.units)
    ensures r.summary.availableClinical == 123 - ClinicalOccupied(r.units)
    ensures r.summary.availableIcu == 84 - IcuOccupied(r.units)
    ensures r.summary.totalAvailable == 207 - TotalOccupied(r.units)
  {
    var acc := Accumulate(NonBlankLines(text), [], Stats(TotalClinicalBeds(), TotalIcuBeds(), 0, 0));
    OccupiedPartition(acc.0);
    assert [] + SimpleUnits(NonBlankLines(text)) == SimpleUnits(NonBlankLines(text));
    SimpleReport(acc.0, date, GenerateSummary(acc.1))
  }
}

=== FILE: structured_format.dfy ===
/** `extract_hospital_data` and its helpers in `utils.py`: the detailed
    report, where every section opened by the hospital sign is one hospital,
    its first line the hospital's name, and every later line holding the
    green circle opens a unit whose counts the following lines fill in. */
module StructuredFormat {
  import opened Text
  import opened Results
  import opened Extractors
  import opened Dicts
  import opened UnitTables
  import opened Blocks
  import opened Lists

  /** U+1F3E5, the hospital sign that opens a hospital section. */
  const HospitalSign: char := '\U{1F3E5}'

  /** U+1F7E2, the green circle that marks a unit header line. */
  const UnitSign: char := '\U{1F7E2}'

  /** One unit dict of the detailed format. */
  datatype Unit = Unit(
    name: string,
    totalBeds: nat,
    occupiedBeds: nat,
    availableBeds: nat,
    blockedBeds: nat,
    details: seq<string>)

  /** One hospital dict: its name and its units in order. */
  datatype Hospital = Hospital(name: string, units: seq<Unit>)

  // ---------------------------------------------------------------------
  // _create_new_unit

  /** Every capacity in the two tables is positive. */
  lemma TableCapacitiesPositive()
    ensures forall k | 0 <= k < |ClinicalUnits| :: ClinicalUnits[k].1 > 0
    ensures forall k | 0 <= k < |IcuUnits| :: IcuUnits[k].1 > 0
  {
  }

  /** The capacity the tables give a unit name: the clinical table first,
      then the intensive-care table, 0 when neither knows it. */
  function TableCapacity(name: string): (n: nat)
    ensures HasKey(ClinicalUnits, name) ==> Lookup(ClinicalUnits, name) == Some(n)
    ensures !HasKey(ClinicalUnits, name) && HasKey(IcuUnits, name) ==> Lookup(IcuUnits, name) == Some(n)
    ensures n == 0 <==> !HasKey(ClinicalUnits, name) && !HasKey(IcuUnits, name)
  {
    TableCapacitiesPositive();
    match Lookup(ClinicalUnits, name)
    case Some(n) => n
    case None => Lookup(IcuUnits, name).GetOr(0)
  }

  /** `_create_new_unit`: the header line, stripped of the green circle and
      cleaned, names the unit; the capacity is the `(N leitos)` count of the
      line, and only when that is 0 the table capacity of the name. All
      counts start at 0 and there are no details yet. */
  function CreateNewUnit(line: string): (u: Unit)
    ensures u.name == CleanText(RemoveChar(line, UnitSign))
    ensures UnitSign !in u.name
    ensures u.occupiedBeds == 0 && u.availableBeds == 0 && u.blockedBeds == 0 && u.details == []
    ensures ParseBeds(line).0 != 0 ==> u.totalBeds == ParseBeds(line).0
    ensures ParseBeds(line).0 == 0 ==> u.totalBeds == TableCapacity(u.name)
    ensures u.totalBeds == 0 <==>
      ParseBeds(line).0 == 0 && !HasKey(ClinicalUnits, u.name) && !HasKey(IcuUnits, u.name)
  {
    var name := CleanText(RemoveChar(line, UnitSign));
    assert UnitSign !in name by {
      CleanTextKeeps(RemoveChar(line, UnitSign), UnitSign);
    }
    var beds := ParseBeds(line).0;
    Unit(name, if beds == 0 then TableCapacity(name) else beds, 0, 0, 0, [])
  }

  /** `clean_text` only drops whitespace: a non-space character is in the
      result exactly when it is in the input. */
  lemma CleanTextKeeps(s: string, c: char)
    requires !IsSpace(c)
    ensures c in CleanText(s) ==> c in s
  {
    if c in CleanText(s) {
      WordsKeep(s, c);
      JoinKeeps(Words(s), c);
    }
  }

  lemma {:induction false} WordsKeep(s: string, c: char)
    requires !IsSpace(c)
    ensures (exists k | 0 <= k < |Words(s)| :: c in Words(s)[k]) ==> c in s
    decreases |s|
  {
    if |s| > 0 {
      if IsSpace(s[0]) {
        WordsKeep(s[1..], c);
        assert Words(s) == Words(s[1..]);
        if c in s[1..] {
          var i :| 0 <= i < |s| - 1 && s[1..][i] == c;
          assert s[i + 1] == c;
        }
      } else {
        var n := SpanWord(s, 0);
        assert Words(s) == [s[..n]] + Words(s[n..]);
        if n < |s| {
          WordsKeep(s[n..], c);
        }
        forall k | 0 <= k < |Words(s)| && c in Words(s)[k] ensures c in s {
          if k == 0 {
            var i :| 0 <= i < n && s[..n][i] == c;
            assert s[i] == c;
          } else {
            assert Words(s)[k] == Words(s[n..])[k - 1];
            assert c in s[n..];
            var i :| 0 <= i < |s| - n && s[n..][i] == c;
            assert s[n + i] == c;
          }
        }
      }
    }
  }

  lemma {:induction false} JoinKeeps(ws: seq<string>, c: char)
    requires c != ' '
    ensures c in Join(ws, " ") ==> exists k | 0 <= k < |ws| :: c in ws[k]
  {
    if |ws| > 1 && c in Join(ws, " ") {
      var rest := Join(ws[1..], " ");
      assert Join(ws, " ") == ws[0] + " " + rest;
      if c !in ws[0] {
        assert c in rest;
        JoinKeeps(ws[1..], c);
        var k :| 0 <= k < |ws| - 1 && c in ws[1..][k];
        assert c in ws[k + 1];
      }
    }
  }

  // ---------------------------------------------------------------------
  // _update_unit_stats

  /** s[i..j] is the first run of digits in s: what `re.search(r'(\d+)', s)` finds. */
  predicate FirstRun(s: string, i: nat, j: nat) {
    && DigitsIn(s, i, j)
    && (j == |s| || !IsDigit(s[j]))
    && forall k | 0 <= k < i :: !IsDigit(s[k])
  }

  /** s holds a digit somewhere. */
  predicate HasDigit(s: string) {
    exists k | 0 <= k < |s| :: IsDigit(s[k])
  }

  /** The first position at or after i that holds a digit, or |s|. */
  function NextDigit(s: string, i: nat): (r: nat)
    requires i <= |s|
    ensures i <= r <= |s|
    ensures forall k | i <= k < r :: !IsDigit(s[k])
    ensures r < |s| ==> IsDigit(s[r])
    decreases |s| - i
  {
    if i == |s| || IsDigit(s[i]) then i else NextDigit(s, i + 1)
  }

  /** `int(re.search(r'(\d+)', s).group(1))`, or None when s has no digit. */
  function FirstInt(s: string): (r: Option<nat>)
    ensures r.None? <==> !HasDigit(s)
    ensures forall i, j | FirstRun(s, i, j) :: r == Some(DigitsValue(s, i, j))
  {
    var i := NextDigit(s, 0);
    if i == |s| then None
    else
      var j := SpanDigits(s, i + 1);
      assert FirstRun(s, i, j);
      forall i', j' | FirstRun(s, i', j') ensures i' == i && j' == j {
        FirstRunUnique(s, i, j, i', j');
      }
      Some(DigitsValue(s, i, j))
  }

  lemma FirstRunUnique(s: string, i: nat, j: nat, i': nat, j': nat)
    requires FirstRun(s, i, j) && FirstRun(s, i', j')
    ensures i == i' && j == j'
  {
    assert IsDigit(s[i]) && IsDigit(s[i']);
    assert !(i < i') && !(i' < i);
    SpanDigitsUnique(s, i, j);
    SpanDigitsUnique(s, i, j');
  }

  /** Which count a detail line sets, chosen by keyword on the lower-cased
      line: `internados` or `ocupados` first, then `vaga`, then `bloqueado`. */
  datatype Count = Occupied | Available | Blocked

  function CountOf(line: string): (r: Option<Count>)
    ensures r == Some(Occupied) <==>
      Contains(AsciiLower(line), "internados") || Contains(AsciiLower(line), "ocupados")
    ensures r == Some(Available) ==> Contains(AsciiLower(line), "vaga")
    ensures r == Some(Blocked) ==> Contains(AsciiLower(line), "bloqueado") && !Contains(AsciiLower(line), "vaga")
    ensures r.None? <==>
      !Contains(AsciiLower(line), "internados") && !Contains(AsciiLower(line), "ocupados")
      && !Contains(AsciiLower(line), "vaga") && !Contains(AsciiLower(line), "bloqueado")
  {
    var lower := AsciiLower(line);
    if Contains(lower, "internados") || Contains(lower, "ocupados") then Some(Occupied)
    else if Contains(lower, "vaga") then Some(Available)
    else if Contains(lower, "bloqueado") then Some(Blocked)
    else None
  }

  /** `_update_unit_stats`: a line without a digit changes nothing; any
      other line sets the count its keyword names (if any) to its first
      number and is appended to the details. */
  function UpdateUnitStats(u: Unit, line: string): (r: Unit)
    ensures !HasDigit(line) ==> r == u
    ensures HasDigit(line) ==> r.details == u.details + [line]
    ensures r.name == u.name && r.totalBeds == u.totalBeds
    ensures r.occupiedBeds == if CountOf(line) == Some(Occupied) then FirstInt(line).GetOr(u.occupiedBeds) else u.occupiedBeds
    ensures r.availableBeds == if CountOf(line) == Some(Available) then FirstInt(line).GetOr(u.availableBeds) else u.availableBeds
    ensures r.blockedBeds == if CountOf(line) == Some(Blocked) then FirstInt(line).GetOr(u.blockedBeds) else u.blockedBeds
  {
    match FirstInt(line)
    case None => u
    case Some(v) =>
      var u' :=
        match CountOf(line)
        case Some(Occupied) => u.(occupiedBeds := v)
        case Some(Available) => u.(availableBeds := v)
        case Some(Blocked) => u.(blockedBeds := v)
        case None => u;
      u'.(details := u.details + [line])
  }

  /** The loop of `_parse_hospital_units`: a line holding the green circle
      opens a unit, every later line updates the open unit. */
  function UnitLoop(): Grouping<string, Unit> {
    Grouping(IsOpener, CreateNewUnit, UpdateUnitStats)
  }

  /** A unit header line. */
  predicate IsOpener(line: string) {
    UnitSign in line
  }

  /** The detail lines applied in order to a freshly opened unit. */
  function ApplyAll(u: Unit, lines: seq<string>): Unit {
    Fold(UnitLoop(), u, lines)
  }

  /** The lines that hold a digit, in order. */
  function DigitLines(lines: seq<string>): (r: seq<string>)
    ensures |r| <= |lines|
  {
    if |lines| == 0 then []
    else (if HasDigit(lines[0]) then [lines[0]] else []) + DigitLines(lines[1..])
  }

  /** The number the last line naming `count` sets, or `prior` when no line does. */
  function LastSet(lines: seq<string>, count: Count, prior: nat): nat
    decreases |lines|
  {
    if |lines| == 0 then prior
    else
      var here := if CountOf(lines[0]) == Some(count) then FirstInt(lines[0]).GetOr(prior) else prior;
      LastSet(lines[1..], count, here)
  }

  /** After the detail lines: the name and capacity are the header's, the
      details are exactly the lines with a digit, and each count is the one
      the last line naming it sets (the later line wins). */
  lemma {:induction false} ApplyAllEffect(u: Unit, lines: seq<string>)
    ensures ApplyAll(u, lines).name == u.name && ApplyAll(u, lines).totalBeds == u.totalBeds
    ensures ApplyAll(u, lines).details == u.details + DigitLines(lines)
    ensures ApplyAll(u, lines).occupiedBeds == LastSet(lines, Occupied, u.occupiedBeds)
    ensures ApplyAll(u, lines).availableBeds == LastSet(lines, Available, u.availableBeds)
    ensures ApplyAll(u, lines).blockedBeds == LastSet(lines, Blocked, u.blockedBeds)
    decreases |lines|
  {
    if |lines| > 0 {
      assert ApplyAll(u, lines) == ApplyAll(UpdateUnitStats(u, lines[0]), lines[1..]);
      ApplyAllEffect(UpdateUnitStats(u, lines[0]), lines[1..]);
    }
  }

  // ---------------------------------------------------------------------
  // _parse_hospital_units

  /** `_parse_hospital_units(lines)`: the loop over the stripped non-blank
      lines, with no unit open at the start. */
  function ParseHospitalUnits(lines: seq<string>): seq<Unit> {
    Scan(UnitLoop(), StrippedNonBlank(lines), None, [])
  }

  /** The loop's units, read block by block: lines before the first header
      are dropped, and the k-th unit is the k-th header's unit with the lines
      up to the next header applied to it. No body line is a header. */
  lemma UnitsFollowHeaders(lines: seq<string>)
    ensures var g := UnitLoop();
      var ls := FromFirstHeader(g, StrippedNonBlank(lines));
      var hs := Headers(g, ls);
      var bs := Bodies(g, ls);
      var units := ParseHospitalUnits(lines);
      && hs == Headers(g, StrippedNonBlank(lines))
      && |units| == |hs| == |bs|
      && (forall k, j | 0 <= k < |bs| && 0 <= j < |bs[k]| :: UnitSign !in bs[k][j])
      && forall k | 0 <= k < |hs| :: units[k] == ApplyAll(CreateNewUnit(hs[k]), bs[k])
  {
    var g := UnitLoop();
    var xs := StrippedNonBlank(lines);
    var ls := FromFirstHeader(g, xs);
    ScanIsBlocks(g, xs);
    HeadersFromFirst(g, xs);
    BlocksFollowHeaders(g, ls);
    BodiesHaveNoHeader(g, ls);
    var hs := Headers(g, ls);
    var bs := Bodies(g, ls);
    var units := ParseHospitalUnits(lines);
    assert units == Blocks.Blocks(g, ls);
    forall k, j | 0 <= k < |bs| && 0 <= j < |bs[k]| ensures UnitSign !in bs[k][j] {
      assert !g.isHeader(bs[k][j]);
    }
    forall k | 0 <= k < |hs| ensures units[k] == ApplyAll(CreateNewUnit(hs[k]), bs[k]) {
      assert units[k] == Fold(g, g.open(hs[k]), bs[k]);
    }
  }

  /** `_parse_hospital_units` yields one unit per header line, in order: the
      k-th unit is named after the k-th header and keeps its capacity, its
      details are the lines with a digit up to the next header, and each
      count is the one the last of those lines naming it sets. */
  lemma OneUnitPerHeader(lines: seq<string>)
    ensures var g := UnitLoop();
      var ls := FromFirstHeader(g, StrippedNonBlank(lines));
      var hs := Headers(g, ls);
      var bs := Bodies(g, ls);
      var units := ParseHospitalUnits(lines);
      && |units| == |hs| == |bs|
      && forall k | 0 <= k < |hs| ::
        && units[k].name == CleanText(RemoveChar(hs[k], UnitSign))
        && units[k].totalBeds == CreateNewUnit(hs[k]).totalBeds
        && units[k].details == DigitLines(bs[k])
        && units[k].occupiedBeds == LastSet(bs[k], Occupied, 0)
        && units[k].availableBeds == LastSet(bs[k], Available, 0)
        && units[k].blockedBeds == LastSet(bs[k], Blocked, 0)
  {
    var g := UnitLoop();
    var ls := FromFirstHeader(g, StrippedNonBlank(lines));
    var hs := Headers(g, ls);
    var bs := Bodies(g, ls);
    UnitsFollowHeaders(lines);
    forall k | 0 <= k < |hs| {
      UnitOfBlock(hs[k], bs[k]);
    }
  }

  /** The unit a header opens, with its body applied. */
  lemma UnitOfBlock(header: string, body: seq<string>)
    ensures var u := ApplyAll(CreateNewUnit(header), body);
      && u.name == CleanText(RemoveChar(header, UnitSign))
      && u.totalBeds == CreateNewUnit(header).totalBeds
      && u.details == DigitLines(body)
      && u.occupiedBeds == LastSet(body, Occupied, 0)
      && u.availableBeds == LastSet(body, Available, 0)
      && u.blockedBeds == LastSet(body, Blocked, 0)
  {
    ApplyAllEffect(CreateNewUnit(header), body);
  }

  // ---------------------------------------------------------------------
  // extract_hospital_data

  /** `[s.strip() for s in text.split('🏥') if s.strip()]`: the k-th section
      is the stripped form of the k-th piece between hospital signs that is
      not blank, and none is lost. */
  function Sections(text: string): (r: seq<string>)
    ensures var pieces := Kept(Split(text, HospitalSign), NonBlankStrip);
      |r| == |pieces| && forall k | 0 <= k < |r| :: r[k] == Strip(pieces[k])
    ensures forall k | 0 <= k < |r| :: r[k] != [] && HospitalSign !in r[k]
  {
    var parts := Split(text, HospitalSign);
    var r := StrippedNonBlank(parts);
    StrippedNonBlankKept(parts);
    assert forall k | 0 <= k < |r| :: HospitalSign !in r[k] by {
      StrippedNonBlankKeeps(parts, HospitalSign);
    }
    r
  }

  /** One hospital per section: the cleaned first line names it and the
      remaining lines hold its units. */
  function SectionHospital(section: string): (h: Hospital)
    requires section != [] && !IsSpace(section[0])
    ensures var lines := Split(section, '\n');
      h.name == CleanText(lines[0]) && h.units == ParseHospitalUnits(lines[1..])
    ensures h.name != [] && Normalized(h.name)
    ensures HospitalSign !in section ==> HospitalSign !in h.name
  {
    var lines := Split(section, '\n');
    var name := CleanText(lines[0]);
    assert Words(lines[0]) != [] by {
      FirstLineHasWord(section);
    }
    assert HospitalSign !in section ==> HospitalSign !in name by {
      CleanTextKeeps(lines[0], HospitalSign);
      if HospitalSign in lines[0] {
        SplitPartIn(section, '\n', HospitalSign);
      }
    }
    Hospital(name, ParseHospitalUnits(lines[1..]))
  }

  /** The first piece of a split starts where the text does. */
  lemma FirstLineHasWord(s: string)
    requires s != [] && !IsSpace(s[0])
    ensures Words(Split(s, '\n')[0]) != []
  {
    var i := IndexOf(s, '\n');
    assert s[0] != '\n';
    assert Split(s, '\n')[0] == s[..i];
    assert s[..i][0] == s[0];
  }

  /** A piece of a split only holds characters of the text. */
  lemma SplitPartIn(s: string, sep: char, c: char)
    requires c in Split(s, sep)[0]
    ensures c in s
  {
    var i := IndexOf(s, sep);
    assert Split(s, sep)[0] == s[..i];
  }

  /** `extract_hospital_data`: one hospital per non-blank section of the
      text, the text before the first hospital sign included. */
  function ExtractHospitalData(text: string): (hs: seq<Hospital>)
    ensures |hs| == |Sections(text)|
    ensures forall k | 0 <= k < |hs| :: hs[k] == SectionHospital(Sections(text)[k])
    ensures forall k | 0 <= k < |hs| :: hs[k].name != [] && HospitalSign !in hs[k].name
  {
    var ss := Sections(text);
    seq(|ss|, k requires 0 <= k < |ss| => SectionHospital(ss[k]))
  }

  /** Read from the text itself: the k-th hospital comes from the k-th
      non-blank piece between hospital signs, stripped; its first line,
      cleaned, names it and the lines after it hold its units. */
  lemma HospitalsFromPieces(text: string)
    ensures var pieces := Kept(Split(text, HospitalSign), NonBlankStrip);
      var hs := ExtractHospitalData(text);
      && |hs| == |pieces|
      && forall k | 0 <= k < |hs| ::
        var lines := Split(Strip(pieces[k]), '\n');
        hs[k].name == CleanText(lines[0]) && hs[k].units == ParseHospitalUnits(lines[1..])
  {
    var ss := Sections(text);
    var hs := ExtractHospitalData(text);
    forall k | 0 <= k < |hs| ensures hs[k] == SectionHospital(ss[k]) {
    }
  }

  /** A hospital's units follow the unit headers of its section: one unit
      per 🟢 line after the name line, in order, named after that line and
      with that line's capacity. */
  lemma HospitalUnitsFollowHeaders(text: string, k: nat)
    requires k < |ExtractHospitalData(text)|
    ensures var lines := Split(Sections(text)[k], '\n')[1..];
      var hs := Headers(UnitLoop(), StrippedNonBlank(lines));
      var units := ExtractHospitalData(text)[k].units;
      && |units| == |hs|
      && forall j | 0 <= j < |hs| ::
        units[j].name == CleanText(RemoveChar(hs[j], UnitSign))
        && units[j].totalBeds == CreateNewUnit(hs[j]).totalBeds
  {
    var lines := Split(Sections(text)[k], '\n')[1..];
    assert ExtractHospitalData(text)[k].units == ParseHospitalUnits(lines);
    UnitsFollowHeaders(lines);
    OneUnitPerHeader(lines);
  }
}

=== FILE: template_manager.dfy ===
/** The registry of PDF report templates: a dict from names to templates
    and the name of the current one. Templates are opaque values of type T;
    their docstrings are given as a function from templates to an optional
    text. */
module TemplateManager {
  import opened Results
  import opened Dicts

  const DefaultName: string := "default"
  const NoDescription: string := "No description available"

  datatype Manager<T> = Manager(templates: seq<(string, T)>, current: string)

  /** What every manager the constructor and the operations produce
      satisfies: a dict, holding `default` and the current name. */
  predicate Valid<T>(m: Manager<T>) {
    && DistinctKeys(m.templates)
    && HasKey(m.templates, DefaultName)
    && HasKey(m.templates, m.current)
  }

  /** `TemplateManager()`, with `builtin` the DefaultTemplate instance. */
  function Init<T>(builtin: T): (m: Manager<T>)
    ensures Valid(m)
    ensures Keys(m.templates) == [DefaultName]
    ensures Lookup(m.templates, DefaultName) == Some(builtin)
    ensures m.current == DefaultName
  {
    var m := Manager([(DefaultName, builtin)], DefaultName);
    assert m.templates[0].0 == DefaultName;
    m
  }

  /** `register_template(name, template)`: `templates[name] = template`. */
  function Register<T>(m: Manager<T>, name: string, template: T): (r: Manager<T>)
    ensures Valid(m) ==> Valid(r)
    ensures r.current == m.current
    ensures Lookup(r.templates, name) == Some(template)
  {
    var r := m.(templates := Assign(m.templates, name, template));
    if Valid(m) then
      AssignLookup(m.templates, name, template, name);
      assert HasKey(r.templates, DefaultName) && HasKey(r.templates, r.current) by {
        var i :| 0 <= i < |m.templates| && m.templates[i].0 == DefaultName;
        var j :| 0 <= j < |m.templates| && m.templates[j].0 == m.current;
        assert r.templates[i].0 == DefaultName && r.templates[j].0 == m.current;
      }
      r
    else r
  }

  /** `name or self.current_template`: a missing or empty name means the
      current template. */
  function Resolve<T>(m: Manager<T>, name: Option<string>): (n: string)
    ensures name.Some? && name.value != "" ==> n == name.value
    ensures name.None? || name.value == "" ==> n == m.current
  {
    match name
    case Some(s) => if s == "" then m.current else s
    case None => m.current
  }

  /** `get_template(name)`: the template registered under the resolved
      name, else the one under `default`. The fallback `templates['default']`
      is evaluated before the lookup, so a registry without `default`
      raises KeyError (None) whatever the name. */
  function GetTemplate<T>(m: Manager<T>, name: Option<string>): (r: Option<T>)
    ensures r.None? <==> !HasKey(m.templates, DefaultName)
    ensures r.Some? && HasKey(m.templates, Resolve(m, name)) ==>
      exists k | 0 <= k < |m.templates| :: m.templates[k] == (Resolve(m, name), r.value)
    ensures r.Some? && !HasKey(m.templates, Resolve(m, name)) ==>
      exists k | 0 <= k < |m.templates| :: m.templates[k] == (DefaultName, r.value)
  {
    match Lookup(m.templates, DefaultName)
    case None => None
    case Some(fallback) => Some(Lookup(m.templates, Resolve(m, name)).GetOr(fallback))
  }

  /** `set_default_template(name)`: switches to a registered name and
      answers whether it did. */
  function SetDefault<T>(m: Manager<T>, name: string): (r: (bool, Manager<T>))
    ensures r.0 <==> HasKey(m.templates, name)
    ensures r.1.templates == m.templates
    ensures r.0 ==> r.1.current == name
    ensures !r.0 ==> r.1 == m
    ensures Valid(m) ==> Valid(r.1)
  {
    if HasKey(m.templates, name) then (true, m.(current := name)) else (false, m)
  }

  /** `template.__doc__ or "No description available"`. */
  function Describe(doc: Option<string>): (d: string)
    ensures d != ""
    ensures doc.Some? && doc.value != "" ==> d == doc.value
  {
    match doc
    case Some(s) => if s == "" then NoDescription else s
    case None => NoDescription
  }

  /** `list_templates()`: every registered name, in order, with the
      description of its template. */
  function ListTemplates<T>(m: Manager<T>, doc: T -> Option<string>): (r: seq<(string, string)>)
    ensures Keys(r) == Keys(m.templates)
    ensures forall k | 0 <= k < |r| :: r[k].1 == Describe(doc(m.templates[k].1))
  {
    seq(|m.templates|, k requires 0 <= k < |m.templates| => (m.templates[k].0, Describe(doc(m.templates[k].1))))
  }

  // ---------------------------------------------------------------------
  // Properties

  /** The listing names exactly the registered templates, each once, and
      describes every one of them with a non-empty text. */
  lemma ListingMatchesRegistry<T>(m: Manager<T>, doc: T -> Option<string>, name: string)
    requires Valid(m)
    ensures DistinctKeys(ListTemplates(m, doc))
    ensures HasKey(ListTemplates(m, doc), name) <==> HasKey(m.templates, name)
    ensures HasKey(ListTemplates(m, doc), name) ==> Lookup(ListTemplates(m, doc), name).value != ""
  {
    var r := ListTemplates(m, doc);
    assert forall k | 0 <= k < |r| :: r[k].0 == Keys(r)[k] == m.templates[k].0;
    if HasKey(r, name) {
      var k :| 0 <= k < |r| && r[k] == (name, Lookup(r, name).value);
      assert r[k].1 == Describe(doc(m.templates[k].1));
    }
  }

  /** Registering touches only the registered name. */
  lemma RegisterKeepsOthers<T>(m: Manager<T>, name: string, template: T, other: string)
    requires Valid(m) && other != name
    ensures Lookup(Register(m, name, template).templates, other) == Lookup(m.templates, other)
  {
    AssignLookup(m.templates, name, template, other);
  }

  /** A template registered under a non-empty name is what `get_template`
      returns for that name. */
  lemma GetAfterRegister<T>(m: Manager<T>, name: string, template: T)
    requires Valid(m) && name != ""
    ensures GetTemplate(Register(m, name, template), Some(name)) == Some(template)
  {
    var r := Register(m, name, template);
    assert Resolve(r, Some(name)) == name;
  }

  /** A template registered under the empty name is never returned for it:
      the empty name is falsy and means the current template. */
  lemma EmptyNameMeansCurrent<T>(m: Manager<T>, template: T)
    requires Valid(m) && m.current != ""
    ensures GetTemplate(Register(m, "", template), Some("")) == Lookup(m.templates, m.current)
  {
    RegisterKeepsOthers(m, "", template, m.current);
  }

  /** Without a name, `get_template` returns the current template, which
      is always registered. */
  lemma GetCurrent<T>(m: Manager<T>)
    requires Valid(m)
    ensures GetTemplate(m, None).Some?
    ensures GetTemplate(m, None) == Lookup(m.templates, m.current)
  {
  }

  /** An unregistered name falls back to `default`. */
  lemma GetUnknown<T>(m: Manager<T>, name: string)
    requires Valid(m) && name != "" && !HasKey(m.templates, name)
    ensures GetTemplate(m, Some(name)) == Lookup(m.templates, DefaultName)
  {
  }

  /** After switching, `get_template()` returns the template of the new
      current name. */
  lemma GetAfterSetDefault<T>(m: Manager<T>, name: string)
    requires Valid(m) && HasKey(m.templates, name)
    ensures GetTemplate(SetDefault(m, name).1, None) == Lookup(m.templates, name)
  {
  }

  /** The operations a caller can apply to a manager. */
  datatype Op<T> = RegisterOp(name: string, template: T) | SetDefaultOp(name: string)

  function Apply<T>(m: Manager<T>, op: Op<T>): Manager<T> {
    match op
    case RegisterOp(name, template) => Register(m, name, template)
    case SetDefaultOp(name) => SetDefault(m, name).1
  }

  function Run<T>(m: Manager<T>, ops: seq<Op<T>>): Manager<T>
    decreases |ops|
  {
    if |ops| == 0 then m else Run(Apply(m, ops[0]), ops[1..])
  }

  /** Every sequence of operations keeps the manager valid, so `default`
      and the current name stay registered. */
  lemma {:induction false} RunKeepsValid<T>(m: Manager<T>, ops: seq<Op<T>>)
    requires Valid(m)
    ensures Valid(Run(m, ops))
    decreases |ops|
  {
    if |ops| > 0 {
      RunKeepsValid(Apply(m, ops[0]), ops[1..]);
    }
  }

  /** Whatever was done since construction, `get_template` never raises. */
  lemma GetNeverFails<T>(builtin: T, ops: seq<Op<T>>, name: Option<string>)
    ensures GetTemplate(Run(Init(builtin), ops), name).Some?
  {
    RunKeepsValid(Init(builtin), ops);
  }
}

=== FILE: text.dfy ===
/** The parts of Python's `str` that the occupancy parser relies on:
    whitespace and digit classes, `strip`, `split(sep)`, `split()`,
    `' '.join`, `replace`, `lower`, substring tests and `split(marker)[-1]`.
    A string is a sequence of Unicode scalar values, as a Python `str` is a
    sequence of code points. */
module Text {
  import opened Results
  import opened Lists

  /** Python's `str.isspace`: the characters that `strip()`, `split()` and
      the regular-expression class `\s` treat as whitespace. */
  predicate IsSpace(c: char) {
    || ('\t' <= c <= '\r')
    || ('\U{1C}' <= c <= '\U{1F}')
    || c == ' '
    || c == '\U{85}'
    || c == '\U{A0}'
    || c == '\U{1680}'
    || ('\U{2000}' <= c <= '\U{200A}')
    || c == '\U{2028}'
    || c == '\U{2029}'
    || c == '\U{202F}'
    || c == '\U{205F}'
    || c == '\U{3000}'
  }

  /** An ASCII decimal digit (the model's reading of `\d` and of `int()`). */
  predicate IsDigit(c: char) {
    '0' <= c <= '9'
  }

  function DigitValue(c: char): (d: nat)
    requires IsDigit(c)
    ensures d < 10
  {
    c as int - '0' as int
  }

  /** s[i..j] holds whitespace only; it may be empty. */
  predicate SpacesIn(s: string, i: nat, j: nat) {
    i <= j <= |s| && forall k | i <= k < j :: IsSpace(s[k])
  }

  /** s[i..j] is a non-empty run of digits. */
  predicate DigitsIn(s: string, i: nat, j: nat) {
    i < j <= |s| && forall k | i <= k < j :: IsDigit(s[k])
  }

  /** A non-empty string without whitespace: one token of `str.split()`. */
  predicate IsWord(w: string) {
    w != [] && forall k | 0 <= k < |w| :: !IsSpace(w[k])
  }

  /** The end of the longest run of whitespace starting at i (`\s*`). */
  function SpanSpaces(s: string, i: nat): (j: nat)
    requires i <= |s|
    ensures SpacesIn(s, i, j)
    ensures j == |s| || !IsSpace(s[j])
    decreases |s| - i
  {
    if i < |s| && IsSpace(s[i]) then SpanSpaces(s, i + 1) else i
  }

  /** A run of whitespace followed by a non-space is the greedy `\s*` run. */
  lemma SpanSpacesUnique(s: string, i: nat, j: nat)
    requires SpacesIn(s, i, j)
    requires j == |s| || !IsSpace(s[j])
    ensures SpanSpaces(s, i) == j
  {
  }

  /** The end of the longest run of digits starting at i (`\d+` when non-empty). */
  function SpanDigits(s: string, i: nat): (j: nat)
    requires i <= |s|
    ensures i <= j <= |s|
    ensures forall k | i <= k < j :: IsDigit(s[k])
    ensures j == |s| || !IsDigit(s[j])
    decreases |s| - i
  {
    if i < |s| && IsDigit(s[i]) then SpanDigits(s, i + 1) else i
  }

  /** A run of digits followed by a non-digit is the greedy `\d+` run. */
  lemma SpanDigitsUnique(s: string, i: nat, j: nat)
    requires DigitsIn(s, i, j)
    requires j == |s| || !IsDigit(s[j])
    ensures SpanDigits(s, i) == j
  {
  }

  /** The end of the longest run of non-whitespace starting at i. */
  function SpanWord(s: string, i: nat): (j: nat)
    requires i <= |s|
    ensures i <= j <= |s|
    ensures forall k | i <= k < j :: !IsSpace(s[k])
    ensures j == |s| || IsSpace(s[j])
    decreases |s| - i
  {
    if i < |s| && !IsSpace(s[i]) then SpanWord(s, i + 1) else i
  }

  function Pow10(n: nat): (p: nat)
    ensures p >= 1
  {
    if n == 0 then 1 else 10 * Pow10(n - 1)
  }

  /** The number `whole.frac` where the fraction `frac` is written with
      `places` digits after the decimal point. */
  function PointValue(whole: nat, frac: nat, places: nat): (v: real)
    ensures whole as real <= v
  {
    whole as real + frac as real / Pow10(places) as real
  }

  /** The number written in decimal by the digits s[i..j], as `int()` reads it. */
  function DigitsValue(s: string, i: nat, j: nat): (v: nat)
    requires i <= j <= |s|
    requires forall k | i <= k < j :: IsDigit(s[k])
    ensures v < Pow10(j - i)
    decreases j - i
  {
    if i == j then 0 else 10 * DigitsValue(s, i, j - 1) + DigitValue(s[j - 1])
  }

  // ---------------------------------------------------------------------
  // strip()

  /** The start of the whitespace suffix of s[lo..j]. */
  function TrimEnd(s: string, lo: nat, j: nat): (e: nat)
    requires lo <= j <= |s|
    ensures lo <= e <= j
    ensures SpacesIn(s, e, j)
    ensures e == lo || !IsSpace(s[e - 1])
    decreases j
  {
    if j > lo && IsSpace(s[j - 1]) then TrimEnd(s, lo, j - 1) else j
  }

  /** Python's `s.strip()`: s without its leading and trailing whitespace. */
  function Strip(s: string): (r: string)
    ensures exists a, b :: 0 <= a <= b <= |s| && r == s[a..b] && SpacesIn(s, 0, a) && SpacesIn(s, b, |s|)
    ensures r == [] || (!IsSpace(r[0]) && !IsSpace(r[|r| - 1]))
    ensures r == [] <==> SpacesIn(s, 0, |s|)
  {
    var a := SpanSpaces(s, 0);
    var b := TrimEnd(s, a, |s|);
    assert a < |s| ==> a < b;
    s[a..b]
  }

  /** Stripping keeps every character that is not whitespace. */
  lemma StripKeeps(s: string, c: char)
    requires !IsSpace(c)
    ensures c in Strip(s) <==> c in s
  {
    var r := Strip(s);
    var a, b :| 0 <= a <= b <= |s| && r == s[a..b] && SpacesIn(s, 0, a) && SpacesIn(s, b, |s|);
    TrimmedKeeps(s, a, b, c);
  }

  /** Cutting whitespace off both ends keeps every other character. */
  lemma TrimmedKeeps(s: string, a: nat, b: nat, c: char)
    requires a <= b <= |s| && SpacesIn(s, 0, a) && SpacesIn(s, b, |s|)
    requires !IsSpace(c)
    ensures c in s[a..b] <==> c in s
  {
    var r := s[a..b];
    if c in s {
      var k :| 0 <= k < |s| && s[k] == c;
      assert a <= k < b;
      assert r[k - a] == c;
    }
    if c in r {
      var j :| 0 <= j < |r| && r[j] == c;
      assert s[a + j] == c;
    }
  }

  /** A text with no space at either end is its own strip. */
  lemma StripTrimmed(s: string)
    requires s != [] && !IsSpace(s[0]) && !IsSpace(s[|s| - 1])
    ensures Strip(s) == s
  {
    assert [] + s + [] == s;
    StripPadded([], s, []);
  }

  /** Whitespace around a text that neither starts nor ends with whitespace
      is exactly what strip() removes. */
  lemma StripPadded(pre: string, s: string, post: string)
    requires SpacesIn(pre, 0, |pre|) && SpacesIn(post, 0, |post|)
    requires s != [] && !IsSpace(s[0]) && !IsSpace(s[|s| - 1])
    ensures Strip(pre + s + post) == s
  {
    var t := pre + s + post;
    var r := Strip(t);
    var a, b :| 0 <= a <= b <= |t| && r == t[a..b] && SpacesIn(t, 0, a) && SpacesIn(t, b, |t|);
    TrimmedPadded(pre, s, post, t, a, b, r);
  }

  /** The only whitespace ends of `pre + s + post` are pre and post. */
  lemma TrimmedPadded(pre: string, s: string, post: string, t: string, a: nat, b: nat, r: string)
    requires SpacesIn(pre, 0, |pre|) && SpacesIn(post, 0, |post|)
    requires s != [] && !IsSpace(s[0]) && !IsSpace(s[|s| - 1])
    requires t == pre + s + post
    requires a <= b <= |t| && SpacesIn(t, 0, a) && SpacesIn(t, b, |t|)
    requires r == t[a..b] && (r == [] || (!IsSpace(r[0]) && !IsSpace(r[|r| - 1])))
    ensures r == s
  {
    assert t[|pre|] == s[0];
    assert t[|pre| + |s| - 1] == s[|s| - 1];
    assert a <= |pre| && |pre| + |s| <= b;
    assert a == |pre| && b == |pre| + |s|;
  }

  // ---------------------------------------------------------------------
  // split(sep) and join

  /** The first index of c in s, or |s| when c does not occur. */
  function IndexOf(s: string, c: char): (i: nat)
    ensures i <= |s|
    ensures c !in s[..i]
    ensures i < |s| ==> s[i] == c
  {
    if |s| == 0 then 0
    else if s[0] == c then 0
    else
      var i := 1 + IndexOf(s[1..], c);
      assert s[..i] == [s[0]] + s[1..][..i - 1];
      i
  }

  /** The first position holding c is the one IndexOf finds. */
  lemma {:induction false} IndexOfFirst(s: string, c: char, j: nat)
    requires j < |s| && s[j] == c
    requires forall k | 0 <= k < j :: s[k] != c
    ensures IndexOf(s, c) == j
  {
    if j > 0 {
      IndexOfFirst(s[1..], c, j - 1);
    }
  }

  /** `sep.join(parts)`. */
  function Join(parts: seq<string>, sep: string): string
  {
    if |parts| == 0 then ""
    else if |parts| == 1 then parts[0]
    else parts[0] + sep + Join(parts[1..], sep)
  }

  /** Python's `s.split(sep)` for a one-character separator: the pieces
      between separators, empty pieces included. */
  function Split(s: string, sep: char): (parts: seq<string>)
    ensures |parts| >= 1
    ensures forall k | 0 <= k < |parts| :: sep !in parts[k]
    ensures Join(parts, [sep]) == s
    decreases |s|
  {
    var i := IndexOf(s, sep);
    if i == |s| then
      assert s[..i] == s;
      [s]
    else
      var rest := Split(s[i + 1..], sep);
      var parts := [s[..i]] + rest;
      assert parts[1..] == rest;
      assert s == s[..i] + [sep] + s[i + 1..];
      parts
  }

  /** Splitting what was joined gives the pieces back. */
  lemma {:induction false} SplitJoin(parts: seq<string>, sep: char)
    requires |parts| >= 1
    requires forall k | 0 <= k < |parts| :: sep !in parts[k]
    ensures Split(Join(parts, [sep]), sep) == parts
    decreases |parts|
  {
    var s := Join(parts, [sep]);
    var p := parts[0];
    if |parts| == 1 {
      assert forall k | 0 <= k < |s| :: s[k] != sep by {
        assert s == p;
      }
      assert s[..|s|] == s;
    } else {
      var rest := Join(parts[1..], [sep]);
      assert s == p + [sep] + rest;
      assert forall k | 0 <= k < |p| :: s[k] == p[k] && s[k] != sep;
      assert s[|p|] == sep;
      IndexOfFirst(s, sep, |p|);
      assert s[..|p|] == p;
      assert s[|p| + 1..] == rest;
      SplitJoin(parts[1..], sep);
    }
  }

  /** How many times c occurs in s. */
  function Occurrences(s: string, c: char): (n: nat)
    ensures n <= |s|
    ensures n == 0 <==> c !in s
  {
    if |s| == 0 then 0
    else
      assert s == [s[0]] + s[1..];
      (if s[0] == c then 1 else 0) + Occurrences(s[1..], c)
  }

  lemma {:induction false} OccurrencesConcat(a: string, b: string, c: char)
    ensures Occurrences(a + b, c) == Occurrences(a, c) + Occurrences(b, c)
    decreases |a|
  {
    if |a| > 0 {
      assert (a + b)[1..] == a[1..] + b;
      OccurrencesConcat(a[1..], b, c);
    } else {
      assert a + b == b;
    }
  }

  /** `s.split(sep)` has one piece more than s has separators. */
  lemma SplitCount(s: string, sep: char)
    ensures |Split(s, sep)| == Occurrences(s, sep) + 1
  {
    JoinOccurrences(Split(s, sep), sep);
  }

  /** A string with one separator splits into the text before it and the
      text after it. */
  lemma SplitTwo(a: string, b: string, sep: char)
    requires sep !in a && sep !in b
    ensures Split(a + [sep] + b, sep) == [a, b]
  {
    assert Join([a, b], [sep]) == a + [sep] + b by {
      assert [a, b][1..] == [b];
    }
    SplitJoin([a, b], sep);
  }

  /** Pieces without c, joined with c, hold one c fewer than there are pieces. */
  lemma {:induction false} JoinOccurrences(parts: seq<string>, c: char)
    requires |parts| >= 1
    requires forall k | 0 <= k < |parts| :: c !in parts[k]
    ensures Occurrences(Join(parts, [c]), c) == |parts| - 1
  {
    if |parts| > 1 {
      var rest := Join(parts[1..], [c]);
      assert Join(parts, [c]) == parts[0] + ([c] + rest);
      OccurrencesConcat(parts[0], [c] + rest, c);
      assert ([c] + rest)[1..] == rest;
      JoinOccurrences(parts[1..], c);
    }
  }

  /** Every piece joined is part of the joined text. */
  lemma {:induction false} JoinHolds(parts: seq<string>, sep: string, k: nat, c: char)
    requires k < |parts| && c in parts[k]
    ensures c in Join(parts, sep)
    decreases |parts|
  {
    if |parts| > 1 {
      assert Join(parts, sep) == parts[0] + sep + Join(parts[1..], sep);
      if k > 0 {
        JoinHolds(parts[1..], sep, k - 1, c);
      }
    }
  }

  /** A character of a piece of a split is a character of the text. */
  lemma SplitPartsIn(s: string, sep: char, c: char)
    ensures forall k | 0 <= k < |Split(s, sep)| :: c in Split(s, sep)[k] ==> c in s
  {
    forall k | 0 <= k < |Split(s, sep)| && c in Split(s, sep)[k] ensures c in s {
      JoinHolds(Split(s, sep), [sep], k, c);
    }
  }

  /** The test and transformation of `[p.strip() for p in parts if p.strip()]`:
      a piece is kept when its stripped form is not empty. */
  function NonBlankStrip(p: string): Option<string> {
    var s := Strip(p);
    if s == [] then None else Some(s)
  }

  /** `[p.strip() for p in parts if p.strip()]`: the stripped pieces that are
      not blank, in order. */
  function StrippedNonBlank(parts: seq<string>): (r: seq<string>)
    ensures |r| <= |parts|
    ensures forall k | 0 <= k < |r| :: r[k] != [] && !IsSpace(r[k][0]) && !IsSpace(r[k][|r[k]| - 1])
  {
    if |parts| == 0 then []
    else
      var s := Strip(parts[0]);
      (if s == [] then [] else [s]) + StrippedNonBlank(parts[1..])
  }

  /** The k-th result is the stripped form of the k-th piece that is not
      blank, and no such piece is lost. */
  lemma {:induction false} StrippedNonBlankKept(parts: seq<string>)
    ensures |StrippedNonBlank(parts)| == |Kept(parts, NonBlankStrip)|
    ensures forall k | 0 <= k < |StrippedNonBlank(parts)| ::
      StrippedNonBlank(parts)[k] == Strip(Kept(parts, NonBlankStrip)[k])
  {
    var r := StrippedNonBlank(parts);
    var kept := Kept(parts, NonBlankStrip);
    StrippedNonBlankFilters(parts);
    FilterMapKept(parts, NonBlankStrip);
    forall k | 0 <= k < |r| ensures r[k] == Strip(kept[k]) {
      assert NonBlankStrip(kept[k]) == Some(r[k]);
    }
  }

  /** The recursion is the filtering comprehension of `Lists`. */
  lemma {:induction false} StrippedNonBlankFilters(parts: seq<string>)
    ensures StrippedNonBlank(parts) == FilterMap(parts, NonBlankStrip)
  {
    if |parts| > 0 {
      StrippedNonBlankFilters(parts[1..]);
    }
  }

  /** A non-whitespace character absent from every piece is absent from
      every stripped piece. */
  lemma {:induction false} StrippedNonBlankKeeps(parts: seq<string>, c: char)
    requires !IsSpace(c)
    requires forall k | 0 <= k < |parts| :: c !in parts[k]
    ensures forall k | 0 <= k < |StrippedNonBlank(parts)| :: c !in StrippedNonBlank(parts)[k]
  {
    if |parts| > 0 {
      StripKeeps(parts[0], c);
      StrippedNonBlankKeeps(parts[1..], c);
    }
  }

  // ---------------------------------------------------------------------
  // split() and ' '.join: clean_text

  /** Python's `s.split()`: the maximal runs of non-whitespace, in order. */
  function Words(s: string): (ws: seq<string>)
    ensures forall k | 0 <= k < |ws| :: IsWord(ws[k])
    decreases |s|
  {
    if |s| == 0 then []
    else if IsSpace(s[0]) then Words(s[1..])
    else
      var n := SpanWord(s, 0);
      [s[..n]] + Words(s[n..])
  }

  /** A word followed by whitespace (or nothing) is split off as the first token. */
  lemma WordsOfWordThen(w: string, t: string)
    requires IsWord(w)
    requires t == [] || IsSpace(t[0])
    ensures Words(w + t) == [w] + Words(t)
  {
    var s := w + t;
    assert !IsSpace(s[0]);
    var n := SpanWord(s, 0);
    assert forall k | 0 <= k < |w| :: s[k] == w[k] && !IsSpace(s[k]);
    assert |w| < |s| ==> s[|w|] == t[0];
    assert n == |w|;
    assert s[..n] == w;
    assert s[n..] == t;
  }

  /** The text `ws` joins to has no leading, trailing or repeated whitespace,
      and every whitespace character in it is a plain space. */
  predicate Normalized(r: string) {
    forall i | 0 <= i < |r| && IsSpace(r[i]) ::
      r[i] == ' ' && 0 < i < |r| - 1 && !IsSpace(r[i - 1]) && !IsSpace(r[i + 1])
  }

  lemma {:induction false} JoinWordsNormalized(ws: seq<string>)
    requires forall k | 0 <= k < |ws| :: IsWord(ws[k])
    ensures Normalized(Join(ws, " "))
    ensures |ws| > 0 ==> Join(ws, " ") != []
    decreases |ws|
  {
    if |ws| == 1 {
      assert Join(ws, " ") == ws[0];
    } else if |ws| > 1 {
      var w := ws[0];
      var j := Join(ws[1..], " ");
      JoinWordsNormalized(ws[1..]);
      var r := w + " " + j;
      assert r == Join(ws, " ");
      assert !IsSpace(j[0]) && !IsSpace(j[|j| - 1]);
      assert forall i | 0 <= i < |w| :: r[i] == w[i] && !IsSpace(r[i]);
      assert r[|w|] == ' ' && r[|w| - 1] == w[|w| - 1] && r[|w| + 1] == j[0];
      forall i | |w| < i < |r| && IsSpace(r[i])
        ensures r[i] == ' ' && 0 < i < |r| - 1 && !IsSpace(r[i - 1]) && !IsSpace(r[i + 1])
      {
        var i' := i - |w| - 1;
        assert r[i] == j[i'];
        assert r[i - 1] == j[i' - 1];
        assert r[i + 1] == j[i' + 1];
      }
    }
  }

  lemma {:induction false} WordsOfJoin(ws: seq<string>)
    requires forall k | 0 <= k < |ws| :: IsWord(ws[k])
    ensures Words(Join(ws, " ")) == ws
    decreases |ws|
  {
    if |ws| == 1 {
      WordsOfWordThen(ws[0], "");
      assert ws[0] + "" == ws[0];
    } else if |ws| > 1 {
      var j := Join(ws[1..], " ");
      WordsOfJoin(ws[1..]);
      WordsOfWordThen(ws[0], " " + j);
      assert (" " + j)[1..] == j;
      assert ws[0] + " " + j == ws[0] + (" " + j);
      assert ws == [ws[0]] + ws[1..];
    }
  }

  /** Python's `' '.join(s.split())` (`clean_text`): the same tokens, with
      exactly one space between neighbours and none around them. */
  function CleanText(s: string): (r: string)
    ensures Normalized(r)
    ensures Words(r) == Words(s)
    ensures r == [] <==> Words(s) == []
  {
    var ws := Words(s);
    JoinWordsNormalized(ws);
    WordsOfJoin(ws);
    Join(ws, " ")
  }

  /** Cleaning twice is cleaning once. */
  lemma CleanTextIdempotent(s: string)
    ensures CleanText(CleanText(s)) == CleanText(s)
  {
  }

  /** A normalized text is cleaned to itself. */
  lemma {:induction false} NormalizedIsClean(s: string)
    requires Normalized(s)
    ensures Join(Words(s), " ") == s
    decreases |s|
  {
    if s != [] {
      assert !IsSpace(s[0]);
      var n := SpanWord(s, 0);
      if n == |s| {
        assert s[..n] == s;
        assert s[n..] == [];
      } else {
        assert s[n] == ' ' && !IsSpace(s[n + 1]);
        var t := s[n + 1..];
        assert Normalized(t) by {
          assert t[0] == s[n + 1] && !IsSpace(t[0]);
          forall i | 0 < i < |t| && IsSpace(t[i])
            ensures t[i] == ' ' && 0 < i < |t| - 1 && !IsSpace(t[i - 1]) && !IsSpace(t[i + 1])
          {
            assert t[i] == s[n + 1 + i];
          }
        }
        NormalizedIsClean(t);
        assert Words(s[n..]) == Words(t) by {
          assert s[n..][1..] == t;
        }
        assert Words(t) != [] by {
          assert t[0] == s[n + 1];
        }
        assert Words(s) == [s[..n]] + Words(t);
        assert s == s[..n] + " " + t;
      }
    }
  }

  /** `clean_text` leaves a text unchanged exactly when it is already normalized. */
  lemma CleanTextFixedPoints(s: string)
    ensures CleanText(s) == s <==> Normalized(s)
  {
    if Normalized(s) {
      NormalizedIsClean(s);
    }
  }

  // ---------------------------------------------------------------------
  // replace, lower, substring tests

  /** `s.replace(a, b)` for single characters. */
  function ReplaceChar(s: string, a: char, b: char): (r: string)
    ensures |r| == |s|
    ensures forall k | 0 <= k < |s| :: r[k] == (if s[k] == a then b else s[k])
    ensures a != b ==> a !in r
  {
    seq(|s|, k requires 0 <= k < |s| => if s[k] == a then b else s[k])
  }

  /** Replacing a by b is splitting at a and joining with b. */
  lemma {:induction false} ReplaceCharSplitJoin(s: string, a: char, b: char)
    ensures ReplaceChar(s, a, b) == Join(Split(s, a), [b])
    decreases |s|
  {
    var i := IndexOf(s, a);
    SplitFirst(s, a);
    if i == |s| {
      assert ReplaceChar(s, a, b) == s;
    } else {
      JoinCons(s[..i], Split(s[i + 1..], a), [b]);
      ReplaceCharSplitJoin(s[i + 1..], a, b);
      ReplaceCharAt(s, a, b, i);
    }
  }

  /** Replacing around the first occurrence of a. */
  lemma ReplaceCharAt(s: string, a: char, b: char, i: nat)
    requires i < |s| && s[i] == a && a !in s[..i]
    ensures ReplaceChar(s, a, b) == s[..i] + [b] + ReplaceChar(s[i + 1..], a, b)
  {
    var r := ReplaceChar(s, a, b);
    var t := s[..i] + [b] + ReplaceChar(s[i + 1..], a, b);
    forall k | 0 <= k < |r| ensures r[k] == t[k] {
      if k < i {
        assert s[..i][k] == s[k];
      } else if k > i {
        assert s[i + 1..][k - i - 1] == s[k];
      }
    }
  }

  /** `s.replace(c, '')`: s with every occurrence of c deleted. */
  function RemoveChar(s: string, c: char): (r: string)
    ensures c !in r
    ensures forall d | d != c :: d in r <==> d in s
    ensures |r| <= |s|
  {
    if |s| == 0 then []
    else
      var rest := RemoveChar(s[1..], c);
      assert s == [s[0]] + s[1..];
      if s[0] == c then rest else [s[0]] + rest
  }

  /** Deleting c is splitting at c and joining the pieces with nothing
      between them: order and multiplicity of the other characters are kept. */
  lemma {:induction false} RemoveCharSplitJoin(s: string, c: char)
    ensures RemoveChar(s, c) == Join(Split(s, c), [])
    decreases |s|
  {
    var i := IndexOf(s, c);
    if i == |s| {
      SplitFirst(s, c);
      assert Join([s], []) == s;
      RemoveAbsent(s, c);
    } else {
      var pre, post := s[..i], s[i + 1..];
      var joined := Join(Split(post, c), []);
      assert Join(Split(s, c), []) == pre + joined by {
        SplitFirst(s, c);
        JoinConsEmpty(pre, Split(post, c));
      }
      assert RemoveChar(post, c) == joined by {
        RemoveCharSplitJoin(post, c);
      }
      assert RemoveChar(s, c) == pre + RemoveChar(post, c) by {
        RemoveCharAt(s, c, i);
      }
    }
  }

  /** Joining with nothing between the pieces. */
  lemma JoinConsEmpty(p: string, rest: seq<string>)
    requires |rest| >= 1
    ensures Join([p] + rest, []) == p + Join(rest, [])
  {
    JoinCons(p, rest, []);
    assert p + [] == p;
  }

  /** The first piece of a split runs up to the first separator. */
  lemma SplitFirst(s: string, sep: char)
    ensures var i := IndexOf(s, sep);
      && (i == |s| ==> sep !in s && Split(s, sep) == [s])
      && (i < |s| ==> Split(s, sep) == [s[..i]] + Split(s[i + 1..], sep))
  {
    var i := IndexOf(s, sep);
    if i == |s| {
      assert s[..i] == s;
    }
  }

  /** Joining a piece in front of at least one more. */
  lemma JoinCons(p: string, rest: seq<string>, sep: string)
    requires |rest| >= 1
    ensures Join([p] + rest, sep) == p + sep + Join(rest, sep)
  {
    assert ([p] + rest)[1..] == rest;
  }

  /** Deleting c shortens the text by the number of its occurrences. */
  lemma {:induction false} RemoveCharLength(s: string, c: char)
    ensures |RemoveChar(s, c)| == |s| - Occurrences(s, c)
  {
    if |s| > 0 {
      RemoveCharLength(s[1..], c);
    }
  }

  /** Deleting the one occurrence of c, at the end. */
  lemma RemoveLast(s: string, c: char)
    requires c !in s
    ensures RemoveChar(s + [c], c) == s
  {
    RemoveConcat(s, [c], c);
    RemoveAbsent(s, c);
    assert RemoveChar([c], c) == [];
  }

  /** Deleting around the first occurrence of c. */
  lemma RemoveCharAt(s: string, c: char, i: nat)
    requires i < |s| && s[i] == c && c !in s[..i]
    ensures RemoveChar(s, c) == s[..i] + RemoveChar(s[i + 1..], c)
  {
    var pre, post := s[..i], s[i + 1..];
    var tail := [c] + post;
    assert s == pre + tail;
    RemoveConcat(pre, tail, c);
    RemoveAbsent(pre, c);
    assert tail[1..] == post;
    assert RemoveChar(tail, c) == RemoveChar(post, c);
  }

  /** Removing a character that does not occur changes nothing. */
  lemma {:induction false} RemoveAbsent(s: string, c: char)
    requires c !in s
    ensures RemoveChar(s, c) == s
  {
    if |s| > 0 {
      assert c !in s[1..];
      RemoveAbsent(s[1..], c);
      assert s == [s[0]] + s[1..];
    }
  }

  /** Removing a character from a concatenation removes it from each part. */
  lemma {:induction false} RemoveConcat(a: string, b: string, c: char)
    ensures RemoveChar(a + b, c) == RemoveChar(a, c) + RemoveChar(b, c)
    decreases |a|
  {
    if |a| > 0 {
      assert (a + b)[0] == a[0];
      assert (a + b)[1..] == a[1..] + b;
      RemoveConcat(a[1..], b, c);
    } else {
      assert a + b == b;
    }
  }

  function LowerChar(c: char): char {
    if 'A' <= c <= 'Z' then (c as int + 32) as char else c
  }

  /** `s.lower()` restricted to the ASCII letters: every capital becomes its
      small letter, every other character is kept, and no capital is left. */
  function AsciiLower(s: string): (r: string)
    ensures |r| == |s|
    ensures forall k | 0 <= k < |s| :: !('A' <= s[k] <= 'Z') ==> r[k] == s[k]
    ensures forall k | 0 <= k < |s| :: 'A' <= s[k] <= 'Z' ==>
      'a' <= r[k] <= 'z' && r[k] as int - s[k] as int == 'a' as int - 'A' as int
    ensures forall k | 0 <= k < |r| :: !('A' <= r[k] <= 'Z')
  {
    seq(|s|, k requires 0 <= k < |s| => LowerChar(s[k]))
  }

  /** Lowering leaves a text unchanged exactly when it holds no capital. */
  lemma AsciiLowerFixedPoints(s: string)
    ensures AsciiLower(s) == s <==> forall k | 0 <= k < |s| :: !('A' <= s[k] <= 'Z')
  {
    if AsciiLower(s) == s {
      forall k | 0 <= k < |s| ensures !('A' <= s[k] <= 'Z') {
        assert AsciiLower(s)[k] == s[k];
      }
    }
  }

  /** Lowering twice is lowering once. */
  lemma AsciiLowerIdempotent(s: string)
    ensures AsciiLower(AsciiLower(s)) == AsciiLower(s)
  {
    AsciiLowerFixedPoints(AsciiLower(s));
  }

  /** sub occurs in s starting at position p. */
  predicate OccursAt(s: string, sub: string, p: int) {
    0 <= p && p + |sub| <= |s| && forall j | 0 <= j < |sub| :: s[p + j] == sub[j]
  }

  /** Python's `sub in s`. */
  predicate Contains(s: string, sub: string) {
    exists p | 0 <= p <= |s| - |sub| :: OccursAt(s, sub, p)
  }

  /** `s.endswith(c)` for a single character. */
  predicate EndsWith(s: string, c: char) {
    |s| > 0 && s[|s| - 1] == c
  }

  // ---------------------------------------------------------------------
  // split(marker)[-1]

  /** The left-to-right scan of `s.split(m)`: `start` opens the current
      piece and `i` is the next position to test for m. The result is where
      the last piece begins. */
  function LastPieceStart(s: string, m: string, i: nat, start: nat): (k: nat)
    requires |m| > 0 && start <= i <= |s|
    ensures start <= k <= |s|
    decreases |s| - i
  {
    if i + |m| > |s| then start
    else if OccursAt(s, m, i) then LastPieceStart(s, m, i + |m|, i + |m|)
    else LastPieceStart(s, m, i + 1, start)
  }

  /** When m does not occur between `start` and `i`, and `start` follows an
      occurrence of m (or is 0), the piece the scan ends on holds no m and
      follows an occurrence of m (or is all of s). */
  lemma {:induction false} LastPieceStartSpec(s: string, m: string, i: nat, start: nat)
    requires |m| > 0 && start <= i <= |s|
    requires forall p | start <= p < i :: !OccursAt(s, m, p)
    requires AfterMark(s, m, start)
    ensures FreeFrom(s, m, LastPieceStart(s, m, i, start))
    ensures AfterMark(s, m, LastPieceStart(s, m, i, start))
    decreases |s| - i
  {
    if i + |m| > |s| {
      NoOccurrenceFrom(s, m, i, start);
    } else if OccursAt(s, m, i) {
      assert AfterMark(s, m, i + |m|);
      LastPieceStartSpec(s, m, i + |m|, i + |m|);
    } else {
      LastPieceStartSpec(s, m, i + 1, start);
    }
  }

  /** m occurs nowhere from k on. */
  ghost predicate FreeFrom(s: string, m: string, k: nat) {
    forall p | k <= p :: !OccursAt(s, m, p)
  }

  /** k is 0 or directly follows an occurrence of m. */
  predicate AfterMark(s: string, m: string, k: nat) {
    k == 0 || (|m| <= k && OccursAt(s, m, k - |m|))
  }

  /** m does not fit after i, so it occurs nowhere from start on. */
  lemma NoOccurrenceFrom(s: string, m: string, i: nat, start: nat)
    requires start <= i && i + |m| > |s|
    requires forall p | start <= p < i :: !OccursAt(s, m, p)
    ensures FreeFrom(s, m, start)
  {
  }

  /** When m does not occur in s the last piece is all of s. */
  lemma LastPieceOfAbsent(s: string, m: string)
    requires |m| > 0
    ensures !Contains(s, m) ==> LastPiece(s, m) == s
  {
    var r := LastPiece(s, m);
    if r != s {
      var p := |s| - |r| - |m|;
      assert s[p..|s| - |r|] == m;
      forall j | 0 <= j < |m| ensures s[p + j] == m[j] {
        assert s[p..|s| - |r|][j] == s[p + j];
      }
      assert OccursAt(s, m, p);
    }
  }

  /** A suffix of s past the last occurrence of m holds no m. */
  lemma SuffixFree(s: string, m: string, k: nat)
    requires k <= |s|
    requires FreeFrom(s, m, k)
    ensures forall p | 0 <= p :: !OccursAt(s[k..], m, p)
  {
    forall p | 0 <= p ensures !OccursAt(s[k..], m, p) {
      if OccursAt(s[k..], m, p) {
        forall j | 0 <= j < |m| ensures s[k + p + j] == m[j] {
          assert s[k..][p + j] == s[k + p + j];
        }
        assert OccursAt(s, m, k + p);
      }
    }
  }

  /** An occurrence is a slice equal to m. */
  lemma OccursAtSlice(s: string, m: string, p: nat)
    requires OccursAt(s, m, p)
    ensures s[p..p + |m|] == m
  {
  }

  /** Python's `s.split(m)[-1]`: the text after the last occurrence of m
      found by the left-to-right split, or all of s when m does not occur. */
  function LastPiece(s: string, m: string): (r: string)
    requires |m| > 0
    ensures |r| <= |s| && r == s[|s| - |r|..]
    ensures forall p | 0 <= p :: !OccursAt(r, m, p)
    ensures r == s || (|m| <= |s| - |r| && s[|s| - |r| - |m|..|s| - |r|] == m)
  {
    var k := LastPieceStart(s, m, 0, 0);
    LastPieceStartSpec(s, m, 0, 0);
    SuffixFree(s, m, k);
    var r := s[k..];
    if k > 0 then OccursAtSlice(s, m, k - |m|); r else r
  }
}

=== FILE: unit_tables.dfy ===
/** The reference data of `utils.py`: the bed capacity of every known
    clinical and intensive-care unit, the totals derived from them, and the
    alias table that `parse_simple_format` uses to turn the labels people
    type into canonical unit names. A Python dict literal is modelled as its
    entries in insertion order. */
module UnitTables {
  import opened Results
  import opened Dicts

  function SumValues(table: seq<(string, nat)>): nat {
    if |table| == 0 then 0 else table[0].1 + SumValues(table[1..])
  }

  /** `CLINICAL_UNITS`: the clinical wards and their bed counts. */
  const ClinicalUnits: seq<(string, nat)> := [
    ("Clínica Médica", 30),
    ("Enfermaria Pediátrica", 50),
    ("Geriatria", 33),
    ("UCI Pediátrica", 10)
  ]

  /** `ICU_UNITS`: the intensive-care units and their bed counts. */
  const IcuUnits: seq<(string, nat)> := [
    ("UTI Fundhacrê", 10),
    ("UTI HSJ", 20),
    ("UTI HUERB 1", 17),
    ("UTI HUERB 2", 10),
    ("UTI INTO", 17),
    ("UTI Pediátrica", 10)
  ]

  /** `unit_mappings` in `parse_simple_format`: typed label to canonical name. */
  const UnitMappings: seq<(string, string)> := [
    ("UTI 1", "UTI HUERB 1"),
    ("UTI 2", "UTI HUERB 2"),
    ("UTI INTO", "UTI INTO"),
    ("UTI HSJ", "UTI HSJ"),
    ("UTI FUNDAÇÃO", "UTI Fundhacrê"),
    ("UTI Pediátrica", "UTI Pediátrica"),
    ("UCI Pediátrica", "UCI Pediátrica"),
    ("Enf. Pediátrica", "Enfermaria Pediátrica"),
    ("Geriatria", "Geriatria"),
    ("Clinica médica", "Clínica Médica")
  ]

  /** `TOTAL_CLINICAL_BEDS`, the sum of the clinical capacities. */
  function TotalClinicalBeds(): (n: nat)
    ensures n == 123
  {
    SumValues(ClinicalUnits)
  }

  /** `TOTAL_ICU_BEDS`, the sum of the intensive-care capacities. */
  function TotalIcuBeds(): (n: nat)
    ensures n == 84
  {
    SumValues(IcuUnits)
  }

  /** The three literals are well-formed dicts, and no unit is both clinical
      and intensive-care. */
  lemma TablesWellFormed()
    ensures DistinctKeys(ClinicalUnits) && DistinctKeys(IcuUnits) && DistinctKeys(UnitMappings)
    ensures forall name | HasKey(ClinicalUnits, name) :: !HasKey(IcuUnits, name)
  {
  }

  /** A unit is counted as clinical exactly when its name is a `CLINICAL_UNITS` key. */
  predicate IsClinical(name: string) {
    HasKey(ClinicalUnits, name)
  }

  /** `unit_mappings.get(label, label)`: a label found in the alias table is
      replaced by its canonical name; any other label is kept. */
  function ResolveAlias(typed: string): (name: string)
    ensures !HasKey(UnitMappings, typed) ==> name == typed
    ensures HasKey(UnitMappings, typed) ==> exists k | 0 <= k < |UnitMappings| :: UnitMappings[k] == (typed, name)
  {
    Lookup(UnitMappings, typed).GetOr(typed)
  }

  /** Every alias leads to a unit of one of the two capacity tables. */
  lemma AliasTargetsAreKnownUnits(typed: string)
    requires HasKey(UnitMappings, typed)
    ensures HasKey(ClinicalUnits, ResolveAlias(typed)) || HasKey(IcuUnits, ResolveAlias(typed))
  {
    var name := ResolveAlias(typed);
    var k :| 0 <= k < |UnitMappings| && UnitMappings[k] == (typed, name);
    AliasEntryKnown(k);
  }

  /** The k-th alias names a unit of one of the two capacity tables. */
  lemma AliasEntryKnown(k: nat)
    requires k < |UnitMappings|
    ensures HasKey(ClinicalUnits, UnitMappings[k].1) || HasKey(IcuUnits, UnitMappings[k].1)
  {
    var name := UnitMappings[k].1;
    if k == 0 {
      assert IcuUnits[2].0 == name;
    } else if k == 1 {
      assert IcuUnits[3].0 == name;
    } else if k == 2 {
      assert IcuUnits[4].0 == name;
    } else if k == 3 {
      assert IcuUnits[1].0 == name;
    } else if k == 4 {
      assert IcuUnits[0].0 == name;
    } else if k == 5 {
      assert IcuUnits[5].0 == name;
    } else if k == 6 {
      assert ClinicalUnits[3].0 == name;
    } else if k == 7 {
      assert ClinicalUnits[1].0 == name;
    } else if k == 8 {
      assert ClinicalUnits[2].0 == name;
    } else {
      assert ClinicalUnits[0].0 == name;
    }
  }
}
